=== FILE: README.md ===
# iso-demo telemetry core in Dafny

This project models the deterministic core of the iso-demo telemetry tooling.

- **Report pipeline** (`telemetry_report.py`, up to the point where pandas frames are built):
  - finding the snapshot files and keeping one per stem;
  - the defensive JSON accessors;
  - the model size bucket;
  - the nearest-rank latency percentile;
  - the three row kinds `load_all` flattens each snapshot into: spec rows, per-model summary rows and per-sample digit rows;
  - the mode-collapse anomaly table, grouped by machine name and model file.
- **Client-side ADHD10 score** (`telemetrics.go`): the bucket counters, per-sample labels, accuracies and drift roll-ups of one model run over the ten fixed MNIST samples. It also covers `labelBucket`, `firstIndexPerDigit`, `top1`, `absInt`, `safeDiv` and `ternary`.
- **Go text helpers:**
  - the system probe's `normalizeArch`, `firstNonEmpty`, `firstLineClean`, `compactOneLine`, `parseUint` and the matching part of `readFirstLine`;
  - the benchmark filter `applyBenchFilter`;
  - `parsePort`;
  - the suffix choice of `humanize`.
- **Go array helpers:**
  - `driftMaxAndMAE` and the selection part of `formatTopK`;
  - `labelToOneHot`, `argmax64` and `flattenMNIST64`;
  - the model-zoo builders (`toParagonShapes`, `buildActivs`, `buildTrainable`) and the `mnist_<ID>.json` file names.

Modelling choices:

- Python's `NaN` and a failed `float(...)` are `None` of an `Option<real>`, and floats are exact reals.
- A parsed JSON file is a small `Json` datatype. A snapshot is a typed record. Its string fields and `ram_bytes` carry the types the Go writer emits. The leaves the script coerces itself (records, `webgpu_init_ok`, `webgpu_init_time_ms`, `adhd10`) stay JSON values.
- The filesystem is a parameter: a map from folder to its entries and a map from file to its parsed snapshot. A file missing from that map is one `json.load` could not read.
- Go's `int` is a 64-bit integer. Its wrap-around is written out where a subtraction can overflow (`labelBucket`).
- Go's `strings` functions are modelled on ASCII case and on Go's white-space set.

Modules follow the program's structure:

| File | Contents |
|---|---|
| `wrappers` | `Option` / `Result` |
| `seqs` | generic count, filter, insertion sort, first-by-key dedup |
| `text` | Go `strings` |
| `decimal` | Go `strconv` |
| `json` | JSON values and accessors |
| `size_bucket` | model size bucket |
| `percentile` | nearest-rank percentile |
| `mode_collapse` | mode-collapse test |
| `discovery` | snapshot file discovery |
| `snapshots` | snapshot records |
| `rows` | spec, summary and digit rows |
| `anomalies` | anomaly table |
| `report` | `load_all` |
| `telemetrics` | ADHD10 score |
| `sysprobe` | system-probe text helpers |
| `sysbench` | benchmark filter |
| `compare` | drift and top-k |
| `mnist` | MNIST tensor helpers |
| `models` | model zoo |
| `websrv` | `parsePort` |
| `humanize` | `humanize` |

Behaviour worth noting:

- `_model_size_bucket("mnist.json")` is `M`. The fallback search finds the `m` of `mnist`, and `UNK` needs a name without any s, m or l (`SizeBucket.FallbackExampleBare`, `SizeBucket.UnknownIffNoSizeLetter`).
- `load_all` stops with an error only when no file is discovered. If files are found but none can be read, it returns empty tables (`Report.LoadAllNothingReadable`).
- `machine_name` takes `device_model` only when it is non-empty (Python's `or`). Otherwise it takes the text of `cpu_model` before the first `" CPU"`, or `unknown` when `cpu_model` is absent.
- `labelBucket` computes `pred - label` in wrapping 64-bit arithmetic, so labels at opposite ends of the `int` range count as off by one (`Telemetrics.LabelBucketWraps`). For any pair whose difference fits, including all digits 0–9, the buckets mean what they say (`Telemetrics.LabelBucketIntended`).

## Model

| member | source | states |
|---|---|---|
| Json.SafeGet | telemetry_report.py:77-83 | the walk ends at the value the key path leads to through nested objects, or gives the default as soon as a step is not an object holding the key; no keys give the input itself |
| Json.ResolveAppend | telemetry_report.py:79-82 | following a path a + b is following a, then b from where a ends; a missing step anywhere makes the whole lookup fail |
| Json.CoerceFloat | telemetry_report.py:64-68 | a value is produced exactly for integers, floats, booleans and strings holding a plain decimal (optional surrounding white space and sign, digits with at most one point), with the numeric value; null, other strings, lists and objects give the NaN default |
| Json.CoerceFloatOfText | telemetry_report.py:64-68 | an integer written out as a string coerces to the same value as the integer itself |
| Json.Truthy | telemetry_report.py:157 | `bool(x)`: null is false, and a number or boolean is true exactly when its float value is nonzero |
| FloatText.FormatIntIsLiteral | telemetry_report.py:64-68 | every printed integer is a decimal literal that `float` reads as that integer |
| FloatText.SameStrip | telemetry_report.py:64-68 | only the text inside the surrounding white space decides whether and how `float` reads it |
| FloatText.FractionExample | telemetry_report.py:64-68 | "12.5" reads as 12.5 |
| FloatText.SpaceExample | telemetry_report.py:64-68 | " 12.5\n" reads as 12.5: a leading space and a trailing newline are stripped |
| FloatText.StripExample | telemetry_report.py:64-68 | stripping " 12.5\n" leaves "12.5" |
| FloatText.TwoPointsNotDecimal | telemetry_report.py:64-68 | "1.2.3" is refused |
| FloatText.LonePointNotDecimal | telemetry_report.py:64-68 | "." is refused: a literal needs a digit |
| FloatText.LetterNotDecimal | telemetry_report.py:64-68 | "12a" is refused |
| Json.Get | telemetry_report.py:212 | `dict.get(key)` is the one-step nested lookup |
| Json.AsInt | telemetry_report.py:231 | a prediction survives the `isinstance(p, int)` filter exactly when it is an integer or a boolean, and its integer value is its float coercion |
| SizeBucket.FirstToken | telemetry_report.py:74 | the leftmost position where S, M, L or XL matches case-insensitively, or none exactly when no position matches |
| SizeBucket.TrailingDigits | telemetry_report.py:72 | the `\d*` run before `.json`: all digits, and maximal |
| SizeBucket.ModelSizeBucket | telemetry_report.py:70-75 | always one of S, M, L, XL, UNK; a `_<size><digits>.json` suffix decides when present, otherwise the first size token anywhere, otherwise UNK |
| SizeBucket.UnknownIffNoSizeLetter | telemetry_report.py:70-75 | the bucket is UNK exactly when the name holds no s, m or l in either case |
| SizeBucket.SuffixExampleS | telemetry_report.py:71 | `mnist_S1.json` falls in S |
| SizeBucket.SuffixExampleXL | telemetry_report.py:71 | `mnist_XL2.json` falls in XL |
| SizeBucket.SuffixExampleM | telemetry_report.py:72 | the suffix match ignores case, in the extension too |
| SizeBucket.SuffixExampleNewline | telemetry_report.py:72 | `$` also matches before a final newline |
| SizeBucket.FallbackExampleBare | telemetry_report.py:73-75 | `mnist.json` has no suffix token and falls in M through the fallback search |
| SizeBucket.FallbackExampleXL | telemetry_report.py:74 | a name starting with `xl` falls in XL through the fallback search |
| SizeBucket.FallbackExampleBin | telemetry_report.py:73-75 | a non-JSON name is still classified by its letters, and one without size letters is UNK |
| Percentile.RoundHalfEven | telemetry_report.py:90 | Python's `round`: within one half of the input, and even on a tie |
| Percentile.RoundHalfEvenUnique | telemetry_report.py:90 | those two properties determine the rounded value |
| Percentile.RoundHalfEvenMonotone | telemetry_report.py:90 | rounding preserves order |
| Percentile.PctIndex | telemetry_report.py:90 | for 0 <= q <= 100 the rank is a valid index into the n sorted values |
| Percentile.PctIndexMonotone | telemetry_report.py:90 | a larger percent never gives a smaller rank |
| Percentile.NumericValues | telemetry_report.py:86 | the filtered list is no longer than the column |
| Percentile.NumericValuesMembers | telemetry_report.py:86 | the filtered list is empty exactly when every entry is NaN; it holds exactly the present values |
| Percentile.NumericValuesCons | telemetry_report.py:86 | the filter keeps the head when present, then filters the tail |
| Percentile.NumericValuesGapExample | telemetry_report.py:86 | a NaN in the middle is skipped and order is kept |
| Percentile.Sorted | telemetry_report.py:89 | `sorted` is a permutation of its input in non-decreasing order |
| Percentile.SortedLe | telemetry_report.py:89 | in the sorted list every earlier value is at most every later one |
| Percentile.SortedEnds | telemetry_report.py:89 | every present value lies between the first and the last sorted value |
| Percentile.SortedThreeExample | telemetry_report.py:89 | `sorted([3, 1, 2])` is `[1, 2, 3]` |
| Percentile.Pct | telemetry_report.py:85-91 | NaN exactly when no value is present; otherwise a value of the column, namely the order statistic at `round(q(n-1)/100)`: at most that many values lie strictly below it and more than that many lie at or below it |
| Percentile.PctRankUnique | telemetry_report.py:89-91 | the order-statistic characterisation determines the value |
| Percentile.PctAtRank | telemetry_report.py:89-91 | the percentile is the sorted value at the rounded rank |
| Percentile.PctMonotone | telemetry_report.py:85-91 | the percentile never decreases as q grows |
| Percentile.PctBetween | telemetry_report.py:85-91 | every percentile lies between the smallest and largest present value |
| Percentile.PctExampleTie | telemetry_report.py:90 | the median of [1, 2] is 1, because rank 0.5 rounds to the even rank 0 |
| Percentile.PctIndexHighExample | telemetry_report.py:90 | q = 90 over four values gives rank 3 |
| Percentile.PctExampleHigh | telemetry_report.py:85-91 | the 90th percentile of [1, 2, 3, 4] is 4 |
| Percentile.PctExampleUnsorted | telemetry_report.py:85-91 | NaNs are dropped and the rest is sorted before ranking |
| Percentile.PctExampleEmpty | telemetry_report.py:87-88 | an all-NaN column has no percentile |
| ModeCollapse.Occurrences | telemetry_report.py:97 | `count(v)` never exceeds the list's length |
| ModeCollapse.OccurrencesMultiset | telemetry_report.py:97 | `count(v)` is the multiplicity of v |
| ModeCollapse.OccurrencesDisjoint | telemetry_report.py:97 | two different labels together occur at most once per position |
| ModeCollapse.MaxCountOver | telemetry_report.py:97 | the maximum count over a candidate list bounds every candidate's count and is attained by one |
| ModeCollapse.MostCommonCount | telemetry_report.py:97 | `max(count(v) for v in set(p))` bounds every element's count and is attained by one, 0 for an empty list |
| ModeCollapse.IsModeCollapse | telemetry_report.py:93-98 | false on an empty list; true exactly when some label occurs at least 7 times |
| ModeCollapse.ModeCollapseNeedsSeven | telemetry_report.py:94-98 | a collapse needs at least seven predictions |
| ModeCollapse.ModeCollapseOrderFree | telemetry_report.py:93-98 | the verdict depends only on the multiset of predictions, not on their order |
| ModeCollapse.DominantTransfers | telemetry_report.py:97-98 | a label occurring seven times is still dominant in any permutation |
| ModeCollapse.ModeCollapseExampleSeven | telemetry_report.py:94 | seven of ten digits predicted as one label is a collapse |
| ModeCollapse.ModeCollapseExampleSix | telemetry_report.py:98 | six of ten is not |
| Discovery.FindInputDirs | telemetry_report.py:101-104 | the command-line folders when there are any, the two default folders otherwise; never empty |
| Discovery.Stem | telemetry_report.py:115 | pathlib's stem: the name up to its last dot, unless that dot is the first or the last character |
| Discovery.StemOfMatch | telemetry_report.py:110-115 | the stem of a `telemetry_*.json` name is the name without `.json` |
| Discovery.MatchesGlob | telemetry_report.py:110 | `telemetry_*.json`: the name starts with `telemetry_` and ends with `.json`, the star taking any text, the empty one included |
| Discovery.LexLeIsTotal | telemetry_report.py:110 | the name order `sorted` uses is total |
| Discovery.Under | telemetry_report.py:110 | the entries of a folder as paths under it, in order |
| Discovery.FilesIn | telemetry_report.py:109-110 | a folder's candidates are exactly its `telemetry_*.json` entries, in sorted name order, each matching entry once |
| Discovery.Candidates | telemetry_report.py:107-110 | candidates come only from existing folders, folder by folder |
| Discovery.CandidatesComplete | telemetry_report.py:108-110 | every matching entry of every existing input folder is a candidate |
| Discovery.DiscoverJsonFiles | telemetry_report.py:106-118 | the result is an order-preserving subsequence of the candidates, with pairwise-distinct stems, where each kept file is the first candidate with its stem |
| Discovery.DiscoverComplete | telemetry_report.py:111-118 | every matching file of every existing folder has its stem represented |
| Discovery.DiscoverEmpty | telemetry_report.py:106-118 | nothing is discovered exactly when no existing folder holds a matching name |
| Discovery.DiscoverFirstFolderWins | telemetry_report.py:111-118 | a snapshot cached in both default folders is read once, from the first folder |
| Snapshots.Field | telemetry_report.py:212 | `r.get(key)` is the key's value, or null when the key is absent |
| Snapshots.MachineName | telemetry_report.py:139 | a non-empty device model wins; otherwise the CPU model up to its first " CPU", or `unknown` |
| Snapshots.MachineNameFromCpu | telemetry_report.py:139 | "Intel i7 CPU @ 3GHz" names the machine "Intel i7" |
| Snapshots.MachineNameUnknown | telemetry_report.py:139 | an empty device model and no CPU model give "unknown" |
| Snapshots.MachineNameDevice | telemetry_report.py:139 | a device model takes precedence over the CPU model |
| Rows.BuildSpecRow | telemetry_report.py:136-152 | the spec row's id is the snapshot's id or the file stem; it carries the resolved machine name; its GiB times 2^30 is the RAM in bytes (0 when absent); models_tested is the number of model runs |
| Rows.MeanTimesCount | telemetry_report.py:170 | the mean times the count is the sum |
| Rows.MeanOpt | telemetry_report.py:170-171 | `nanmean`: NaN exactly when no latency is present; otherwise the mean of the present ones, which lies between the smallest and the largest of them |
| Rows.MeanWitnesses | telemetry_report.py:170 | some present value is at most the mean, and some is at least it |
| Rows.Speedup | telemetry_report.py:172 | defined exactly when both means are present and the GPU mean is nonzero; speedup times GPU mean is CPU mean |
| Rows.Throughput | telemetry_report.py:173-174 | defined exactly for a present, nonzero mean; throughput times mean is 1000 |
| Rows.Latencies | telemetry_report.py:165 | one coerced `elapsed_ms` per record, in order |
| Rows.PercentilesOrdered | telemetry_report.py:193-198 | P50, P90 and P99 of one column are all present or all absent, and P50 <= P90 <= P99 |
| Rows.Percentiles | telemetry_report.py:193-198 | P50, P90 and P99 of a column, ordered, and present exactly when the column's mean is |
| Rows.BuildSummaryRow | telemetry_report.py:154-200 | machine id, machine name and model file are carried over; the size bucket comes from the model file; the WebGPU init time and the five ADHD10 fields are the coerced snapshot values; the CPU mean is the nanmean of CPU latencies and its percentiles are P50/P90/P99 of those latencies; speedup and both throughputs are computed from the row's means as above; without WebGPU the GPU mean, speedup, GPU throughput and GPU percentiles are all absent, and with it the GPU percentiles are those of the GPU latencies; percentiles are ordered and present exactly when the mean is |
| Rows.GpuRecordAt | telemetry_report.py:204 | `gpu[i]` when WebGPU came up and i is in range, the empty record otherwise |
| Rows.DriftRecordAt | telemetry_report.py:205 | `drift[i]` when i is in range, the empty record otherwise |
| Rows.BuildDigitRow | telemetry_report.py:203-222 | the row carries the run's machine id, machine name and model file, which key its anomaly group; CPU fields come from `cpu[i]`; GPU fields come from `gpu[i]` only when WebGPU came up and i < len(gpu), and are absent otherwise; drift fields come only when i < len(drift) |
| Rows.RunRows | telemetry_report.py:176-222 | a run contributes its summary row followed by one digit row per CPU sample, in sample order |
| Rows.RunRowsCounts | telemetry_report.py:176-222 | exactly one summary row and exactly len(cpu) digit rows per run, whatever the GPU and drift lengths |
| Rows.RowsPerRun | telemetry_report.py:154-222 | the rows of run k are the summary and digit rows of run k |
| Rows.RunsRows | telemetry_report.py:154-222 | a snapshot's rows are the rows of its runs concatenated in run order, one row per run plus one per CPU sample |
| Rows.RunsRowsCounts | telemetry_report.py:154-222 | the summary rows number the runs, and the digit rows number the CPU samples |
| Report.ReadableFiles | telemetry_report.py:128-134 | the files `json.load` can read, each in the parsed map, as many as the readable files |
| Report.ReadablePairs | telemetry_report.py:128-134 | each readable file paired with its parsed snapshot, in file order |
| Report.ReadablePairsStep | telemetry_report.py:128-134 | the walk takes the first file's pair when it is readable, then the rest |
| Report.SpecTableStep | telemetry_report.py:128-152 | the spec table is the first readable file's spec row followed by the rest's |
| Report.PerfTableStep | telemetry_report.py:154-222 | the performance table is the first readable file's rows followed by the rest's |
| Report.SpecRows | telemetry_report.py:128-152 | the spec row of each readable file, built from that file's stem and snapshot, in file order; one per readable file |
| Report.PerfRows | telemetry_report.py:154-222 | the rows of each readable file concatenated in file order; they number the runs plus the CPU samples of the readable files |
| Report.PerfRowsCounts | telemetry_report.py:154-222 | over all readable files, the summary rows number the model runs and the digit rows number the CPU samples |
| Report.DigitRows | telemetry_report.py:230 | `is_digit == True` selects exactly the digit rows |
| Report.AnomalyTable | telemetry_report.py:227-240 | the anomaly table has no duplicates and holds an anomaly exactly when its group exists and that device's predictions collapse |
| Report.LoadAll | telemetry_report.py:120-242 | an error exactly when no file is discovered; otherwise tables built from the discovered files: the spec rows and the performance rows of the readable files in file order (one spec row per readable file, one summary row per run, one digit row per CPU sample), and the anomaly table above |
| Report.LoadFiles | telemetry_report.py:121-123 | no files is the only error |
| Report.TablesOfFiles | telemetry_report.py:125-240 | the tables built from any file list satisfy the row counts and the anomaly characterisation |
| Report.LoadAllNothingReadable | telemetry_report.py:128-134 | discovered files that cannot be read do not stop the report, which comes out with empty tables |
| Report.NothingReadable | telemetry_report.py:128-134 | unreadable files contribute no row |
| Anomalies.RowKeys | telemetry_report.py:230 | the (machine_name, model_file) key of every digit row, in order |
| Anomalies.GroupKeys | telemetry_report.py:230 | the groups of `groupby` are distinct, sorted by machine name then model file, and are exactly the keys some row has |
| Anomalies.DedupKeysAreGroups | telemetry_report.py:230 | the first occurrences of the row keys are exactly the groups |
| Anomalies.GroupPreds | telemetry_report.py:231 | one collected prediction per group row whose prediction is present and integral |
| Anomalies.GroupPredsFromRows | telemetry_report.py:231 | every collected prediction is the integer prediction of a row of that group |
| Anomalies.Flags | telemetry_report.py:232-237 | the CPU flag then the GPU flag, each present exactly when its test holds, never twice |
| Anomalies.GroupAnomalies | telemetry_report.py:230-237 | a group's anomalies are exactly the devices whose predictions collapse, at most one per device |
| Anomalies.EmitAllMembers | telemetry_report.py:230-237 | over a list of groups, an anomaly is emitted exactly when its group is listed and collapses |
| Anomalies.EmitAllDistinct | telemetry_report.py:230-237 | over distinct groups no anomaly is emitted twice |
| Anomalies.DetectAnomalies | telemetry_report.py:227-240 | at most one `cpu_mode_collapse` and one `gpu_mode_collapse` per (machine_name, model_file) group, each present exactly when `_is_mode_collapse` holds on that group's integer predictions |
| Telemetrics.Sub64 | telemetrics.go:415 | Go's `int` subtraction: the true difference when it fits, otherwise that difference wrapped by 2^64 |
| Telemetrics.AbsInt | telemetrics.go:462-467 | non-negative and equal to x or -x, except the most negative `int`, which is its own negation |
| Telemetrics.LabelBucket | telemetrics.go:469-477 | "correct" exactly when pred equals the label; "off_by_1" exactly when they differ and the wrapped difference has absolute value 1; "wrong" otherwise |
| Telemetrics.LabelBucketIntended | telemetrics.go:469-477 | when the difference does not overflow, off_by_1 means they differ by exactly 1 and wrong means by more |
| Telemetrics.LabelBucketWraps | telemetrics.go:473 | the most negative and the most positive `int` count as off by one |
| Telemetrics.Ternary | telemetrics.go:479-484 | the first value when the condition holds, the second otherwise |
| Telemetrics.SafeDiv | telemetrics.go:498-503 | 0 for a zero divisor; otherwise the quotient, which times the divisor is the dividend |
| Telemetrics.Top1 | telemetrics.go:366-377 | 0 for an empty vector; otherwise an element of the vector that is at least every element |
| Telemetrics.CorrectCount | telemetrics.go:399-412 | the correct samples are at most all samples |
| Telemetrics.OffByOneAtMostWrong | telemetrics.go:414-420 | off-by-one samples are never correct, so their count is at most the wrong count |
| Telemetrics.AgreeCount | telemetrics.go:422-429 | the agreeing positions are at most all CPU samples |
| Telemetrics.MaxAbsMaxIsMax | telemetrics.go:431-435 | the running maximum is non-negative, at least every `MaxAbs`, and either 0 or attained |
| Telemetrics.SampleLabels | telemetrics.go:438-446 | a per-sample entry carries each device's label bucket, "agree" exactly when the predictions match, and the sample's digit, index and predictions |
| Telemetrics.TallyCounts | telemetrics.go:393-429 | each counter is the number of samples in its category; correct + wrong and agree + disagree each equal the number of samples |
| Telemetrics.TallyCpu | telemetrics.go:399-420 | the CPU correct, wrong and off-by-one counters count the CPU samples in each category |
| Telemetrics.TallyGpu | telemetrics.go:399-420 | the GPU correct, wrong and off-by-one counters count the GPU samples in each category |
| Telemetrics.TallyAgree | telemetrics.go:422-429 | the agree counter counts equal predictions, and agree + disagree is the number of samples |
| Telemetrics.CorrectTallies | telemetrics.go:399-412 | over all CPU samples the correct counters are the correct counts of the CPU samples and of the GPU samples at the same positions |
| Telemetrics.ScoreOf | telemetrics.go:380-460 | the zero score when a list is empty; otherwise the accuracies are the correct counts over n (0 for n = 0), the agree count counts equal predictions, the mean MAE is the MAE sum over n, the largest max-abs is the maximum over the scored drift records, and entry i of the per-sample list labels CPU[i] and GPU[i] |
| Telemetrics.PerSample | telemetrics.go:437-446 | one labelled entry per sample, pairing CPU and GPU at the same position |
| Telemetrics.ComputeAdhd10 | telemetrics.go:380-460 | the zero score when any of the three lists is empty; otherwise the score built from the counters, the mean MAE, the largest max-abs and the per-sample labels over the CPU samples |
| Telemetrics.Accumulate | telemetrics.go:393-449 | the loop's counters, MAE sum, running max-abs and per-sample list are the tallies over all CPU samples |
| Telemetrics.DriftStep | telemetrics.go:431-435 | one more drift record adds its MAE to the sum and raises the maximum only when its `MaxAbs` is larger |
| Telemetrics.ScoreCounts | telemetrics.go:393-454 | over n CPU samples: CPUCorrect + CPUWrong = n and GPUCorrect + GPUWrong = n; Agree + Disagree = n; off-by-one counts are at most the wrong counts; CPUvsGPUAgreeCount equals Buckets.Agree, the number of equal predictions |
| Telemetrics.ScoreBounds | telemetrics.go:451-456 | the accuracies lie in [0, 1]; MaxDriftMaxAbs is non-negative and at least every `MaxAbs` among the scored samples |
| Telemetrics.ScorePerSample | telemetrics.go:438-446 | the score has one per-sample entry per CPU sample, labelling entry i from CPU[i] and GPU[i] |
| Telemetrics.FirstOne | telemetrics.go:354-360 | the position of the first 1.0 in a label row, or none when the row has no 1.0 |
| Telemetrics.FirstIndexPerDigit | telemetrics.go:351-364 | the map holds exactly the digits that label some sample; each maps to the first sample whose first 1.0 is at that digit |
| Telemetrics.FirstIndexStep | telemetrics.go:353-362 | adding one more sample inserts its digit only if the digit is unseen, keeping the earlier first index |
| SysProbe.NormalizeArch | sysprobe.go:120-129 | "amd64" becomes "x86_64"; every other name is unchanged |
| SysProbe.NormalizeArchIdempotent | sysprobe.go:120-129 | normalising twice equals normalising once |
| SysProbe.FirstNonEmpty | sysprobe.go:131-139 | "" exactly when every value is blank; otherwise the trimmed form of the first non-blank value |
| SysProbe.Lines | sysprobe.go:142-144 | with CR as a line break, the lines contain no CR or LF and joined by LF give the input back |
| SysProbe.FirstLineClean | sysprobe.go:141-152 | the first trimmed line that is non-empty and mentions neither "name" nor "manufacturer" in any case; the whole trimmed input when there is none |
| SysProbe.FirstLineCleanNoCarriageReturn | sysprobe.go:142 | the result never contains a CR |
| SysProbe.JoinCompacted | sysprobe.go:157 | words joined by single spaces have no leading, trailing or doubled space |
| SysProbe.CompactOneLine | sysprobe.go:154-159 | no CR or LF, no leading or trailing white space, never two spaces in a row, and the same words as the input |
| SysProbe.CompactOneLineFacts | sysprobe.go:155-158 | the words of the line-broken text joined by single spaces are compacted and keep the input's words |
| SysProbe.BreaksSameWords | sysprobe.go:155-156 | replacing CR and LF by spaces does not change the words |
| SysProbe.JoinedWords | sysprobe.go:157-158 | joining words by spaces gives a compacted line without line breaks whose words are those words |
| SysProbe.CompactedNoBreaks | sysprobe.go:154-159 | a compacted string contains no CR or LF |
| SysProbe.CompactOneLineIdempotent | sysprobe.go:154-159 | compacting a compacted line changes nothing |
| SysProbe.NoBreaksUnchanged | sysprobe.go:155-156 | a string without line breaks is unchanged by the replacement |
| SysProbe.ParseUint | sysprobe.go:297-307 | 0 for blank, non-digit or overflowing input; otherwise the decimal value of the trimmed text, at most 2^64 - 1 |
| SysProbe.ParseUintFormatNat | sysprobe.go:297-307 | every printed unsigned 64-bit value parses back to itself |
| SysProbe.ValuePart | sysprobe.go:228-231 | the trimmed text after the line's first colon, or the trimmed line when there is no colon |
| SysProbe.ReadFirstLine | sysprobe.go:221-235 | "" for an unreadable file or when no line mentions the key in any case; otherwise the value part of the first line that does |
| SysBench.TrimAll | sysbench.go:88-89 | every comma-separated token, trimmed |
| SysBench.NormalOfWord | sysbench.go:72 | a lower-case keyword is its own normal form |
| SysBench.TrimOfWord | sysbench.go:72 | trimming leaves a word without white space unchanged |
| SysBench.LowerOfWord | sysbench.go:72 | lower-casing leaves a lower-case word unchanged |
| SysBench.SelectionOf | sysbench.go:72-94 | after trimming and lower-casing: "" and "all" select everything, "ints" the ten integer types, "floats" the two float types, anything else its non-blank comma tokens |
| SysBench.ApplyBenchFilter | sysbench.go:71-102 | an order-preserving subsequence of the input; the input itself for "" or "all"; it keeps exactly the results that pass the selection, each passing result as often as it occurs |
| SysBench.KeepsExactly | sysbench.go:96-101 | a non-empty type set keeps a result exactly when its lower-cased type is in the set |
| SysBench.FloatsKeepFloats | sysbench.go:83-85 | "floats" keeps exactly the float32 and float64 results |
| SysBench.IntsKeepInts | sysbench.go:79-82 | "ints" keeps exactly the ten listed integer types |
| SysBench.BlankTokensKeepAll | sysbench.go:86-98 | a comma list with only blank tokens keeps everything |
| SysBench.ApplyBenchFilterIdempotent | sysbench.go:71-102 | filtering twice with the same filter equals filtering once |
| Compare.AbsDiff | compare.go:142-145 | the absolute difference is non-negative and is one of the two differences |
| Compare.DiffMaxIsMax | compare.go:147-149 | the running maximum is non-negative, at least every absolute difference, and attained by one on non-empty input |
| Compare.DiffSumBounds | compare.go:146 | n differences each at most m sum to between 0 and n·m |
| Compare.DiffSymmetric | compare.go:136-153 | swapping the vectors changes neither the sum nor the maximum |
| Compare.DriftMaxAndMae | compare.go:136-153 | (0, 0) for an empty or length-mismatched pair; otherwise maxAbs is the largest absolute difference (at least each, attained by one) and mae is their sum over the length, with 0 <= mae <= maxAbs |
| Compare.DiffLoop | compare.go:140-150 | the loop's sum and maximum are those of all the absolute differences |
| Compare.Entries | compare.go:161-164 | one (class, probability) pair per class, in class order |
| Compare.SortedDescending | compare.go:165 | sorting by decreasing probability orders every pair of positions |
| Compare.TopK | compare.go:156-175 | min(k, len(p)) distinct entries, each a class with its own probability, in non-increasing probability order; no class left out has a higher probability than any kept |
| Compare.TopKEntries | compare.go:161-172 | every kept entry pairs a class with its probability |
| Compare.TopKBeats | compare.go:165-172 | a class left out is beaten by every kept class |
| Mnist.LabelToOneHot | mnist.go:97-102 | one row of ten values, 1.0 at the label and 0.0 elsewhere |
| Mnist.Argmax64 | mnist.go:181-189 | an index holding a value at least every other value, and the first such index |
| Mnist.Top1AtArgmax | mnist.go:181-189 | `top1` is the value at `argmax64` |
| Mnist.ArgmaxOfOneHot | mnist.go:97-102 | the argmax of a one-hot label is the label |
| Mnist.FlattenLength | mnist.go:172 | the flattened row has rows·cols values |
| Mnist.FlattenAt | mnist.go:173-177 | pixel (r, c) lands at position r·cols + c |
| Mnist.FlattenAll | mnist.go:169-179 | every pixel lands at its row-major position |
| Mnist.FlattenMnist64 | mnist.go:169-179 | one row of rows·cols values with out[0][r·cols + c] = img[r][c] |
| Models.DigitPrefix | models.go:67 | the longest leading run of digits |
| Models.DigitPrefixOfDigits | models.go:67 | a string of digits is its own leading run |
| Models.ScanInt | models.go:66-68 | `Sscanf("%d")` into a zero `w`: 0 when a newline comes before the number, when no digits follow the optional sign, or when the value leaves the 64-bit range; otherwise the signed value of the leading digits after the skipped white space |
| Models.ScanIntSkipsBlanks | models.go:67 | spaces and tabs before the number are skipped |
| Models.ScanIntStopsAtNewline | models.go:67 | a newline before the number leaves w at 0 |
| Models.ScanIntSignAndSuffix | models.go:67 | a plus sign is read and text after the digits is ignored |
| Models.ScanIntNoDigits | models.go:67 | text that does not start with a number leaves w at 0 |
| Models.ScanIntPlain | models.go:67 | text starting with sign and digits reads as their signed value |
| Models.ScanIntOfDigits | models.go:39-48 | every hidden width written in digits reads back as the number it spells |
| Models.ScanIntFormatInt | models.go:67 | `%d` reads back every 64-bit integer `%d` prints |
| Models.ToParagonShapes | models.go:52-72 | one shape per layer: 28×28 for the input, 10×1 for the last layer when there are two or more, and w×1 with w read from the text for hidden layers |
| Models.BuildActivs | models.go:75-87 | one activation per layer: linear for the input, softmax for the last layer when there are two or more, relu between |
| Models.BuildTrainable | models.go:89-95 | n flags, all set |
| Models.SuffixBucket | models.go:103 | a file name ending in `_<class><digit>.json` falls in that class |
| Models.OneTrailingDigit | models.go:38-48 | a single digit after a non-digit is the whole trailing run |
| Models.SuffixOfCore | models.go:103 | the file name's core ends in `_<class>` as the suffix pattern expects |
| Models.ZooFilenameBuckets | models.go:38-49 | each of the ten zoo models' `mnist_<ID>.json` falls in the bucket named by the ID without its digits |
| Models.ZooEntryBucket | models.go:103 | the same for one ID of the form `<class><digit>` |
| WebSrv.ParsePort | websrv.go:165-182 | 8080 when the address has no colon; always a 64-bit integer |
| WebSrv.ParsePortAtLastColon | websrv.go:169-175 | the port is read from the text after the last colon |
| WebSrv.PortOf | websrv.go:176-181 | the integer `Atoi` reads, or 8080 when it refuses the text |
| WebSrv.ParsePortSuffixOnly | websrv.go:169-179 | what precedes the last colon does not affect the port |
| WebSrv.ParsePortFormatInt | websrv.go:176-179 | `host:n` gives back n for every 64-bit integer n |
| WebSrv.ParsePortNotNumeric | websrv.go:176-181 | an empty or non-numeric suffix gives 8080 |
| WebSrv.ParsePortExample | websrv.go:176-179 | "0.0.0.0:8080" gives 8080 |
| Humanize.SuffixFor | main.go:284-292 | the largest suffix whose scale the count reaches |
| Humanize.Humanize | main.go:282-296 | exactly below 1000 the `%d` text of n, negatives included, which reads back as n; otherwise a suffix with a mantissa in [1, 1000) (unbounded for T) that times the suffix's scale gives n |
| Humanize.HumanizeRankMonotone | main.go:284-292 | the suffix never drops as the count grows |
| Humanize.HumanizeBands | main.go:284-292 | K, M, B and T cover [10^3, 10^6), [10^6, 10^9), [10^9, 10^12) and [10^12, ∞) |
| Decimal.FormatInt | main.go:294 | `%d`: a minus sign before the digits of a negative number |
| Decimal.Atoi | websrv.go:177 | `strconv.Atoi` succeeds exactly when the text is an optional sign followed by at least one digit and nothing else, with a value in the 64-bit range, and then gives that signed value |
| Decimal.AtoiExamples | websrv.go:177 | leading zeros and a plus sign are accepted |
| Decimal.AtoiRefuses | websrv.go:177 | a lone sign and a letter among the digits are refused |
| Decimal.AtoiFormatInt | websrv.go:177 | `Atoi` reads back every 64-bit integer `%d` prints |
| Decimal.ParseUint64 | sysprobe.go:302 | `ParseUint(s, 10, 64)` fails exactly on empty, non-digit or overflowing text, and otherwise gives the decimal value |
| Decimal.ParseUint64FormatNat | sysprobe.go:302 | it reads back every printed unsigned 64-bit value |
| Text.TrimSpace | sysprobe.go:133 | `strings.TrimSpace` gives the input without its leading and trailing white space, and is empty exactly for a blank input |
| Text.ToLower | sysprobe.go:146 | `strings.ToLower` on ASCII: same length, letter by letter |
| Text.Contains | sysprobe.go:147 | `strings.Contains` holds exactly when the text occurs at some position |
| Text.IndexOf | sysprobe.go:228 | the first position of the character, none exactly when it is absent |
| Text.LastIndexOf | websrv.go:169-175 | the last position of the character, none exactly when it is absent |
| Text.Split | sysprobe.go:226 | the pieces contain no separator and joined by it give the input back |
| Text.ReplaceChar | sysprobe.go:142 | every occurrence of one character is replaced by the other, and nothing else changes |
| Text.IsSpace | sysprobe.go:157 | Go's `unicode.IsSpace`: the ASCII white space, U+0085, U+00A0 and the Unicode space separators |
| Text.Fields | sysprobe.go:157 | `strings.Fields`: the maximal runs of non-white-space characters in order, as a left-to-right scan collects them; none exactly when the text is blank |
| Text.Join | sysprobe.go:157 | `strings.Join`: empty for no words; otherwise it starts with the first word and its length is the words' total plus one separator between each neighbouring pair |
| Text.FieldsOfJoin | sysprobe.go:157 | `strings.Fields` of words joined by single spaces gives the words back |
| Text.SameWordsFields | sysprobe.go:157 | strings with the same white-space positions and characters elsewhere have the same fields |
| Text.LexLe | telemetry_report.py:110 | Python's `<=` on strings: code point by code point, a proper prefix first |
| Text.LexLeTotal | telemetry_report.py:110 | any two names are ordered one way or the other |
| Text.LexLeAntisymmetric | telemetry_report.py:110 | only equal names are ordered both ways |
| Text.BeforeFirst | telemetry_report.py:139 | `split(' CPU')[0]` is a prefix ending where the first occurrence starts, or the whole text when there is none |
| Text.BeforeFirstAt | telemetry_report.py:139 | with the first occurrence at k, the prefix is the first k characters |
| Seqs.DedupBy | telemetry_report.py:112-118 | the `seen`-set loop keeps pairwise-distinct keys, represents every key of the input, keeps each key's first element and preserves input order |
| Seqs.DedupFromFirst | telemetry_report.py:114-117 | each kept element is the first with its key |
| Seqs.DedupFromComplete | telemetry_report.py:114-117 | every key of the input is represented |
| Seqs.DedupFromSubsequence | telemetry_report.py:114-117 | the kept elements are in input order |
| Seqs.SortBy | telemetry_report.py:110 | insertion sort is a permutation of its input |
| Seqs.SortByMembers | telemetry_report.py:110 | sorting keeps exactly the members of its input |
| Seqs.SortBySorted | telemetry_report.py:110 | for a total order the result is sorted |
| Seqs.Filter | sysbench.go:96-101 | keeps exactly the passing elements, in order |
| Seqs.FilterIdempotent | sysbench.go:96-101 | filtering twice with the same test equals filtering once |
| Seqs.FilterKeepsAll | sysbench.go:98 | a test every element passes keeps the whole list |

## Left out

- Rendering (the docx report, figures, CSV side-files and PDF export) and the command-line `main` of the report script. These are output formatting over a third-party document library.
- Reading the filesystem and parsing JSON. A folder's entries and each file's parsed snapshot are parameters, and a file that `json.load` rejects is a file absent from the snapshot map. Glob details beyond `telemetry_*.json` on a plain name are not modelled.
- Rows.BuildSpecRow: a JSON `null` in `machine_id`, `started_at` or a `system_info` string field reads as an absent key, so the stem or "" is used where Python's `.get` gives None. A null `cpu_model` would make the `machine_name` expression raise; here it gives `unknown`. `ram_bytes` is an integer, whereas `float(...)` would also read a float or a numeric string there. The Go writer never emits either form.
- Type errors that would crash the script are not modelled, because a snapshot is typed. Examples are a `system_info` that is not an object, or a `cpu_model` that is not a string.
- pandas behaviour is not modelled. In particular, pandas may store a prediction column as floats, which would make the `isinstance(p, int)` filter drop every prediction. The model keeps predictions as JSON values and applies the filter as written to them.
- Floating point is not modelled. Floats are exact reals and NaN is `None`, so `q/100*(n-1)` is computed exactly; a float that lands just beside a .5 tie could round differently in Python.
- Percentile.Pct: requires 0 <= q <= 100. The script only calls it with 50, 90 and 99; other percents would index outside the list (negative wrap or IndexError) and are not modelled.
- Humanize.Humanize: states the mantissa as an exact quotient. The `%.2f` text of the mantissa is not modelled.
- Compare.TopK: returns the chosen (class, probability) pairs, not the `"[i:p, ...]"` text. Among equal probabilities, the order of the unstable `sort.Slice` is not fixed by Go and is not claimed. A negative k panics in Go and is excluded.
- Mnist.LabelToOneHot: requires a label in 0..9. The label is a raw byte read from the label file, and for a byte above 9 Go's `t[0][label]` panics with an index out of range.
- Mnist.Argmax64: requires a non-empty vector, because Go's `v[0]` panics on an empty output.
- Mnist.FlattenMnist64: requires every row to be at least as wide as the first, and the image to be non-empty, as Go's indexing does; a ragged image panics in Go.
- Telemetrics.ComputeAdhd10: requires the GPU and drift lists to be at least as long as the CPU list whenever all three are non-empty; otherwise Go's indexing panics.
- Telemetrics.FirstIndexPerDigit: requires every label to have a first row (`lbl[0]`), as Go's indexing does.
- Models.ScanInt: the white space skipped before the number is Go's white-space set; a `\r\n` pair is treated like a newline. Base prefixes and underscores are not read by `%d` either.
- Json.CoerceFloat: strings with an exponent, underscores between digits, non-ASCII digits, or `inf`/`infinity` give None, although Python's `float` reads them; `nan` gives NaN, which is None here as well.
- SizeBucket.TrailingDigits: takes ASCII digits only. Python's `\d` also matches other Unicode decimal digits, so a name such as `mnist_S\u0661.json` is S in Python but falls back to the first-token search here.
- SizeBucket.ModelSizeBucket: inherits the ASCII-only digit run of `TrailingDigits` in the suffix pattern.
- The network library that builds, trains, saves and evaluates the models is not modelled. Neither are the MNIST binary readers and PNG export, the uploader, the downloaders, the web server, the interactive menus, the OS probes that shell out, and `hashSystemInfo` (MD5 over Go's JSON encoding).
- `roundSlice` / `pow10` rounding of drift values is not modelled; it is floating-point formatting.
- `bufio.Scanner`'s 64 KiB line limit in `firstLineClean` is not modelled; lines of any length are accepted.
- The unused `filepath.SplitList` call in `parsePort` is not modelled, because it has no effect on the result.
- Text.ToLower: `strings.ToLower` is modelled for ASCII letters only; other Unicode case mappings are not modelled.
- Python's case-insensitive size-letter match is modelled for ASCII plus U+017F (long s). Other Unicode case folds are not modelled.

=== FILE: anomalies.dfy ===
/** The anomaly table of `load_all`: the digit rows grouped by machine name
    and model file (in pandas' sorted group order), and per group a CPU and
    a GPU mode-collapse flag. */
module Anomalies {
  import opened Wrappers
  import opened Seqs
  import opened Text
  import opened Json
  import opened Rows
  import opened ModeCollapse

  datatype GroupKey = GroupKey(machineName: string, modelFile: string)

  function KeyOf(r: DigitRow): GroupKey {
    GroupKey(r.machineName, r.modelFile)
  }

  /** pandas' order on group keys: by machine name, then by model file. */
  predicate KeyLe(a: GroupKey, b: GroupKey) {
    if a.machineName == b.machineName then LexLe(a.modelFile, b.modelFile)
    else LexLe(a.machineName, b.machineName)
  }

  lemma KeyLeTotal()
    ensures Total(KeyLe)
  {
    forall a: GroupKey, b: GroupKey ensures KeyLe(a, b) || KeyLe(b, a) {
      LexLeTotal(a.machineName, b.machineName);
      LexLeTotal(a.modelFile, b.modelFile);
    }
  }

  function Id(k: GroupKey): GroupKey {
    k
  }

  /** The key of every row, in row order. */
  function RowKeys(rows: seq<DigitRow>): (ks: seq<GroupKey>)
    ensures |ks| == |rows|
    ensures forall i :: 0 <= i < |rows| ==> ks[i] == KeyOf(rows[i])
  {
    seq(|rows|, i requires 0 <= i < |rows| => KeyOf(rows[i]))
  }

  /** Some row belongs to group `k`. */
  predicate HasGroup(rows: seq<DigitRow>, k: GroupKey) {
    exists i :: 0 <= i < |rows| && KeyOf(rows[i]) == k
  }

  /** The groups of `groupby(['machine_name', 'model_file'])`: each key of a
      row once, in sorted order. */
  function GroupKeys(rows: seq<DigitRow>): (keys: seq<GroupKey>)
    ensures Distinct(keys)
    ensures SortedBy(keys, KeyLe)
    ensures forall k :: k in keys <==> HasGroup(rows, k)
  {
    var ks := RowKeys(rows);
    var d := DedupBy(ks, Id);
    assert Distinct(d);
    KeyLeTotal();
    SortBySorted(d, KeyLe);
    SortByDistinct(d, KeyLe);
    SortByMembers(d, KeyLe);
    DedupKeysAreGroups(rows);
    SortBy(d, KeyLe)
  }

  /** The deduplicated row keys are exactly the groups. */
  lemma DedupKeysAreGroups(rows: seq<DigitRow>)
    ensures forall k :: k in DedupBy(RowKeys(rows), Id) <==> HasGroup(rows, k)
  {
    var ks := RowKeys(rows);
    var d := DedupBy(ks, Id);
    forall k ensures k in d <==> HasGroup(rows, k) {
      if k in d {
        var j :| 0 <= j < |d| && d[j] == k;
        var i :| 0 <= i < |ks| && ks[i] == d[j] && FirstWithKey(ks, i, Id);
        assert KeyOf(rows[i]) == k;
      }
      if HasGroup(rows, k) {
        var i :| 0 <= i < |rows| && KeyOf(rows[i]) == k;
        assert HasKey(d, Id, Id(ks[i]));
      }
    }
  }

  /** The `cpu_pred` or `gpu_pred` column of a row. */
  function PredOf(row: DigitRow, gpu: bool): Json {
    if gpu then row.gpuPred else row.cpuPred
  }

  /** The row is in group `k` and its prediction survives `dropna` and the
      integer filter. */
  function Contributes(k: GroupKey, gpu: bool): DigitRow -> bool {
    row => KeyOf(row) == k && AsInt(PredOf(row, gpu)).Some?
  }

  /** `[int(p) for p in sub[col].dropna() if isinstance(p, (int, np.integer))]`
      for group `k`: the integer predictions of its rows, in row order. */
  function GroupPreds(rows: seq<DigitRow>, k: GroupKey, gpu: bool): (r: seq<int>)
    ensures |r| == CountWhere(rows, Contributes(k, gpu))
  {
    if |rows| == 0 then []
    else
      var rest := GroupPreds(rows[1..], k, gpu);
      var p := AsInt(PredOf(rows[0], gpu));
      if KeyOf(rows[0]) == k && p.Some? then [p.value] + rest else rest
  }

  /** `v` is the integer prediction of some row of group `k`. */
  predicate FromGroupRow(rows: seq<DigitRow>, k: GroupKey, gpu: bool, v: int) {
    exists i :: 0 <= i < |rows| && KeyOf(rows[i]) == k && AsInt(PredOf(rows[i], gpu)) == Some(v)
  }

  /** Every prediction collected for group `k` is the integer prediction of
      one of the group's rows. */
  lemma {:induction false} GroupPredsFromRows(rows: seq<DigitRow>, k: GroupKey, gpu: bool)
    ensures forall j :: 0 <= j < |GroupPreds(rows, k, gpu)| ==> FromGroupRow(rows, k, gpu, GroupPreds(rows, k, gpu)[j])
  {
    if |rows| > 0 {
      var r := GroupPreds(rows, k, gpu);
      var rest := GroupPreds(rows[1..], k, gpu);
      GroupPredsFromRows(rows[1..], k, gpu);
      var p := AsInt(PredOf(rows[0], gpu));
      var taken := KeyOf(rows[0]) == k && p.Some?;
      assert r == if taken then [p.value] + rest else rest;
      forall j | 0 <= j < |r| ensures FromGroupRow(rows, k, gpu, r[j]) {
        if taken && j == 0 {
          assert KeyOf(rows[0]) == k && AsInt(PredOf(rows[0], gpu)) == Some(r[0]);
        } else {
          var jr := if taken then j - 1 else j;
          assert r[j] == rest[jr];
          assert FromGroupRow(rows[1..], k, gpu, rest[jr]);
          var i :| 0 <= i < |rows[1..]| && KeyOf(rows[1..][i]) == k && AsInt(PredOf(rows[1..][i], gpu)) == Some(rest[jr]);
          assert rows[1..][i] == rows[i + 1];
        }
      }
    } else {
      assert GroupPreds(rows, k, gpu) == [];
    }
  }

  datatype AnomalyKind = CpuModeCollapse | GpuModeCollapse

  datatype Anomaly = Anomaly(machineName: string, modelFile: string, kind: AnomalyKind)

  function GroupOf(a: Anomaly): GroupKey {
    GroupKey(a.machineName, a.modelFile)
  }

  /** `_is_mode_collapse` holds on the CPU (or GPU) predictions of group `k`. */
  predicate Collapsed(rows: seq<DigitRow>, k: GroupKey, gpu: bool) {
    IsModeCollapse(GroupPreds(rows, k, gpu))
  }

  /** The condition under which `a` is reported: its group exists and the
      group's predictions on its device collapse. */
  predicate Flagged(rows: seq<DigitRow>, a: Anomaly) {
    HasGroup(rows, GroupOf(a)) && Collapsed(rows, GroupOf(a), a.kind == GpuModeCollapse)
  }

  /** The CPU flag of group `k` when `cpu` holds, then its GPU flag when `gpu` holds. */
  function Flags(k: GroupKey, cpu: bool, gpu: bool): (r: seq<Anomaly>)
    ensures Distinct(r)
    ensures forall a :: a in r <==> GroupOf(a) == k && (if a.kind == GpuModeCollapse then gpu else cpu)
  {
    var ca := Anomaly(k.machineName, k.modelFile, CpuModeCollapse);
    var ga := Anomaly(k.machineName, k.modelFile, GpuModeCollapse);
    var r := (if cpu then [ca] else []) + (if gpu then [ga] else []);
    assert forall a :: a in r <==> (cpu && a == ca) || (gpu && a == ga);
    assert forall a :: GroupOf(a) == k ==> a == ca || a == ga by {
      forall a | GroupOf(a) == k ensures a == ca || a == ga {
        if a.kind == CpuModeCollapse {
          assert a == ca;
        } else {
          assert a == ga;
        }
      }
    }
    assert Distinct(r) by {
      assert |r| <= 2;
      assert |r| == 2 ==> r[0] == ca && r[1] == ga;
    }
    r
  }

  /** The flags of one group: CPU first, then GPU. */
  function GroupAnomalies(rows: seq<DigitRow>, k: GroupKey): (r: seq<Anomaly>)
    ensures Distinct(r)
    ensures forall a :: a in r <==> GroupOf(a) == k && Collapsed(rows, k, a.kind == GpuModeCollapse)
  {
    Flags(k, Collapsed(rows, k, false), Collapsed(rows, k, true))
  }

  /** The flags of the groups `keys`, group by group. */
  function EmitAll(rows: seq<DigitRow>, keys: seq<GroupKey>): seq<Anomaly> {
    if |keys| == 0 then [] else GroupAnomalies(rows, keys[0]) + EmitAll(rows, keys[1..])
  }

  /** An anomaly is emitted for one of `keys` exactly when its group's
      predictions collapse. */
  lemma {:induction false} EmitAllMembers(rows: seq<DigitRow>, keys: seq<GroupKey>)
    ensures forall a :: a in EmitAll(rows, keys) <==>
      GroupOf(a) in keys && Collapsed(rows, GroupOf(a), a.kind == GpuModeCollapse)
  {
    if |keys| > 0 {
      EmitAllMembers(rows, keys[1..]);
      assert forall k :: k in keys <==> k == keys[0] || k in keys[1..];
    }
  }

  /** Over distinct groups no anomaly is emitted twice. */
  lemma {:induction false} EmitAllDistinct(rows: seq<DigitRow>, keys: seq<GroupKey>)
    requires Distinct(keys)
    ensures Distinct(EmitAll(rows, keys))
  {
    if |keys| > 0 {
      var a := GroupAnomalies(rows, keys[0]);
      var b := EmitAll(rows, keys[1..]);
      EmitAllDistinct(rows, keys[1..]);
      EmitAllMembers(rows, keys[1..]);
      assert keys[0] !in keys[1..];
      forall i, j | 0 <= i < j < |a + b| ensures (a + b)[i] != (a + b)[j] {
        if i < |a| && j >= |a| {
          assert (a + b)[i] in a && (a + b)[j] in b;
        }
      }
    }
  }

  /** The anomaly table: for every (machine_name, model_file) group of the
      digit rows, in sorted group order, a CPU flag when the CPU predictions
      collapse and a GPU flag when the GPU predictions do. Each flag is
      emitted exactly when its condition holds, and at most once. */
  function DetectAnomalies(rows: seq<DigitRow>): (r: seq<Anomaly>)
    ensures Distinct(r)
    ensures forall a :: a in r <==> Flagged(rows, a)
  {
    var keys := GroupKeys(rows);
    EmitAllMembers(rows, keys);
    EmitAllDistinct(rows, keys);
    EmitAll(rows, keys)
  }
}

=== FILE: compare.dfy ===
/** The CPU/GPU output comparison: element-wise drift between two output
    vectors, and the top-k classes of a probability vector. */
module Compare {
  import opened Seqs

  /** `|x - y|`, as the Go loop computes it. */
  function AbsDiff(x: real, y: real): (d: real)
    ensures d >= 0.0
    ensures d == x - y || d == y - x
  {
    var d := x - y;
    if d < 0.0 then -d else d
  }

  /** The sum of the first `n` absolute differences. */
  function DiffSum(a: seq<real>, b: seq<real>, n: nat): real
    requires n <= |a| && n <= |b|
  {
    if n == 0 then 0.0 else DiffSum(a, b, n - 1) + AbsDiff(a[n - 1], b[n - 1])
  }

  /** The running maximum of the first `n` absolute differences, from 0. */
  function DiffMax(a: seq<real>, b: seq<real>, n: nat): real
    requires n <= |a| && n <= |b|
  {
    if n == 0 then 0.0
    else
      var d := AbsDiff(a[n - 1], b[n - 1]);
      var m := DiffMax(a, b, n - 1);
      if d > m then d else m
  }

  /** The running maximum is the largest difference: at least every one of
      them, at least 0, and attained by one of them when there is any. */
  lemma {:induction false} DiffMaxIsMax(a: seq<real>, b: seq<real>, n: nat)
    requires n <= |a| && n <= |b|
    ensures DiffMax(a, b, n) >= 0.0
    ensures forall i :: 0 <= i < n ==> AbsDiff(a[i], b[i]) <= DiffMax(a, b, n)
    ensures n > 0 ==> exists i :: 0 <= i < n && AbsDiff(a[i], b[i]) == DiffMax(a, b, n)
  {
    if n > 0 {
      DiffMaxIsMax(a, b, n - 1);
      if n > 1 && DiffMax(a, b, n) == DiffMax(a, b, n - 1) {
        var i :| 0 <= i < n - 1 && AbsDiff(a[i], b[i]) == DiffMax(a, b, n - 1);
        assert AbsDiff(a[i], b[i]) == DiffMax(a, b, n);
      }
    }
  }

  /** The sum of `n` differences, each at most `m`, lies between 0 and `n`
      times `m`. */
  lemma {:induction false} DiffSumBounds(a: seq<real>, b: seq<real>, n: nat, m: real)
    requires n <= |a| && n <= |b|
    requires forall i :: 0 <= i < n ==> AbsDiff(a[i], b[i]) <= m
    ensures 0.0 <= DiffSum(a, b, n) <= (n as real) * m
  {
    if n > 0 {
      DiffSumBounds(a, b, n - 1, m);
      assert ((n - 1) as real) * m + m == (n as real) * m;
    }
  }

  /** Swapping the two vectors changes neither the sum nor the maximum. */
  lemma {:induction false} DiffSymmetric(a: seq<real>, b: seq<real>, n: nat)
    requires n <= |a| && n <= |b|
    ensures DiffSum(a, b, n) == DiffSum(b, a, n)
    ensures DiffMax(a, b, n) == DiffMax(b, a, n)
  {
    if n > 0 {
      DiffSymmetric(a, b, n - 1);
      assert AbsDiff(a[n - 1], b[n - 1]) == AbsDiff(b[n - 1], a[n - 1]);
    }
  }

  /** A mean of values in [0, m] is in [0, m]. */
  lemma MeanBounds(sum: real, n: nat, m: real)
    requires n > 0 && 0.0 <= sum <= (n as real) * m
    ensures 0.0 <= sum / (n as real) <= m
  {
    assert sum / (n as real) <= ((n as real) * m) / (n as real);
  }

  /** `driftMaxAndMAE(a, b)`: (0, 0) when `a` is empty or the lengths differ;
      otherwise the largest absolute difference and the mean absolute
      difference, the latter between 0 and the former. */
  method DriftMaxAndMae(a: seq<real>, b: seq<real>) returns (maxAbs: real, mae: real)
    ensures |a| == 0 || |a| != |b| ==> maxAbs == 0.0 && mae == 0.0
    ensures |a| > 0 && |a| == |b| ==>
      && maxAbs == DiffMax(a, b, |a|)
      && mae == DiffSum(a, b, |a|) / (|a| as real)
    ensures maxAbs >= 0.0 && 0.0 <= mae <= maxAbs
    ensures |a| == |b| ==> forall i :: 0 <= i < |a| ==> AbsDiff(a[i], b[i]) <= maxAbs
    ensures |a| > 0 && |a| == |b| ==> exists i :: 0 <= i < |a| && AbsDiff(a[i], b[i]) == maxAbs
  {
    if |a| == 0 || |a| != |b| {
      return 0.0, 0.0;
    }
    var sum;
    sum, maxAbs := DiffLoop(a, b);
    mae := sum / (|a| as real);
    DiffMaxIsMax(a, b, |a|);
    DiffSumBounds(a, b, |a|, maxAbs);
    MeanBounds(sum, |a|, maxAbs);
  }

  /** The loop of `driftMaxAndMAE`: the sum and the running maximum of the
      absolute differences of two vectors of one length. */
  method DiffLoop(a: seq<real>, b: seq<real>) returns (sum: real, maxAbs: real)
    requires |a| == |b|
    ensures sum == DiffSum(a, b, |a|) && maxAbs == DiffMax(a, b, |a|)
  {
    sum := 0.0;
    maxAbs := 0.0;
    var i := 0;
    while i < |a|
      invariant 0 <= i <= |a|
      invariant sum == DiffSum(a, b, i) && maxAbs == DiffMax(a, b, i)
    {
      var d := a[i] - b[i];
      if d < 0.0 {
        d := -d;
      }
      sum := sum + d;
      if d > maxAbs {
        maxAbs := d;
      }
      i := i + 1;
    }
  }

  // ------------------------------------------------------------ top-k

  /** A class index with its probability. */
  datatype Entry = Entry(i: nat, v: real)

  predicate ValueGe(x: Entry, y: Entry) {
    x.v >= y.v
  }

  lemma ValueGeTotal()
    ensures Total(ValueGe)
  {
  }

  /** Every class with its probability, in class order. */
  function Entries(p: seq<real>): (es: seq<Entry>)
    ensures |es| == |p|
    ensures forall j :: 0 <= j < |p| ==> es[j] == Entry(j, p[j])
  {
    seq(|p|, j requires 0 <= j < |p| => Entry(j, p[j]))
  }

  /** An order by `ValueGe` on neighbours holds between any two positions. */
  lemma {:induction false} SortedDescending(s: seq<Entry>)
    requires SortedBy(s, ValueGe)
    ensures forall i, j :: 0 <= i <= j < |s| ==> s[i].v >= s[j].v
  {
    if |s| > 1 {
      var pre := s[..|s| - 1];
      assert SortedBy(pre, ValueGe);
      SortedDescending(pre);
      assert forall i :: 0 <= i < |s| - 1 ==> s[i] == pre[i];
      assert forall i :: 0 <= i < |s| - 1 ==> s[i].v >= s[|s| - 2].v >= s[|s| - 1].v;
    }
  }

  /** `formatTopK(p, k)` without the text formatting: the first `k` entries
      (all when there are fewer) of the classes sorted by decreasing
      probability. Go panics for a negative `k`. */
  function TopK(p: seq<real>, k: int): (r: seq<Entry>)
    requires k >= 0
    ensures |r| == if k < |p| then k else |p|
    ensures forall j :: 0 <= j < |r| ==> r[j].i < |p| && r[j].v == p[r[j].i]
    ensures Distinct(r)
    ensures forall j :: 0 < j < |r| ==> r[j - 1].v >= r[j].v
    ensures forall c :: 0 <= c < |p| && Entry(c, p[c]) !in r ==>
              forall j :: 0 <= j < |r| ==> p[c] <= r[j].v
  {
    var es := Entries(p);
    var sorted := SortBy(es, ValueGe);
    var n := if k < |p| then k else |p|;
    ValueGeTotal();
    SortBySorted(es, ValueGe);
    SortedDescending(sorted);
    assert Distinct(es);
    SortByDistinct(es, ValueGe);
    SortByMembers(es, ValueGe);
    TopKEntries(sorted, p, n);
    TopKBeats(sorted, p, n);
    sorted[..n]
  }

  /** Every entry kept pairs a class with its probability. */
  lemma TopKEntries(sorted: seq<Entry>, p: seq<real>, n: nat)
    requires n <= |sorted|
    requires forall x :: x in sorted <==> x in Entries(p)
    ensures forall j :: 0 <= j < n ==> sorted[j].i < |p| && sorted[j].v == p[sorted[j].i]
  {
    var es := Entries(p);
    forall j | 0 <= j < n ensures sorted[j].i < |p| && sorted[j].v == p[sorted[j].i] {
      assert sorted[j] in es;
    }
  }

  /** A class left out has no higher probability than any kept. */
  lemma TopKBeats(sorted: seq<Entry>, p: seq<real>, n: nat)
    requires n <= |sorted|
    requires forall x :: x in sorted <==> x in Entries(p)
    requires forall i, j :: 0 <= i <= j < |sorted| ==> sorted[i].v >= sorted[j].v
    ensures forall c :: 0 <= c < |p| && Entry(c, p[c]) !in sorted[..n] ==>
              forall j :: 0 <= j < n ==> p[c] <= sorted[j].v
  {
    var es := Entries(p);
    forall c | 0 <= c < |p| && Entry(c, p[c]) !in sorted[..n]
      ensures forall j :: 0 <= j < n ==> p[c] <= sorted[j].v
    {
      assert Entry(c, p[c]) == es[c];
      assert Entry(c, p[c]) in es;
      assert Entry(c, p[c]) in sorted;
      var q :| 0 <= q < |sorted| && sorted[q] == Entry(c, p[c]);
    }
  }
}

=== FILE: decimal.dfy ===
/** Decimal spelling and parsing of integers, following Go's `strconv`
    (base 10, no underscores, no base prefixes) and `fmt`'s `%d`. */
module Decimal {
  import opened Wrappers

  const MaxUint64: nat := 0xFFFF_FFFF_FFFF_FFFF
  const MinInt64: int := -0x8000_0000_0000_0000
  const MaxInt64: int := 0x7FFF_FFFF_FFFF_FFFF

  /** Go's 64-bit `int`. */
  type Int64 = x: int | MinInt64 <= x <= MaxInt64

  predicate IsDigit(c: char) {
    '0' <= c <= '9'
  }

  predicate AllDigits(s: string) {
    forall i :: 0 <= i < |s| ==> IsDigit(s[i])
  }

  function DigitValue(c: char): nat
    requires IsDigit(c)
  {
    c as int - '0' as int
  }

  function DigitChar(d: nat): (c: char)
    requires d < 10
    ensures IsDigit(c) && DigitValue(c) == d
  {
    ('0' as int + d) as char
  }

  /** The value of a string of decimal digits, most significant first. */
  function ValueOf(s: string): nat
    requires AllDigits(s)
  {
    if |s| == 0 then 0 else 10 * ValueOf(s[..|s| - 1]) + DigitValue(s[|s| - 1])
  }

  /** The shortest decimal spelling of `n`; reading it back gives `n`. */
  function FormatNat(n: nat): (s: string)
    ensures |s| > 0 && AllDigits(s)
    ensures ValueOf(s) == n
    ensures |s| > 1 ==> s[0] != '0'
  {
    if n < 10 then [DigitChar(n)]
    else
      var s := FormatNat(n / 10) + [DigitChar(n % 10)];
      assert s[..|s| - 1] == FormatNat(n / 10);
      s
  }

  /** `fmt.Sprintf("%d", n)`: a minus sign before the digits of a negative number. */
  function FormatInt(n: int): (s: string)
    ensures n >= 0 ==> s == FormatNat(n)
    ensures n < 0 ==> s == "-" + FormatNat(-n)
  {
    if n < 0 then "-" + FormatNat(-n) else FormatNat(n)
  }

  /** `strconv.ParseUint(s, 10, 64)`: None for an empty string, a non-digit
      or a value above 2^64 - 1. */
  function ParseUint64(s: string): (r: Option<nat>)
    ensures r.Some? ==> AllDigits(s) && r.value == ValueOf(s) && r.value <= MaxUint64
    ensures r.None? <==> |s| == 0 || !AllDigits(s) || ValueOf(s) > MaxUint64
  {
    if |s| == 0 || !AllDigits(s) then None
    else if ValueOf(s) > MaxUint64 then None
    else Some(ValueOf(s))
  }

  /** `s` without one leading '+' or '-', as `strconv` and `%d` strip it. */
  function Unsigned(s: string): (u: string)
    ensures |s| > 0 && (s[0] == '+' || s[0] == '-') ==> u == s[1..]
    ensures !(|s| > 0 && (s[0] == '+' || s[0] == '-')) ==> u == s
  {
    if |s| > 0 && (s[0] == '+' || s[0] == '-') then s[1..] else s
  }

  /** The magnitude `u` with the sign `s` starts with. */
  function ApplySign(s: string, u: nat): (v: int)
    ensures |s| > 0 && s[0] == '-' ==> v == -(u as int)
    ensures !(|s| > 0 && s[0] == '-') ==> v == u
  {
    if |s| > 0 && s[0] == '-' then -(u as int) else u
  }

  /** The signed number a sign-and-digits string spells. */
  function Signed(s: string): int
    requires AllDigits(Unsigned(s))
  {
    ApplySign(s, ValueOf(Unsigned(s)))
  }

  /** `strconv.Atoi` on a 64-bit platform: an optional sign, then at least one
      digit, and the value must fit in an `int`. */
  function Atoi(s: string): (r: Option<int>)
    ensures r.Some? <==> var d := Unsigned(s); |d| > 0 && AllDigits(d) && MinInt64 <= Signed(s) <= MaxInt64
    ensures r.Some? ==> r.value == Signed(s)
    ensures |s| == 0 ==> r.None?
  {
    var neg := |s| > 0 && s[0] == '-';
    match ParseUint64(Unsigned(s))
    case None => None
    case Some(u) =>
      if neg then (if u > -MinInt64 then None else Some(-(u as int)))
      else (if u > MaxInt64 then None else Some(u))
  }

  /** `Atoi` reads leading zeros and a plus sign. */
  lemma AtoiExamples()
    ensures Atoi("080") == Some(80)
    ensures Atoi("+80") == Some(80)
  {
    assert "080"[..2] == "08" && "08"[..1] == "0" && "80"[..1] == "8";
    assert ValueOf("080") == 80 && ValueOf("80") == 80;
    assert Unsigned("+80") == "80";
  }

  /** `Atoi` refuses a lone sign and a trailing letter. */
  lemma AtoiRefuses()
    ensures Atoi("-") == None && Atoi("8o") == None
  {
    assert Unsigned("-") == "";
    assert !IsDigit("8o"[1]);
  }

  /** Reading back a formatted 64-bit integer gives the integer. */
  lemma AtoiFormatInt(n: Int64)
    ensures Atoi(FormatInt(n)) == Some(n)
  {
    var s := FormatInt(n);
    if n < 0 {
      var m: nat := -(n as int);
      assert s[0] == '-';
      assert s[1..] == FormatNat(m);
      ParseUint64FormatNat(m);
    } else {
      assert s == FormatNat(n);
      assert IsDigit(s[0]);
      ParseUint64FormatNat(n);
    }
  }

  /** Reading back a formatted unsigned 64-bit value gives the value. */
  lemma ParseUint64FormatNat(n: nat)
    requires n <= MaxUint64
    ensures ParseUint64(FormatNat(n)) == Some(n)
  {
  }

  /** No formatted integer contains a character other than '-' and digits. */
  lemma FormatIntChars(n: int)
    ensures forall i :: 0 <= i < |FormatInt(n)| ==> FormatInt(n)[i] == '-' || IsDigit(FormatInt(n)[i])
  {
    if n < 0 {
      var d := FormatNat(-n);
      assert forall i :: 1 <= i < |FormatInt(n)| ==> FormatInt(n)[i] == d[i - 1];
    }
  }
}

=== FILE: discovery.dfy ===
/** Which snapshot files the report reads: `find_input_dirs` and
    `discover_json_files`. The file system is given as a map from each
    existing directory to the names of its entries. */
module Discovery {
  import opened Wrappers
  import opened Seqs
  import opened Text

  /** `DEFAULT_INPUT_DIRS`: the uploaded reports and the local cache. */
  const DefaultInputDirs: seq<string> := ["public/reports", "public/reports_local"]

  /** `find_input_dirs(argv)`: the command-line folders, or the defaults when
      none are given. Either way there is at least one folder to scan. */
  function FindInputDirs(argv: seq<string>): (r: seq<string>)
    ensures |r| > 0
    ensures |argv| > 0 ==> r == argv
    ensures |argv| == 0 ==> r == DefaultInputDirs
  {
    if |argv| > 0 then argv else DefaultInputDirs
  }

  /** A discovered file: the folder it was found in and its name there. */
  datatype FilePath = FilePath(dir: string, name: string)

  /** pathlib's `stem`: the name without its last suffix. A dot that starts
      the name or ends it does not start a suffix. */
  function Stem(name: string): (r: string)
    ensures r <= name
    ensures |r| < |name| ==> 0 < |r| < |name| - 1 && name[|r|] == '.' && '.' !in name[|r| + 1..]
    ensures |r| == |name| ==> forall i :: 0 < i < |name| - 1 && name[i] == '.' ==> '.' in name[i + 1..]
  {
    match LastIndexOf(name, '.')
    case Some(i) =>
      if 0 < i < |name| - 1 then name[..i]
      else
        assert forall k :: 0 < k < |name| - 1 && name[k] == '.' ==> '.' in name[k + 1..] by {
          forall k | 0 < k < |name| - 1 && name[k] == '.' ensures '.' in name[k + 1..] {
            assert k < i;
            assert name[i] == name[k + 1..][i - k - 1];
          }
        }
        name
    case None => name
  }

  function StemOf(f: FilePath): string {
    Stem(f.name)
  }

  /** The name matches the pattern `telemetry_*.json`. */
  predicate MatchesGlob(name: string) {
    |name| >= 15 && name[..10] == "telemetry_" && name[|name| - 5..] == ".json"
  }

  /** For every matching name the stem drops exactly the `.json`. */
  lemma StemOfMatch(name: string)
    requires MatchesGlob(name)
    ensures Stem(name) == name[..|name| - 5]
  {
    var i := |name| - 5;
    assert name[i] == '.';
    assert name[i + 1..] == "json";
    assert '.' !in name[i + 1..];
  }

  lemma LexLeIsTotal()
    ensures Total(LexLe)
  {
    forall a: string, b: string ensures LexLe(a, b) || LexLe(b, a) {
      LexLeTotal(a, b);
    }
  }

  /** The names as paths under `d`. */
  function Under(d: string, names: seq<string>): (r: seq<FilePath>)
    ensures |r| == |names|
    ensures forall k :: 0 <= k < |r| ==> r[k] == FilePath(d, names[k])
  {
    seq(|names|, k requires 0 <= k < |names| => FilePath(d, names[k]))
  }

  /** `sorted(d.glob('telemetry_*.json'))` for an existing folder `d`: the
      matching names in string order, as paths under `d`. */
  function FilesIn(d: string, entries: seq<string>): (r: seq<FilePath>)
    ensures forall k :: 0 <= k < |r| ==> r[k].dir == d && r[k].name in entries && MatchesGlob(r[k].name)
    ensures forall n :: n in entries && MatchesGlob(n) ==> FilePath(d, n) in r
    ensures forall k :: 0 < k < |r| ==> LexLe(r[k - 1].name, r[k].name)
    ensures |r| == CountWhere(entries, MatchesGlob)
  {
    var names := Filter(entries, MatchesGlob);
    LexLeIsTotal();
    SortBySorted(names, LexLe);
    SortByMembers(names, LexLe);
    var sorted := SortBy(names, LexLe);
    var r := Under(d, sorted);
    assert forall k :: 0 <= k < |r| ==> r[k].name in entries && MatchesGlob(r[k].name) by {
      forall k | 0 <= k < |r| ensures r[k].name in entries && MatchesGlob(r[k].name) {
        assert sorted[k] in names;
        var j :| 0 <= j < |names| && names[j] == sorted[k];
      }
    }
    assert forall n :: n in sorted ==> FilePath(d, n) in r by {
      forall n | n in sorted ensures FilePath(d, n) in r {
        var k :| 0 <= k < |sorted| && sorted[k] == n;
        assert r[k] == FilePath(d, n);
      }
    }
    r
  }

  /** The candidate files of every existing folder, folder by folder in the
      order given; a folder that does not exist contributes nothing. */
  function Candidates(dirs: seq<string>, fs: map<string, seq<string>>): (r: seq<FilePath>)
    ensures forall k :: 0 <= k < |r| ==>
      r[k].dir in dirs && r[k].dir in fs && r[k].name in fs[r[k].dir] && MatchesGlob(r[k].name)
  {
    if |dirs| == 0 then []
    else
      var here := if dirs[0] in fs then FilesIn(dirs[0], fs[dirs[0]]) else [];
      var rest := Candidates(dirs[1..], fs);
      assert forall k :: 0 <= k < |rest| ==> rest[k].dir in dirs by {
        forall k | 0 <= k < |rest| ensures rest[k].dir in dirs {
          var j :| 0 <= j < |dirs[1..]| && dirs[1..][j] == rest[k].dir;
          assert dirs[j + 1] == rest[k].dir;
        }
      }
      here + rest
  }

  /** Every matching entry of every existing folder is a candidate. */
  lemma {:induction false} CandidatesComplete(dirs: seq<string>, fs: map<string, seq<string>>, d: string, n: string)
    requires d in dirs && d in fs && n in fs[d] && MatchesGlob(n)
    ensures FilePath(d, n) in Candidates(dirs, fs)
  {
    if dirs[0] != d {
      assert d in dirs[1..];
      CandidatesComplete(dirs[1..], fs, d, n);
    }
  }

  /** `discover_json_files(input_dirs)`: the candidates with every stem kept
      once, at its first occurrence, in discovery order. */
  function DiscoverJsonFiles(dirs: seq<string>, fs: map<string, seq<string>>): (r: seq<FilePath>)
    ensures forall k, l :: 0 <= k < l < |r| ==> StemOf(r[k]) != StemOf(r[l])
    ensures forall k :: 0 <= k < |r| ==> r[k] in Candidates(dirs, fs)
    ensures forall k :: 0 <= k < |r| ==>
      exists i :: 0 <= i < |Candidates(dirs, fs)| && Candidates(dirs, fs)[i] == r[k]
                  && FirstWithKey(Candidates(dirs, fs), i, StemOf)
    ensures IsSubsequence(r, Candidates(dirs, fs))
  {
    DedupBy(Candidates(dirs, fs), StemOf)
  }

  /** Every matching file of every existing folder has its stem represented. */
  lemma DiscoverComplete(dirs: seq<string>, fs: map<string, seq<string>>, d: string, n: string)
    requires d in dirs && d in fs && n in fs[d] && MatchesGlob(n)
    ensures HasKey(DiscoverJsonFiles(dirs, fs), StemOf, Stem(n))
  {
    CandidatesComplete(dirs, fs, d, n);
    var c := Candidates(dirs, fs);
    var i :| 0 <= i < |c| && c[i] == FilePath(d, n);
    assert StemOf(c[i]) == Stem(n);
  }

  /** Nothing is discovered exactly when no existing folder holds a matching name. */
  lemma DiscoverEmpty(dirs: seq<string>, fs: map<string, seq<string>>)
    ensures |DiscoverJsonFiles(dirs, fs)| == 0 <==>
      forall d, n :: d in dirs && d in fs && n in fs[d] ==> !MatchesGlob(n)
  {
    var r := DiscoverJsonFiles(dirs, fs);
    if |r| == 0 {
      forall d, n | d in dirs && d in fs && n in fs[d] ensures !MatchesGlob(n) {
        if MatchesGlob(n) {
          DiscoverComplete(dirs, fs, d, n);
        }
      }
    } else {
      assert r[0] in Candidates(dirs, fs);
    }
  }

  /** The same snapshot cached under both default folders is read once, from
      the folder listed first. */
  lemma DiscoverFirstFolderWins()
    ensures DiscoverJsonFiles(DefaultInputDirs,
              map["public/reports" := ["telemetry_m1.json"],
                  "public/reports_local" := ["telemetry_m1.json", "notes.txt"]])
            == [FilePath("public/reports", "telemetry_m1.json")]
  {
    var n := "telemetry_m1.json";
    var fs := map["public/reports" := [n], "public/reports_local" := [n, "notes.txt"]];
    assert MatchesGlob(n);
    assert !MatchesGlob("notes.txt");
    assert Filter([n], MatchesGlob) == [n];
    assert [n, "notes.txt"][1..] == ["notes.txt"];
    assert Filter([n, "notes.txt"], MatchesGlob) == [n];
    assert SortBy([n], LexLe) == [n];
    var a := FilePath("public/reports", n);
    var b := FilePath("public/reports_local", n);
    assert FilesIn("public/reports", [n]) == [a];
    assert FilesIn("public/reports_local", [n, "notes.txt"]) == [b];
    assert DefaultInputDirs[1..] == ["public/reports_local"];
    assert Candidates(["public/reports_local"], fs) == [b];
    assert Candidates(DefaultInputDirs, fs) == [a, b];
    assert StemOf(a) == StemOf(b);
    assert [a, b][1..] == [b];
    assert DedupFrom([b], StemOf, {StemOf(a)}) == [];
  }
}

=== FILE: float_text.dfy ===
/** Python's `float(s)` for a `str` holding a plain decimal: surrounding
    white space, an optional sign, and ASCII digits with at most one decimal
    point and at least one digit. */
module FloatText {
  import opened Text
  import opened Decimal

  /** The characters `float` strips: the Unicode white space of `Text.IsSpace`
      and, for Python, also the separators U+001C to U+001F. */
  predicate IsPySpace(c: char) {
    IsSpace(c) || ('\U{001C}' <= c <= '\U{001F}')
  }

  /** How many white-space characters `s` starts with. */
  function LeadingPySpaces(s: string): (n: nat)
    ensures n <= |s|
    ensures forall i :: 0 <= i < n ==> IsPySpace(s[i])
    ensures n < |s| ==> !IsPySpace(s[n])
  {
    if |s| > 0 && IsPySpace(s[0]) then 1 + LeadingPySpaces(s[1..]) else 0
  }

  /** How many white-space characters `s` ends with. */
  function TrailingPySpaces(s: string): (n: nat)
    ensures n <= |s|
    ensures forall i :: |s| - n <= i < |s| ==> IsPySpace(s[i])
    ensures n < |s| ==> !IsPySpace(s[|s| - 1 - n])
  {
    if |s| > 0 && IsPySpace(s[|s| - 1]) then 1 + TrailingPySpaces(s[..|s| - 1]) else 0
  }

  /** `s` without its leading and trailing white space. */
  function Strip(s: string): (t: string)
    ensures |t| <= |s|
    ensures |t| > 0 ==> !IsPySpace(t[0]) && !IsPySpace(t[|t| - 1])
  {
    var a := s[LeadingPySpaces(s)..];
    a[..|a| - TrailingPySpaces(a)]
  }

  /** The position of the first '.', or the length when there is none. */
  function DotAt(b: string): (k: nat)
    ensures k <= |b|
    ensures k < |b| ==> b[k] == '.'
    ensures forall i :: 0 <= i < k ==> b[i] != '.'
  {
    if |b| == 0 || b[0] == '.' then 0 else 1 + DotAt(b[1..])
  }

  /** The digits before the point. */
  function IntPart(b: string): string {
    b[..DotAt(b)]
  }

  /** The digits after the point; empty when there is no point. */
  function FracPart(b: string): string {
    if DotAt(b) < |b| then b[DotAt(b) + 1..] else ""
  }

  /** A string `float` reads as a plain decimal. */
  predicate IsDecimalLiteral(s: string) {
    var b := Unsigned(Strip(s));
    AllDigits(IntPart(b)) && AllDigits(FracPart(b)) && |IntPart(b)| + |FracPart(b)| > 0
  }

  function Pow10(n: nat): (p: nat)
    ensures p >= 1
  {
    if n == 0 then 1 else 10 * Pow10(n - 1)
  }

  /** The exact value of a decimal literal, negated after a leading '-'. */
  function DecimalValue(s: string): real
    requires IsDecimalLiteral(s)
  {
    var t := Strip(s);
    var b := Unsigned(t);
    var mag := ValueOf(IntPart(b)) as real + ValueOf(FracPart(b)) as real / Pow10(|FracPart(b)|) as real;
    if |t| > 0 && t[0] == '-' then -mag else mag
  }

  /** Text without white space at either end is its own strip. */
  lemma StripUnspaced(s: string)
    requires |s| > 0 && !IsPySpace(s[0]) && !IsPySpace(s[|s| - 1])
    ensures Strip(s) == s
  {
  }

  /** A run of digits has no point: all of it is the integer part. */
  lemma DigitsHaveNoPoint(b: string)
    requires AllDigits(b)
    ensures DotAt(b) == |b| && IntPart(b) == b && FracPart(b) == ""
  {
  }

  /** Sign and digits with nothing around them read as the signed number. */
  lemma SignedDigitsLiteral(s: string)
    requires Strip(s) == s && |Unsigned(s)| > 0 && AllDigits(Unsigned(s))
    ensures IsDecimalLiteral(s) && DecimalValue(s) == Signed(s) as real
  {
    DigitsHaveNoPoint(Unsigned(s));
  }

  /** `float(str(n))` is `n`: every integer `%d` prints is a decimal literal
      whose value is the integer. */
  lemma FormatIntIsLiteral(n: int)
    ensures IsDecimalLiteral(FormatInt(n))
    ensures DecimalValue(FormatInt(n)) == n as real
  {
    var s := FormatInt(n);
    var m: nat := if n < 0 then -n else n;
    var d := FormatNat(m);
    assert IsDigit(d[|d| - 1]);
    if n < 0 {
      assert s[0] == '-' && s[1..] == d;
      assert s[|s| - 1] == d[|d| - 1];
    } else {
      assert s == d && IsDigit(s[0]);
    }
    StripUnspaced(s);
    assert Unsigned(s) == d;
    SignedDigitsLiteral(s);
  }

  /** Only the stripped text matters. */
  lemma SameStrip(s: string, t: string)
    requires Strip(s) == Strip(t)
    ensures IsDecimalLiteral(s) <==> IsDecimalLiteral(t)
    ensures IsDecimalLiteral(s) ==> DecimalValue(s) == DecimalValue(t)
  {
  }

  /** A fraction is read exactly. */
  lemma FractionExample()
    ensures IsDecimalLiteral("12.5") && DecimalValue("12.5") == 12.5
  {
    StripUnspaced("12.5");
    assert Unsigned("12.5") == "12.5";
    assert DotAt("12.5") == 2 by {
      assert "12.5"[1..] == "2.5" && "2.5"[1..] == ".5";
    }
    assert IntPart("12.5") == "12" && FracPart("12.5") == "5";
    assert "12"[..1] == "1" && ValueOf("12") == 12 && ValueOf("5") == 5;
  }

  /** Surrounding space, newlines included, is stripped. */
  lemma SpaceExample()
    ensures IsDecimalLiteral(" 12.5\n") && DecimalValue(" 12.5\n") == 12.5
  {
    StripExample();
    StripUnspaced("12.5");
    SameStrip(" 12.5\n", "12.5");
    FractionExample();
  }

  lemma StripExample()
    ensures Strip(" 12.5\n") == "12.5"
  {
    LeadingExample();
    TrailingExample();
    assert " 12.5\n"[1..] == "12.5\n";
    assert "12.5\n"[..4] == "12.5";
  }

  lemma LeadingExample()
    ensures LeadingPySpaces(" 12.5\n") == 1
  {
    assert " 12.5\n"[1..] == "12.5\n";
    assert !IsPySpace('1');
  }

  lemma TrailingExample()
    ensures TrailingPySpaces("12.5\n") == 1
  {
    assert "12.5\n"[..4] == "12.5";
    assert !IsPySpace('5');
  }

  /** A second point is not a decimal literal. */
  lemma TwoPointsNotDecimal()
    ensures !IsDecimalLiteral("1.2.3")
  {
    StripUnspaced("1.2.3");
    assert Unsigned("1.2.3") == "1.2.3";
    assert DotAt("1.2.3") == 1 by { assert "1.2.3"[1..] == ".2.3"; }
    assert FracPart("1.2.3") == "2.3" && !IsDigit("2.3"[1]);
  }

  /** A point without digits is not a decimal literal. */
  lemma LonePointNotDecimal()
    ensures !IsDecimalLiteral(".")
  {
    StripUnspaced(".");
    assert Unsigned(".") == ".";
    assert DotAt(".") == 0;
  }

  /** A letter after the digits is not part of a decimal literal. */
  lemma LetterNotDecimal()
    ensures !IsDecimalLiteral("12a")
  {
    StripUnspaced("12a");
    assert Unsigned("12a") == "12a";
    DotFree("12a");
    assert !IsDigit("12a"[2]);
  }

  /** A string without a point is all integer part. */
  lemma DotFree(b: string)
    requires '.' !in b
    ensures DotAt(b) == |b| && IntPart(b) == b
  {
  }
}

=== FILE: humanize.dfy ===
/** The compact rendering of large counts in the benchmark menu: a plain
    decimal below one thousand, otherwise a two-decimal mantissa with a K, M,
    B or T suffix. */
module Humanize {
  import opened Wrappers
  import opened Decimal

  /** The suffixes in increasing order of scale. */
  datatype Suffix = K | M | B | T {
    /** The power of ten the suffix stands for. */
    function Scale(): (s: nat)
      ensures s >= 1000
    {
      match this
      case K => 1_000
      case M => 1_000_000
      case B => 1_000_000_000
      case T => 1_000_000_000_000
    }

    function Letter(): char {
      match this
      case K => 'K'
      case M => 'M'
      case B => 'B'
      case T => 'T'
    }

    /** 1 for K up to 4 for T. */
    function Rank(): nat {
      match this
      case K => 1
      case M => 2
      case B => 3
      case T => 4
    }
  }

  /** What `humanize` prints: the decimal digits of the count, or the count
      divided by the suffix's scale (printed with `%.2f`) and the suffix. */
  datatype Humanized = Plain(text: string) | Scaled(mantissa: real, suffix: Suffix) {
    /** 0 for a plain decimal, else the suffix's rank. */
    function Rank(): nat {
      if Plain? then 0 else suffix.Rank()
    }
  }

  /** The largest suffix whose scale `n` reaches. */
  function SuffixFor(n: int): (s: Suffix)
    requires n >= 1000
    ensures s.Scale() <= n
    ensures s != T ==> n < 1000 * s.Scale()
  {
    if n >= 1_000_000_000_000 then T
    else if n >= 1_000_000_000 then B
    else if n >= 1_000_000 then M
    else K
  }

  /** `humanize(n)`. `float64(n)` compares with 1e3, 1e6, 1e9 and 1e12
      exactly as `n` does, since those four values are exact doubles and
      rounding to a double is monotone. */
  function Humanize(n: Int64): (h: Humanized)
    ensures h.Plain? <==> n < 1000
    ensures h.Plain? ==> h.text == FormatInt(n) && Atoi(h.text) == Some(n)
    ensures h.Scaled? ==> h.mantissa * (h.suffix.Scale() as real) == n as real
    ensures h.Scaled? ==> 1.0 <= h.mantissa && (h.suffix != T ==> h.mantissa < 1000.0)
  {
    if n < 1000 then
      AtoiFormatInt(n);
      Plain(FormatInt(n))
    else
      var s := SuffixFor(n);
      var sc := s.Scale() as real;
      assert (n as real) / sc * sc == n as real;
      Scaled((n as real) / sc, s)
  }

  /** The suffix never drops to a smaller one as the count grows. */
  lemma HumanizeRankMonotone(m: Int64, n: Int64)
    requires m <= n
    ensures Humanize(m).Rank() <= Humanize(n).Rank()
  {
  }

  /** The suffix is fixed by the decade band the count falls in. */
  lemma HumanizeBands(n: Int64)
    ensures 1_000 <= n < 1_000_000 ==> Humanize(n).Scaled? && Humanize(n).suffix == K
    ensures 1_000_000 <= n < 1_000_000_000 ==> Humanize(n).Scaled? && Humanize(n).suffix == M
    ensures 1_000_000_000 <= n < 1_000_000_000_000 ==> Humanize(n).Scaled? && Humanize(n).suffix == B
    ensures 1_000_000_000_000 <= n ==> Humanize(n).Scaled? && Humanize(n).suffix == T
  {
  }
}

=== FILE: json.dfy ===
/** Parsed JSON values as the report script sees them after `json.load`, and
    its two defensive accessors: the nested lookup with a default
    (`_safe_get`) and the never-raising float coercion (`_coerce_float`). */
module Json {
  import opened Wrappers
  import opened Decimal
  import opened FloatText

  /** A JSON value. Python's `json` keeps integers and floats apart, so they are
      two constructors; an object maps each key to its (last) value. */
  datatype Json =
    | JNull
    | JBool(b: bool)
    | JInt(i: int)
    | JFloat(f: real)
    | JStr(s: string)
    | JArr(items: seq<Json>)
    | JObj(fields: map<string, Json>)

  /** The value reached by following `keys` through nested objects, or None
      as soon as a step is not an object or lacks the key. */
  function Resolve(d: Json, keys: seq<string>): Option<Json>
    decreases |keys|
  {
    if |keys| == 0 then Some(d)
    else if d.JObj? && keys[0] in d.fields then Resolve(d.fields[keys[0]], keys[1..])
    else None
  }

  /** A lookup along `a + b` is the lookup along `a` followed by the lookup along `b`. */
  lemma {:induction false} ResolveAppend(d: Json, a: seq<string>, b: seq<string>)
    ensures Resolve(d, a + b) == match Resolve(d, a) { case None => None case Some(v) => Resolve(v, b) }
    decreases |a|
  {
    if |a| == 0 {
      assert a + b == b;
    } else if d.JObj? && a[0] in d.fields {
      assert (a + b)[1..] == a[1..] + b;
      ResolveAppend(d.fields[a[0]], a[1..], b);
    }
  }

  /** `_safe_get(d, *keys, default)`: walks the keys one at a time and gives
      `default` as soon as the current value is not an object holding the
      key. A present `null` at the end of the path is returned as is. */
  method SafeGet(d: Json, keys: seq<string>, default: Json) returns (r: Json)
    ensures r == Resolve(d, keys).GetOr(default)
    ensures |keys| == 0 ==> r == d
  {
    var cur := d;
    var i := 0;
    while i < |keys|
      invariant 0 <= i <= |keys|
      invariant Resolve(d, keys) == Resolve(cur, keys[i..])
    {
      if !cur.JObj? || keys[i] !in cur.fields {
        return default;
      }
      assert keys[i..][1..] == keys[i + 1..];
      cur := cur.fields[keys[i]];
      i := i + 1;
    }
    return cur;
  }

  /** `_coerce_float(x)`: `float(x)`, or the NaN default (here: None) when
      Python's `float` raises. Numbers and booleans convert, and so does a
      string holding a decimal; `None`, other strings, lists and objects
      raise. */
  function CoerceFloat(x: Json): (r: Option<real>)
    ensures r.Some? <==> x.JInt? || x.JFloat? || x.JBool? || (x.JStr? && IsDecimalLiteral(x.s))
    ensures x.JInt? ==> r == Some(x.i as real)
    ensures x.JFloat? ==> r == Some(x.f)
    ensures x.JBool? ==> r == Some(if x.b then 1.0 else 0.0)
    ensures x.JStr? && IsDecimalLiteral(x.s) ==> r == Some(DecimalValue(x.s))
  {
    match x
    case JInt(i) => Some(i as real)
    case JFloat(f) => Some(f)
    case JBool(b) => Some(if b then 1.0 else 0.0)
    case JStr(s) => if IsDecimalLiteral(s) then Some(DecimalValue(s)) else None
    case _ => None
  }

  /** A number written out as a string coerces to the same value as the number. */
  lemma CoerceFloatOfText(n: int)
    ensures CoerceFloat(JStr(FormatInt(n))) == CoerceFloat(JInt(n))
  {
    FormatIntIsLiteral(n);
  }

  /** `d.get(key)` on an object: the value, or None when absent. */
  function Get(d: Json, key: string): (r: Option<Json>)
    ensures r == Resolve(d, [key])
  {
    if d.JObj? && key in d.fields then Some(d.fields[key]) else None
  }

  /** `_coerce_float(d.get(key))`: an absent key coerces like `None`. */
  function FloatField(d: Json, key: string): Option<real> {
    CoerceFloat(Get(d, key).GetOr(JNull))
  }

  /** Python's `bool(x)`: null, false, zero and empty containers are false. */
  predicate Truthy(x: Json)
    ensures x.JNull? ==> !Truthy(x)
    ensures x.JInt? || x.JFloat? || x.JBool? ==> (Truthy(x) <==> CoerceFloat(x) != Some(0.0))
  {
    match x
    case JNull => false
    case JBool(b) => b
    case JInt(i) => i != 0
    case JFloat(f) => f != 0.0
    case JStr(s) => |s| > 0
    case JArr(items) => |items| > 0
    case JObj(fields) => |fields| > 0
  }

  /** `int(p)` for a value that passes `isinstance(p, (int, np.integer))`;
      Python's booleans are integers too. Every other value is dropped. */
  function AsInt(x: Json): (r: Option<int>)
    ensures r.Some? <==> x.JInt? || x.JBool?
    ensures r.Some? ==> CoerceFloat(x) == Some(r.value as real)
  {
    match x
    case JInt(i) => Some(i)
    case JBool(b) => Some(if b then 1 else 0)
    case _ => None
  }
}

=== FILE: mnist.dfy ===
/** The MNIST tensor helpers: one-hot labels, the predicted class of an
    output vector, and flattening a 2-D image into one input row. */
module Mnist {
  import opened Telemetrics

  const Classes := 10

  /** `labelToOneHot(digit)`: one row of ten zeros with 1.0 at the label. Go
      panics for a label outside 0..9. */
  function LabelToOneHot(digit: int): (t: seq<seq<real>>)
    requires 0 <= digit < Classes
    ensures |t| == 1 && |t[0]| == Classes
    ensures t[0][digit] == 1.0
    ensures forall k :: 0 <= k < Classes && k != digit ==> t[0][k] == 0.0
  {
    [seq(Classes, k requires 0 <= k < Classes => if k == digit then 1.0 else 0.0)]
  }

  /** `argmax64(v)`: the first position of the largest value. Go panics on
      an empty vector. */
  function Argmax64(v: seq<real>): (idx: nat)
    requires |v| > 0
    ensures idx < |v|
    ensures forall i :: 0 <= i < |v| ==> v[i] <= v[idx]
    ensures forall i :: 0 <= i < idx ==> v[i] < v[idx]
  {
    if |v| == 1 then 0
    else
      var pre := v[..|v| - 1];
      var p := Argmax64(pre);
      assert forall i :: 0 <= i < |v| - 1 ==> v[i] == pre[i];
      if v[|v| - 1] > v[p] then |v| - 1 else p
  }

  /** The maximum and its first position agree: `top1` is the value at
      `argmax64`. */
  lemma Top1AtArgmax(v: seq<real>)
    requires |v| > 0
    ensures Top1(v) == v[Argmax64(v)]
  {
    var t := Top1(v);
    var k :| 0 <= k < |v| && v[k] == t;
  }

  /** The class of a one-hot label is the label. */
  lemma ArgmaxOfOneHot(digit: int)
    requires 0 <= digit < Classes
    ensures Argmax64(LabelToOneHot(digit)[0]) == digit
  {
    var v := LabelToOneHot(digit)[0];
    assert v[digit] == 1.0;
  }

  /** Every row has at least the first row's width, as Go's indexing needs. */
  predicate WideEnough(img: seq<seq<real>>) {
    |img| > 0 && forall r :: 0 <= r < |img| ==> |img[r]| >= |img[0]|
  }

  /** The row-major position of pixel (r, c) in rows of `cols` values. */
  function Offset(r: nat, cols: nat, c: nat): nat {
    r * cols + c
  }

  /** The first `cols` values of every row, row after row. */
  function Flatten(img: seq<seq<real>>, cols: nat): (out: seq<real>)
    requires forall r :: 0 <= r < |img| ==> |img[r]| >= cols
  {
    if |img| == 0 then [] else img[0][..cols] + Flatten(img[1..], cols)
  }

  lemma MulPred(r: nat, cols: nat)
    requires r > 0
    ensures r * cols == (r - 1) * cols + cols
  {
  }

  /** The flattened image has `cols` values per row. */
  lemma {:induction false} FlattenLength(img: seq<seq<real>>, cols: nat)
    requires forall r :: 0 <= r < |img| ==> |img[r]| >= cols
    ensures |Flatten(img, cols)| == |img| * cols
  {
    if |img| > 0 {
      FlattenLength(img[1..], cols);
      MulPred(|img|, cols);
    }
  }

  /** Pixel (r, c) lands at position r·cols + c. */
  lemma {:induction false} FlattenAt(img: seq<seq<real>>, cols: nat, r: nat, c: nat)
    requires forall k :: 0 <= k < |img| ==> |img[k]| >= cols
    requires r < |img| && c < cols
    ensures Offset(r, cols, c) < |Flatten(img, cols)|
    ensures Flatten(img, cols)[Offset(r, cols, c)] == img[r][c]
  {
    FlattenLength(img, cols);
    MulPred(|img|, cols);
    if r > 0 {
      FlattenAt(img[1..], cols, r - 1, c);
      MulPred(r, cols);
      assert img[1..][r - 1] == img[r];
    }
  }

  lemma FlattenAll(img: seq<seq<real>>, cols: nat)
    requires forall k :: 0 <= k < |img| ==> |img[k]| >= cols
    ensures forall r, c :: 0 <= r < |img| && 0 <= c < cols ==>
              Offset(r, cols, c) < |Flatten(img, cols)| && Flatten(img, cols)[Offset(r, cols, c)] == img[r][c]
  {
    forall r, c | 0 <= r < |img| && 0 <= c < cols
      ensures Offset(r, cols, c) < |Flatten(img, cols)| && Flatten(img, cols)[Offset(r, cols, c)] == img[r][c]
    {
      FlattenAt(img, cols, r, c);
    }
  }

  /** `flattenMNIST64(img)`: the rows × cols image (cols from the first row)
      as one row of rows·cols values in row-major order. */
  function FlattenMnist64(img: seq<seq<real>>): (out: seq<seq<real>>)
    requires WideEnough(img)
    ensures |out| == 1 && |out[0]| == |img| * |img[0]|
    ensures forall r, c :: 0 <= r < |img| && 0 <= c < |img[0]| ==>
              Offset(r, |img[0]|, c) < |out[0]| && out[0][Offset(r, |img[0]|, c)] == img[r][c]
  {
    var cols := |img[0]|;
    FlattenLength(img, cols);
    FlattenAll(img, cols);
    [Flatten(img, cols)]
  }
}

=== FILE: mode_collapse.dfy ===
/** `_is_mode_collapse`: a model is suspicious when seven or more of the
    per-digit predictions are one and the same label. */
module ModeCollapse {

  /** Seven of the ten digits predicting one label is a collapse. */
  const CollapseThreshold: nat := 7

  /** `preds.count(v)`. */
  function Occurrences(s: seq<int>, v: int): (n: nat)
    ensures n <= |s|
  {
    if |s| == 0 then 0 else (if s[0] == v then 1 else 0) + Occurrences(s[1..], v)
  }

  /** The count is the multiplicity of `v` in the multiset of `s`. */
  lemma {:induction false} OccurrencesMultiset(s: seq<int>, v: int)
    ensures Occurrences(s, v) == multiset(s)[v]
  {
    if |s| > 0 {
      OccurrencesMultiset(s[1..], v);
      assert s == [s[0]] + s[1..];
      assert multiset(s) == multiset{s[0]} + multiset(s[1..]);
    }
  }

  /** The largest count of any value of `cands` in `s`, 0 when `cands` is empty. */
  function MaxCountOver(s: seq<int>, cands: seq<int>): (m: nat)
    ensures forall i :: 0 <= i < |cands| ==> Occurrences(s, cands[i]) <= m
    ensures |cands| > 0 ==> exists i :: 0 <= i < |cands| && Occurrences(s, cands[i]) == m
    ensures |cands| == 0 ==> m == 0
  {
    if |cands| == 0 then 0
    else
      var rest := MaxCountOver(s, cands[1..]);
      var here := Occurrences(s, cands[0]);
      assert forall i :: 1 <= i < |cands| ==> cands[i] == cands[1..][i - 1];
      if here >= rest then here else rest
  }

  /** `max(preds.count(v) for v in set(preds))`: the count of the most common
      prediction (iterating over the list instead of its set visits each
      value again but changes no maximum). */
  function MostCommonCount(p: seq<int>): (m: nat)
    ensures forall i :: 0 <= i < |p| ==> Occurrences(p, p[i]) <= m
    ensures |p| > 0 ==> exists i :: 0 <= i < |p| && Occurrences(p, p[i]) == m
    ensures |p| == 0 ==> m == 0
  {
    MaxCountOver(p, p)
  }

  /** Some value occurs at least the threshold number of times. */
  predicate HasDominantLabel(p: seq<int>) {
    exists i :: 0 <= i < |p| && Occurrences(p, p[i]) >= CollapseThreshold
  }

  /** `_is_mode_collapse(preds)`: false on an empty list, and otherwise true
      exactly when some prediction occurs seven or more times. */
  function IsModeCollapse(p: seq<int>): (b: bool)
    ensures |p| == 0 ==> !b
    ensures b <==> HasDominantLabel(p)
  {
    if |p| == 0 then false
    else MostCommonCount(p) >= CollapseThreshold
  }

  /** A collapse needs at least seven predictions. */
  lemma ModeCollapseNeedsSeven(p: seq<int>)
    ensures IsModeCollapse(p) ==> |p| >= CollapseThreshold
  {
  }

  /** The verdict depends only on how often each label occurs, not on the
      order of the digits. */
  lemma ModeCollapseOrderFree(p: seq<int>, q: seq<int>)
    requires multiset(p) == multiset(q)
    ensures IsModeCollapse(p) == IsModeCollapse(q)
  {
    if HasDominantLabel(p) {
      DominantTransfers(p, q);
    }
    if HasDominantLabel(q) {
      DominantTransfers(q, p);
    }
  }

  lemma DominantTransfers(p: seq<int>, q: seq<int>)
    requires multiset(p) == multiset(q)
    requires HasDominantLabel(p)
    ensures HasDominantLabel(q)
  {
    var i :| 0 <= i < |p| && Occurrences(p, p[i]) >= CollapseThreshold;
    var v := p[i];
    OccurrencesMultiset(p, v);
    OccurrencesMultiset(q, v);
    assert v in multiset(q);
    var j :| 0 <= j < |q| && q[j] == v;
    assert Occurrences(q, q[j]) >= CollapseThreshold;
  }

  /** Seven digits read as 3 are a collapse. */
  lemma ModeCollapseExampleSeven()
    ensures IsModeCollapse([3, 3, 3, 3, 3, 3, 3, 0, 1, 2])
  {
    var a := [3, 3, 3, 3, 3, 3, 3, 0, 1, 2];
    assert multiset(a)[3] == 7;
    OccurrencesMultiset(a, 3);
    assert Occurrences(a, a[0]) >= CollapseThreshold;
  }

  /** Two different values share the positions of `s` between them. */
  lemma {:induction false} OccurrencesDisjoint(s: seq<int>, v: int, w: int)
    requires v != w
    ensures Occurrences(s, v) + Occurrences(s, w) <= |s|
  {
    if |s| > 0 {
      OccurrencesDisjoint(s[1..], v, w);
    }
  }

  /** Six digits read as 3 are not. */
  lemma ModeCollapseExampleSix()
    ensures !IsModeCollapse([3, 3, 3, 3, 3, 3, 0, 1, 2, 4])
  {
    var b := [3, 3, 3, 3, 3, 3, 0, 1, 2, 4];
    assert multiset(b)[3] == 6;
    OccurrencesMultiset(b, 3);
    forall i | 0 <= i < |b| ensures Occurrences(b, b[i]) < CollapseThreshold {
      if b[i] != 3 {
        OccurrencesDisjoint(b, 3, b[i]);
      }
    }
  }
}

=== FILE: models.dfy ===
/** The model zoo: ten MNIST architectures, the per-layer shapes,
    activations and trainable flags built for each, and the file name each
    is saved under. The network library that builds and saves the models is
    not part of this model. */
module Models {
  import opened Wrappers
  import opened Text
  import opened Decimal
  import opened SizeBucket

  /** A zoo entry: its id and its layer widths as text. */
  datatype ModelSpec = ModelSpec(id: string, layers: seq<string>)

  /** The architectures, from 784 inputs through the hidden layers to 10 classes. */
  const Zoo: seq<ModelSpec> := [
    ModelSpec("S1", ["784", "64", "10"]),
    ModelSpec("S2", ["784", "128", "10"]),
    ModelSpec("S3", ["784", "256", "10"]),
    ModelSpec("M1", ["784", "256", "256", "10"]),
    ModelSpec("M2", ["784", "384", "384", "10"]),
    ModelSpec("M3", ["784", "512", "512", "10"]),
    ModelSpec("L1", ["784", "768", "768", "768", "10"]),
    ModelSpec("L2", ["784", "1024", "1024", "1024", "10"]),
    ModelSpec("XL1", ["784", "1536", "1536", "1536", "1536", "10"]),
    ModelSpec("XL2", ["784", "2048", "2048", "2048", "2048", "10"])
  ]

  /** The leading run of ASCII digits of `s`. */
  function DigitPrefix(s: string): (d: string)
    ensures d <= s && AllDigits(d)
    ensures |d| < |s| ==> !IsDigit(s[|d|])
  {
    if |s| == 0 || !IsDigit(s[0]) then ""
    else
      var rest := DigitPrefix(s[1..]);
      assert [s[0]] + rest <= s;
      [s[0]] + rest
  }

  /** A string of digits is its own leading run. */
  lemma {:induction false} DigitPrefixOfDigits(s: string)
    requires AllDigits(s)
    ensures DigitPrefix(s) == s
  {
    if |s| > 0 {
      assert IsDigit(s[0]);
      assert AllDigits(s[1..]) by {
        assert forall i :: 0 <= i < |s| - 1 ==> s[1..][i] == s[i + 1];
      }
      DigitPrefixOfDigits(s[1..]);
      assert [s[0]] + s[1..] == s;
    }
  }

  /** The white space `%d` skips before the number. */
  function Skipped(l: string): (p: string)
    ensures p + TrimLeft(l) == l && Blank(p)
  {
    l[..|l| - |TrimLeft(l)|]
  }

  /** The digits `%d` reads after the skipped space and an optional sign. */
  function ScanDigits(l: string): (d: string)
    ensures AllDigits(d) && d <= Unsigned(TrimLeft(l))
  {
    DigitPrefix(Unsigned(TrimLeft(l)))
  }

  /** The signed value of those digits, before the 64-bit range check. */
  function ScanValue(l: string): int {
    ApplySign(TrimLeft(l), ValueOf(ScanDigits(l)))
  }

  /** `fmt.Sscanf(l, "%d", &w)` with `w` starting at 0: leading white
      space, an optional sign and the digits that follow, read as a 64-bit
      `int`. Sscanf fails, leaving 0, on a newline among the skipped white
      space, when no digits follow, and when the value does not fit. */
  function ScanInt(l: string): (w: Int64)
    ensures '\n' in Skipped(l) ==> w == 0
    ensures |ScanDigits(l)| == 0 ==> w == 0
    ensures !(MinInt64 <= ScanValue(l) <= MaxInt64) ==> w == 0
    ensures '\n' !in Skipped(l) && |ScanDigits(l)| > 0 && MinInt64 <= ScanValue(l) <= MaxInt64 ==> w == ScanValue(l)
  {
    if '\n' in Skipped(l) then 0
    else if |ScanDigits(l)| == 0 then 0
    else
      var v := ScanValue(l);
      if MinInt64 <= v <= MaxInt64 then v else 0
  }

  /** Space and tabs before the number are skipped. */
  lemma ScanIntSkipsBlanks()
    ensures ScanInt(" \t64") == 64
  {
    assert TrimLeft(" \t64") == "64" by {
      TrimLeftStep(" \t64"); assert " \t64"[1..] == "\t64";
      TrimLeftStep("\t64"); assert "\t64"[1..] == "64";
    }
    assert Skipped(" \t64") == " \t";
    assert ScanDigits(" \t64") == "64" by { DigitPrefixOfDigits("64"); }
    assert "64"[..1] == "6" && ValueOf("64") == 64;
    assert ScanValue(" \t64") == 64;
  }

  /** A newline before the number makes Sscanf fail, so the width stays 0. */
  lemma ScanIntStopsAtNewline()
    ensures ScanInt("\n64") == 0
  {
    assert TrimLeft("\n64") == "64" by { TrimLeftStep("\n64"); assert "\n64"[1..] == "64"; }
    assert Skipped("\n64")[0] == '\n';
  }

  /** A sign is read and the number ends at the first non-digit. */
  lemma ScanIntSignAndSuffix()
    ensures ScanInt("+64px") == 64
  {
    assert TrimLeft("+64px") == "+64px";
    assert Skipped("+64px") == "";
    assert Unsigned("+64px") == "64px";
    assert ScanDigits("+64px") == "64" by {
      assert "64px"[1..] == "4px" && "4px"[1..] == "px";
    }
    assert "64"[..1] == "6" && ValueOf("64") == 64;
    assert ScanValue("+64px") == 64;
  }

  /** Text that does not start with a digit or sign gives 0. */
  lemma ScanIntNoDigits()
    ensures ScanInt("x64") == 0
  {
    assert TrimLeft("x64") == "x64";
  }

  /** A layer's shape as the network library takes it. */
  datatype Shape = Shape(width: int, height: int)

  /** `toParagonShapes(s)`: a 28×28 input, a 10×1 output, and a w×1 shape for
      every hidden layer of width w. A one-layer spec is input only. */
  function ToParagonShapes(s: ModelSpec): (r: seq<Shape>)
    ensures |r| == |s.layers|
    ensures |r| > 0 ==> r[0] == Shape(28, 28)
    ensures |r| > 1 ==> r[|r| - 1] == Shape(10, 1)
    ensures forall i :: 0 < i < |r| - 1 ==> r[i] == Shape(ScanInt(s.layers[i]), 1)
  {
    var n := |s.layers|;
    seq(n, i requires 0 <= i < n =>
      if i == 0 then Shape(28, 28)
      else if i == n - 1 then Shape(10, 1)
      else Shape(ScanInt(s.layers[i]), 1))
  }

  /** `buildActivs(s)`: "linear" for the input, "softmax" for the output
      and "relu" for every hidden layer. */
  function BuildActivs(s: ModelSpec): (r: seq<string>)
    ensures |r| == |s.layers|
    ensures |r| > 0 ==> r[0] == "linear"
    ensures |r| > 1 ==> r[|r| - 1] == "softmax"
    ensures forall i :: 0 < i < |r| - 1 ==> r[i] == "relu"
  {
    var n := |s.layers|;
    seq(n, i requires 0 <= i < n =>
      if i == 0 then "linear" else if i == n - 1 then "softmax" else "relu")
  }

  /** `buildTrainable(n)`: `n` flags, all set. Go panics for a negative `n`. */
  function BuildTrainable(n: int): (r: seq<bool>)
    requires n >= 0
    ensures |r| == n
    ensures forall i :: 0 <= i < n ==> r[i]
  {
    seq(n, i => true)
  }

  /** `fmt.Sprintf("mnist_%s.json", id)`. */
  function Filename(id: string): string {
    "mnist_" + id + ".json"
  }

  /** Text starting with its sign or first digit reads as those digits. */
  lemma ScanIntPlain(l: string, ds: string)
    requires TrimLeft(l) == l && ScanDigits(l) == ds && |ds| > 0
    requires MinInt64 <= ApplySign(l, ValueOf(ds)) <= MaxInt64
    ensures ScanInt(l) == ApplySign(l, ValueOf(ds))
  {
    assert |Skipped(l)| == 0;
  }

  /** Every hidden width of the zoo is read back as the number it spells. */
  lemma ScanIntOfDigits(l: string)
    requires |l| > 0 && AllDigits(l) && ValueOf(l) <= MaxInt64
    ensures ScanInt(l) == ValueOf(l)
  {
    assert IsDigit(l[0]);
    TrimLeftOfNonSpace(l);
    assert Unsigned(l) == l;
    DigitPrefixOfDigits(l);
    ScanIntPlain(l, l);
  }

  /** `%d` reads back what `%d` prints: every 64-bit integer survives the
      round trip, so a width written as text gives the same width. */
  lemma ScanIntFormatInt(n: Int64)
    ensures ScanInt(FormatInt(n)) == n
  {
    if n >= 0 {
      ScanIntOfDigits(FormatNat(n));
    } else {
      var m: nat := -(n as int);
      var ds := FormatNat(m);
      var l := "-" + ds;
      assert TrimLeft(l) == l;
      assert l[1..] == ds;
      DigitPrefixOfDigits(ds);
    }
  }

  /** The size classes the zoo uses. */
  predicate IsSizeClass(tok: string) {
    tok == "S" || tok == "M" || tok == "L" || tok == "XL"
  }

  /** A file name ending in `_<class><digit>.json` falls in that class. */
  lemma SuffixBucket(prefix: string, tok: string, d: char)
    requires IsSizeClass(tok) && IsAsciiDigit(d)
    ensures ModelSizeBucket(prefix + "_" + tok + [d] + ".json") == tok
  {
    var core := prefix + "_" + tok;
    JsonStem(core + [d]);
    OneTrailingDigit(core, d);
    assert core + [d] + ".json" == prefix + "_" + tok + [d] + ".json";
    SuffixOfCore(prefix, tok);
  }

  /** `stem + ".json"` ends with `.json` and has `stem` before it. */
  lemma JsonStem(stem: string)
    ensures var name := stem + ".json"; EndsWithJson(name) && name[..|name| - 5] == stem
  {
    var name := stem + ".json";
    assert name[|name| - 5..] == ".json";
  }

  /** A single digit after a non-digit is the whole trailing run. */
  lemma OneTrailingDigit(core: string, d: char)
    requires |core| > 0 && !IsAsciiDigit(core[|core| - 1]) && IsAsciiDigit(d)
    ensures var stem := core + [d]; stem[..|stem| - TrailingDigits(stem)] == core
  {
    var stem := core + [d];
    assert stem[..|stem| - 1] == core;
    assert TrailingDigits(core) == 0;
  }

  /** The size-token test on a core ending in `_<class>`. */
  lemma SuffixOfCore(prefix: string, tok: string)
    requires IsSizeClass(tok)
    ensures var core := prefix + "_" + tok; var n := |core|;
      if tok == "XL" then n >= 3 && core[n - 3] == '_' && Matches(core[n - 2], 'x') && Matches(core[n - 1], 'l')
      else (n >= 2 && core[n - 2] == '_' && core[n - 1] == tok[0]
            && !(n >= 3 && core[n - 3] == '_' && Matches(core[n - 2], 'x') && Matches(core[n - 1], 'l')))
  {
    var core := prefix + "_" + tok;
    assert core[|core| - |tok|..] == tok;
    assert core[|core| - |tok| - 1] == '_';
  }

  /** The class of a zoo id: the id without its trailing digits. */
  function ClassOf(id: string): string {
    id[..|id| - TrailingDigits(id)]
  }

  /** Each zoo model's file name is classified as its id without the
      trailing digits, so the report groups the zoo by its own size names. */
  lemma ZooFilenameBuckets()
    ensures forall k :: 0 <= k < |Zoo| ==> ModelSizeBucket(Filename(Zoo[k].id)) == ClassOf(Zoo[k].id)
  {
    forall k | 0 <= k < |Zoo| ensures ModelSizeBucket(Filename(Zoo[k].id)) == ClassOf(Zoo[k].id) {
      ZooEntryBucket(Zoo[k].id);
    }
  }

  lemma ZooEntryBucket(id: string)
    requires |id| >= 2 && IsSizeClass(id[..|id| - 1]) && IsAsciiDigit(id[|id| - 1])
    ensures ModelSizeBucket(Filename(id)) == ClassOf(id)
  {
    var tok := id[..|id| - 1];
    var d := id[|id| - 1];
    assert id == tok + [d];
    assert !IsAsciiDigit(tok[|tok| - 1]);
    OneTrailingDigit(tok, d);
    SuffixBucket("mnist", tok, d);
    FilenameParts(tok, d);
  }

  lemma FilenameParts(tok: string, d: char)
    ensures Filename(tok + [d]) == "mnist" + "_" + tok + [d] + ".json"
  {
  }
}

=== FILE: percentile.dfy ===
/** `_pct`: the nearest-rank percentile of the numeric values of a column,
    with Python's half-to-even `round` picking the rank. A missing or NaN
    entry is `None`; the NaN result for an all-missing column is `None`. */
module Percentile {
  import opened Wrappers
  import opened Seqs

  /** Python's `round` on an exact value: the nearest integer, and of two
      equally near integers the even one. */
  function RoundHalfEven(x: real): (r: int)
    ensures r as real - x <= 0.5 && x - r as real <= 0.5
    ensures (r as real - x == 0.5 || x - r as real == 0.5) ==> r % 2 == 0
  {
    var f := x.Floor;
    var d := x - f as real;
    if d < 0.5 then f
    else if d > 0.5 then f + 1
    else if f % 2 == 0 then f
    else f + 1
  }

  /** The two contract clauses of `RoundHalfEven` pin its result down: no
      other integer is as near with the same tie rule. */
  lemma RoundHalfEvenUnique(x: real, r: int)
    requires r as real - x <= 0.5 && x - r as real <= 0.5
    requires (r as real - x == 0.5 || x - r as real == 0.5) ==> r % 2 == 0
    ensures RoundHalfEven(x) == r
  {
    var f := x.Floor;
    assert f == r || f + 1 == r || f == r + 1;
  }

  /** Rounding never reverses the order of two values. */
  lemma RoundHalfEvenMonotone(x: real, y: real)
    requires x <= y
    ensures RoundHalfEven(x) <= RoundHalfEven(y)
  {
    assert x.Floor <= y.Floor;
  }

  /** `int(round((q/100.0)*(n-1)))`: the rank `_pct` reads from the sorted
      values. For a percent in [0, 100] it is a valid index. */
  function PctIndex(q: real, n: nat): (idx: int)
    requires n > 0 && 0.0 <= q <= 100.0
    ensures 0 <= idx < n
  {
    var x := (q / 100.0) * ((n - 1) as real);
    assert 0.0 <= q / 100.0 <= 1.0;
    assert 0.0 <= x <= (n - 1) as real by {
      MulBounds(q / 100.0, (n - 1) as real);
    }
    RoundHalfEven(x)
  }

  lemma MulBounds(a: real, b: real)
    requires 0.0 <= a <= 1.0 && 0.0 <= b
    ensures 0.0 <= a * b <= b
  {
    assert a * b <= 1.0 * b;
  }

  /** A larger percent never picks a smaller rank. */
  lemma PctIndexMonotone(q1: real, q2: real, n: nat)
    requires n > 0 && 0.0 <= q1 <= q2 <= 100.0
    ensures PctIndex(q1, n) <= PctIndex(q2, n)
  {
    RoundHalfEvenMonotone((q1 / 100.0) * ((n - 1) as real), (q2 / 100.0) * ((n - 1) as real));
  }

  /** The present values of a column, in order: the list comprehension that
      drops non-numbers and NaN. */
  function NumericValues(a: seq<Option<real>>): (r: seq<real>)
    ensures |r| <= |a|
  {
    if |a| == 0 then []
    else
      var rest := NumericValues(a[1..]);
      match a[0]
      case None => rest
      case Some(v) => [v] + rest
  }

  /** The present values are exactly the values the column holds: none when
      every entry is missing. */
  lemma {:induction false} NumericValuesMembers(a: seq<Option<real>>)
    ensures |NumericValues(a)| == 0 <==> forall i :: 0 <= i < |a| ==> a[i].None?
    ensures forall k :: 0 <= k < |NumericValues(a)| ==> Some(NumericValues(a)[k]) in a
    ensures forall i :: 0 <= i < |a| && a[i].Some? ==> a[i].value in NumericValues(a)
  {
    if |a| > 0 {
      var r := NumericValues(a);
      var rest := NumericValues(a[1..]);
      NumericValuesMembers(a[1..]);
      assert forall i :: 1 <= i < |a| ==> a[i] == a[1..][i - 1];
      if a[0].Some? {
        assert r == [a[0].value] + rest;
        assert forall k :: 1 <= k < |r| ==> r[k] == rest[k - 1];
      } else {
        assert r == rest;
      }
    }
  }

  predicate RealLe(x: real, y: real) {
    x <= y
  }

  /** `x < v`, the values ranked strictly below `v`. */
  function Below(v: real): real -> bool {
    x => x < v
  }

  /** `x <= v`, the values ranked at or below `v`. */
  function AtMost(v: real): real -> bool {
    x => x <= v
  }

  lemma RealLeTotal()
    ensures Total(RealLe)
  {
  }

  /** `sorted(arr)`. */
  function Sorted(s: seq<real>): (r: seq<real>)
    ensures |r| == |s| && multiset(r) == multiset(s)
    ensures SortedBy(r, RealLe)
  {
    RealLeTotal();
    SortBySorted(s, RealLe);
    SortBy(s, RealLe)
  }

  /** In a sorted sequence every earlier element is at most every later one. */
  lemma {:induction false} SortedLe(s: seq<real>, j: nat, k: nat)
    requires SortedBy(s, RealLe)
    requires j <= k < |s|
    ensures s[j] <= s[k]
    decreases k - j
  {
    if j < k {
      SortedLe(s, j, k - 1);
      assert RealLe(s[k - 1], s[k]);
    }
  }

  /** Nothing from rank `idx` on lies strictly below the element there. */
  lemma CountBelowOfSorted(s: seq<real>, idx: nat)
    requires SortedBy(s, RealLe)
    requires idx < |s|
    ensures CountWhere(s, Below(s[idx])) <= idx
  {
    var v := s[idx];
    var head, tail := s[..idx], s[idx..];
    assert s == head + tail;
    CountWhereAppend(head, tail, Below(v));
    forall i | 0 <= i < |tail| ensures !Below(v)(tail[i]) {
      assert tail[i] == s[idx + i];
      SortedLe(s, idx, idx + i);
    }
    CountWhereNone(tail, Below(v));
  }

  /** Everything up to rank `idx` lies at or below the element there. */
  lemma CountAtMostOfSorted(s: seq<real>, idx: nat)
    requires SortedBy(s, RealLe)
    requires idx < |s|
    ensures idx < CountWhere(s, AtMost(s[idx]))
  {
    var v := s[idx];
    var head, tail := s[..idx + 1], s[idx + 1..];
    assert s == head + tail;
    CountWhereAppend(head, tail, AtMost(v));
    forall i | 0 <= i < |head| ensures AtMost(v)(head[i]) {
      assert head[i] == s[i];
      SortedLe(s, i, idx);
    }
    CountWhereAll(head, AtMost(v));
  }

  /** `_pct(a, q)` for a percent in [0, 100]: None when no value is present,
      otherwise a present value whose rank among the present values is the
      rounded `q` percent of the way from the smallest to the largest. */
  function Pct(a: seq<Option<real>>, q: real): (r: Option<real>)
    requires 0.0 <= q <= 100.0
    ensures r.None? <==> forall i :: 0 <= i < |a| ==> a[i].None?
    ensures r.Some? ==> Some(r.value) in a
    ensures r.Some? ==>
      var vals := NumericValues(a);
      |vals| > 0 &&
      CountWhere(vals, Below(r.value)) <= PctIndex(q, |vals|) < CountWhere(vals, AtMost(r.value))
  {
    var vals := NumericValues(a);
    NumericValuesMembers(a);
    if |vals| == 0 then None
    else
      var s := Sorted(vals);
      var idx := PctIndex(q, |vals|);
      var v := s[idx];
      assert v in multiset(vals);
      CountBelowOfSorted(s, idx);
      CountAtMostOfSorted(s, idx);
      SortByCountWhere(vals, RealLe, Below(v));
      SortByCountWhere(vals, RealLe, AtMost(v));
      Some(v)
  }

  /** The order-statistic clause of `Pct` has one solution: any value of
      the column with that rank is the one `Pct` returns. */
  lemma PctRankUnique(vals: seq<real>, idx: nat, v: real, w: real)
    requires CountWhere(vals, Below(v)) <= idx < CountWhere(vals, AtMost(v))
    requires CountWhere(vals, Below(w)) <= idx < CountWhere(vals, AtMost(w))
    ensures v == w
  {
    if v < w {
      CountWhereMonotone(vals, AtMost(v), Below(w));
      assert false;
    } else if w < v {
      CountWhereMonotone(vals, AtMost(w), Below(v));
      assert false;
    }
  }

  /** A predicate that implies another is satisfied no more often. */
  lemma {:induction false} CountWhereMonotone(s: seq<real>, p: real -> bool, q: real -> bool)
    requires forall x :: p(x) ==> q(x)
    ensures CountWhere(s, p) <= CountWhere(s, q)
  {
    if |s| > 0 {
      CountWhereMonotone(s[1..], p, q);
    }
  }

  /** A larger percent never gives a smaller percentile. */
  lemma PctMonotone(a: seq<Option<real>>, q1: real, q2: real)
    requires 0.0 <= q1 <= q2 <= 100.0
    ensures Pct(a, q1).Some? ==> Pct(a, q1).value <= Pct(a, q2).value
  {
    var vals := NumericValues(a);
    if |vals| > 0 {
      PctIndexMonotone(q1, q2, |vals|);
      SortedLe(Sorted(vals), PctIndex(q1, |vals|), PctIndex(q2, |vals|));
    }
  }

  /** The percentile of a column with present values is the element at the
      rounded rank of the sorted present values. */
  lemma PctAtRank(a: seq<Option<real>>, q: real)
    requires 0.0 <= q <= 100.0 && |NumericValues(a)| > 0
    ensures Pct(a, q) == Some(Sorted(NumericValues(a))[PctIndex(q, |NumericValues(a)|)])
  {
  }

  /** Every percentile lies between the smallest and the largest present value. */
  lemma PctBetween(a: seq<Option<real>>, q: real)
    requires 0.0 <= q <= 100.0
    ensures Pct(a, q).Some? ==>
      Pct(a, 0.0).value <= Pct(a, q).value <= Pct(a, 100.0).value
      && (forall i :: 0 <= i < |a| && a[i].Some? ==> Pct(a, 0.0).value <= a[i].value <= Pct(a, 100.0).value)
  {
    PctMonotone(a, 0.0, q);
    PctMonotone(a, q, 100.0);
    var vals := NumericValues(a);
    if |vals| > 0 {
      var s := Sorted(vals);
      assert PctIndex(0.0, |vals|) == 0;
      assert PctIndex(100.0, |vals|) == |vals| - 1;
      PctAtRank(a, 0.0);
      PctAtRank(a, 100.0);
      SortedEnds(a);
    }
  }

  /** Every present value lies between the ends of the sorted values. */
  lemma SortedEnds(a: seq<Option<real>>)
    requires |NumericValues(a)| > 0
    ensures forall i :: 0 <= i < |a| && a[i].Some? ==>
      Sorted(NumericValues(a))[0] <= a[i].value <= Sorted(NumericValues(a))[|NumericValues(a)| - 1]
  {
    var vals := NumericValues(a);
    var s := Sorted(vals);
    NumericValuesMembers(a);
    forall i | 0 <= i < |a| && a[i].Some? ensures s[0] <= a[i].value <= s[|s| - 1] {
      assert a[i].value in multiset(s);
      var k :| 0 <= k < |s| && s[k] == a[i].value;
      SortedLe(s, 0, k);
      SortedLe(s, k, |s| - 1);
    }
  }

  /** Two values, median: the rank 0.5 rounds to the even rank 0. */
  lemma PctExampleTie()
    ensures Pct([Some(1.0), Some(2.0)], 50.0) == Some(1.0)
  {
    var a := [Some(1.0), Some(2.0)];
    assert NumericValues(a) == [1.0, 2.0];
    assert Sorted([1.0, 2.0]) == [1.0, 2.0];
    assert RoundHalfEven(0.5) == 0;
  }

  lemma SortedFourExample()
    ensures Sorted([1.0, 2.0, 3.0, 4.0]) == [1.0, 2.0, 3.0, 4.0]
  {
    assert [1.0, 2.0, 3.0, 4.0][1..] == [2.0, 3.0, 4.0];
    assert [2.0, 3.0, 4.0][1..] == [3.0, 4.0];
    assert SortBy([4.0], RealLe) == [4.0];
    assert SortBy([3.0, 4.0], RealLe) == [3.0, 4.0];
    assert SortBy([2.0, 3.0, 4.0], RealLe) == [2.0, 3.0, 4.0];
  }

  /** The present values of a column are its head's, if present, then its tail's. */
  lemma NumericValuesCons(x: Option<real>, rest: seq<Option<real>>)
    ensures NumericValues([x] + rest) == (if x.Some? then [x.value] else []) + NumericValues(rest)
  {
    assert ([x] + rest)[1..] == rest;
  }

  lemma NumericValuesFourExample()
    ensures NumericValues([Some(1.0), Some(2.0), Some(3.0), Some(4.0)]) == [1.0, 2.0, 3.0, 4.0]
  {
    NumericValuesCons(Some(4.0), []);
    assert [Some(4.0)] + [] == [Some(4.0)];
    NumericValuesCons(Some(3.0), [Some(4.0)]);
    assert [Some(3.0)] + [Some(4.0)] == [Some(3.0), Some(4.0)];
    NumericValuesCons(Some(2.0), [Some(3.0), Some(4.0)]);
    assert [Some(2.0)] + [Some(3.0), Some(4.0)] == [Some(2.0), Some(3.0), Some(4.0)];
    NumericValuesCons(Some(1.0), [Some(2.0), Some(3.0), Some(4.0)]);
    assert [Some(1.0)] + [Some(2.0), Some(3.0), Some(4.0)] == [Some(1.0), Some(2.0), Some(3.0), Some(4.0)];
  }

  lemma PctIndexHighExample()
    ensures PctIndex(90.0, 4) == 3
  {
    assert (90.0 / 100.0) * (3 as real) == 2.7;
    assert RoundHalfEven(2.7) == 3;
  }

  /** Four values, 90th percentile: the rank 2.7 rounds to 3. */
  lemma PctExampleHigh()
    ensures Pct([Some(1.0), Some(2.0), Some(3.0), Some(4.0)], 90.0) == Some(4.0)
  {
    NumericValuesFourExample();
    SortedFourExample();
    PctIndexHighExample();
    PctAtRank([Some(1.0), Some(2.0), Some(3.0), Some(4.0)], 90.0);
  }

  lemma SortedThreeExample()
    ensures Sorted([3.0, 1.0, 2.0]) == [1.0, 2.0, 3.0]
  {
    assert [3.0, 1.0, 2.0][1..] == [1.0, 2.0];
    assert [1.0, 2.0][1..] == [2.0];
    assert SortBy([2.0], RealLe) == [2.0];
    assert SortBy([1.0, 2.0], RealLe) == [1.0, 2.0];
    assert InsertBy(3.0, [2.0], RealLe) == [2.0, 3.0];
    assert InsertBy(3.0, [1.0, 2.0], RealLe) == [1.0, 2.0, 3.0];
  }

  lemma NumericValuesGapExample()
    ensures NumericValues([Some(3.0), None, Some(1.0), Some(2.0)]) == [3.0, 1.0, 2.0]
  {
    NumericValuesCons(Some(2.0), []);
    assert [Some(2.0)] + [] == [Some(2.0)];
    NumericValuesCons(Some(1.0), [Some(2.0)]);
    assert [Some(1.0)] + [Some(2.0)] == [Some(1.0), Some(2.0)];
    NumericValuesCons(None, [Some(1.0), Some(2.0)]);
    assert [None] + [Some(1.0), Some(2.0)] == [None, Some(1.0), Some(2.0)];
    NumericValuesCons(Some(3.0), [None, Some(1.0), Some(2.0)]);
    assert [Some(3.0)] + [None, Some(1.0), Some(2.0)] == [Some(3.0), None, Some(1.0), Some(2.0)];
  }

  /** Missing entries are skipped and the rest sorted before ranking. */
  lemma PctExampleUnsorted()
    ensures Pct([Some(3.0), None, Some(1.0), Some(2.0)], 50.0) == Some(2.0)
  {
    var a := [Some(3.0), None, Some(1.0), Some(2.0)];
    NumericValuesGapExample();
    SortedThreeExample();
    assert PctIndex(50.0, 3) == 1 by {
      assert (50.0 / 100.0) * (2 as real) == 1.0;
      assert RoundHalfEven(1.0) == 1;
    }
    PctAtRank(a, 50.0);
  }

  /** A column with no present value has no percentile. */
  lemma PctExampleEmpty()
    ensures Pct([None, None], 50.0) == None
  {
  }
}

=== FILE: report.dfy ===
/** `load_all`: discover the snapshot files, flatten every readable one into
    spec and performance rows, and flag mode collapse per machine and model.
    The directory listing and the parsed contents of the files are inputs;
    a discovered file missing from `contents` is one that could not be read
    or parsed. */
module Report {
  import opened Wrappers
  import opened Seqs
  import opened Discovery
  import opened Snapshots
  import opened Rows
  import opened Anomalies

  /** `SystemExit("No telemetry_*.json files found ...")`. */
  datatype LoadError = NoInputData

  /** `df_specs`, `df_perf`, `json_files` and `df_anom`. */
  datatype Tables = Tables(
    specs: seq<SpecRow>,
    perf: seq<PerfRow>,
    files: seq<FilePath>,
    anomalies: seq<Anomaly>)

  function Readable(contents: map<FilePath, Snapshot>): FilePath -> bool {
    f => f in contents
  }

  /** The number of model runs over the readable files. */
  function RunsOf(files: seq<FilePath>, contents: map<FilePath, Snapshot>): nat {
    if |files| == 0 then 0
    else (if files[0] in contents then |contents[files[0]].perModel| else 0) + RunsOf(files[1..], contents)
  }

  /** The number of CPU samples over the readable files. */
  function SamplesOf(files: seq<FilePath>, contents: map<FilePath, Snapshot>): nat {
    if |files| == 0 then 0
    else (if files[0] in contents then TotalSamples(contents[files[0]].perModel) else 0) + SamplesOf(files[1..], contents)
  }

  /** The discovered files that could be read, in discovery order. */
  function ReadableFiles(files: seq<FilePath>, contents: map<FilePath, Snapshot>): (r: seq<FilePath>)
    ensures |r| == CountWhere(files, Readable(contents))
    ensures forall k :: 0 <= k < |r| ==> r[k] in contents
  {
    Filter(files, Readable(contents))
  }

  /** Each readable file with its parsed snapshot, in discovery order. */
  function ReadablePairs(files: seq<FilePath>, contents: map<FilePath, Snapshot>): (r: seq<(FilePath, Snapshot)>)
    ensures |r| == CountWhere(files, Readable(contents))
    ensures forall k :: 0 <= k < |r| ==> r[k].0 in contents && r[k].1 == contents[r[k].0]
  {
    var rf := ReadableFiles(files, contents);
    seq(|rf|, k requires 0 <= k < |rf| => (rf[k], contents[rf[k]]))
  }

  /** The spec row of a readable file. */
  function SpecOf(p: (FilePath, Snapshot)): SpecRow {
    BuildSpecRow(StemOf(p.0), p.1)
  }

  /** The performance rows of a readable file. */
  function PerfOf(p: (FilePath, Snapshot)): seq<PerfRow> {
    FileRows(p.0, p.1)
  }

  /** One spec row per readable file, in file order. */
  function SpecTable(files: seq<FilePath>, contents: map<FilePath, Snapshot>): seq<SpecRow> {
    MapSeq(ReadablePairs(files, contents), SpecOf)
  }

  /** The rows of each readable file, one file after another. */
  function PerfTable(files: seq<FilePath>, contents: map<FilePath, Snapshot>): seq<PerfRow> {
    Concat(MapSeq(ReadablePairs(files, contents), PerfOf))
  }

  /** The spec rows `load_all` appends while it walks the files: one per
      readable file, built from that file, in file order. */
  function SpecRows(files: seq<FilePath>, contents: map<FilePath, Snapshot>): (r: seq<SpecRow>)
    ensures r == SpecTable(files, contents)
    ensures |r| == CountWhere(files, Readable(contents))
  {
    if |files| == 0 then []
    else
      SpecTableStep(files, contents);
      if files[0] in contents then [BuildSpecRow(StemOf(files[0]), contents[files[0]])] + SpecRows(files[1..], contents)
      else SpecRows(files[1..], contents)
  }

  /** Filtering the readable files takes the first file exactly when it is readable. */
  lemma ReadableFilesStep(files: seq<FilePath>, contents: map<FilePath, Snapshot>)
    requires |files| > 0
    ensures files[0] in contents ==> ReadableFiles(files, contents) == [files[0]] + ReadableFiles(files[1..], contents)
    ensures files[0] !in contents ==> ReadableFiles(files, contents) == ReadableFiles(files[1..], contents)
  {
  }

  /** The readable pairs of a list of files: the first file's pair, when it
      is readable, before those of the rest. */
  lemma ReadablePairsStep(files: seq<FilePath>, contents: map<FilePath, Snapshot>)
    requires |files| > 0
    ensures files[0] in contents ==>
      ReadablePairs(files, contents) == [(files[0], contents[files[0]])] + ReadablePairs(files[1..], contents)
    ensures files[0] !in contents ==> ReadablePairs(files, contents) == ReadablePairs(files[1..], contents)
  {
    ReadableFilesStep(files, contents);
    var all := ReadablePairs(files, contents);
    var rest := ReadablePairs(files[1..], contents);
    if files[0] in contents {
      assert forall k :: 0 <= k < |rest| ==> all[k + 1] == rest[k];
      assert all == [all[0]] + rest;
    }
  }

  /** The spec table of a list of files, built from its first file and the rest. */
  lemma SpecTableStep(files: seq<FilePath>, contents: map<FilePath, Snapshot>)
    requires |files| > 0
    ensures files[0] in contents ==>
      SpecTable(files, contents) == [BuildSpecRow(StemOf(files[0]), contents[files[0]])] + SpecTable(files[1..], contents)
    ensures files[0] !in contents ==> SpecTable(files, contents) == SpecTable(files[1..], contents)
  {
    ReadablePairsStep(files, contents);
  }

  /** The perf table of a list of files, built from its first file and the rest. */
  lemma PerfTableStep(files: seq<FilePath>, contents: map<FilePath, Snapshot>)
    requires |files| > 0
    ensures files[0] in contents ==>
      PerfTable(files, contents) == FileRows(files[0], contents[files[0]]) + PerfTable(files[1..], contents)
    ensures files[0] !in contents ==> PerfTable(files, contents) == PerfTable(files[1..], contents)
  {
    ReadablePairsStep(files, contents);
  }

  /** The rows of one readable file, under the machine id and name of its spec row. */
  function FileRows(f: FilePath, t: Snapshot): seq<PerfRow> {
    var spec := BuildSpecRow(StemOf(f), t);
    RunsRows(spec.machineId, spec.machineName, t.perModel)
  }

  /** The performance rows `load_all` appends while it walks the files: the
      rows of each readable file, one file after another; an unreadable file
      adds none. */
  function PerfRows(files: seq<FilePath>, contents: map<FilePath, Snapshot>): (r: seq<PerfRow>)
    ensures r == PerfTable(files, contents)
    ensures |r| == RunsOf(files, contents) + SamplesOf(files, contents)
  {
    if |files| == 0 then []
    else
      PerfTableStep(files, contents);
      if files[0] in contents then FileRows(files[0], contents[files[0]]) + PerfRows(files[1..], contents)
      else PerfRows(files[1..], contents)
  }

  /** One summary row per model run and one digit row per CPU sample of the
      readable files. */
  lemma {:induction false} PerfRowsCounts(files: seq<FilePath>, contents: map<FilePath, Snapshot>)
    ensures CountWhere(PerfRows(files, contents), IsSummary) == RunsOf(files, contents)
    ensures CountWhere(PerfRows(files, contents), IsDigit) == SamplesOf(files, contents)
  {
    if |files| > 0 {
      PerfRowsCounts(files[1..], contents);
      if files[0] in contents {
        var t := contents[files[0]];
        var spec := BuildSpecRow(StemOf(files[0]), t);
        var a := FileRows(files[0], t);
        var b := PerfRows(files[1..], contents);
        RunsRowsCounts(spec.machineId, spec.machineName, t.perModel);
        CountWhereAppend(a, b, IsSummary);
        CountWhereAppend(a, b, IsDigit);
      }
    }
  }

  /** `df_perf[df_perf['is_digit'] == True]`: the digit rows, in order. */
  function DigitRows(perf: seq<PerfRow>): (r: seq<DigitRow>)
    ensures |r| == CountWhere(perf, IsDigit)
    ensures forall k :: 0 <= k < |r| ==> Digit(r[k]) in perf
    ensures forall i :: 0 <= i < |perf| && perf[i].Digit? ==> perf[i].digitRow in r
  {
    if |perf| == 0 then []
    else
      var rest := DigitRows(perf[1..]);
      assert forall i :: 1 <= i < |perf| ==> perf[i] == perf[1..][i - 1];
      if perf[0].Digit? then [perf[0].digitRow] + rest else rest
  }

  /** The anomaly table: empty for an empty `df_perf`, otherwise the flags
      of the digit rows' groups. */
  function AnomalyTable(perf: seq<PerfRow>): (r: seq<Anomaly>)
    ensures Distinct(r)
    ensures forall a :: a in r <==> Flagged(DigitRows(perf), a)
  {
    if |perf| == 0 then [] else DetectAnomalies(DigitRows(perf))
  }

  /** `load_all()` with `argv` the command-line folders, `fs` the directory
      listing and `contents` the files that parse. It fails only when no
      file is discovered; otherwise every readable file yields one spec row,
      one summary row per model run and one digit row per CPU sample, and
      the anomalies are exactly the collapsed groups, each once. */
  function LoadAll(argv: seq<string>, fs: map<string, seq<string>>, contents: map<FilePath, Snapshot>)
    : (r: Result<Tables, LoadError>)
    ensures r.Err? <==> |DiscoverJsonFiles(FindInputDirs(argv), fs)| == 0
    ensures r.Ok? ==> Loaded(r.value, DiscoverJsonFiles(FindInputDirs(argv), fs), contents)
  {
    var files := DiscoverJsonFiles(FindInputDirs(argv), fs);
    TablesOfFiles(files, contents);
    LoadFiles(files, contents)
  }

  /** The tables of `files`: the files themselves, one spec row per readable
      file, each file's performance rows in file order, hence one summary row
      per model run and one digit row per CPU sample,
      and the anomalies exactly the collapsed groups, each once. */
  ghost predicate Loaded(t: Tables, files: seq<FilePath>, contents: map<FilePath, Snapshot>) {
    && t.files == files
    && t.specs == SpecTable(files, contents)
    && t.perf == PerfTable(files, contents)
    && |t.specs| == CountWhere(files, Readable(contents))
    && CountWhere(t.perf, IsSummary) == RunsOf(files, contents)
    && CountWhere(t.perf, IsDigit) == SamplesOf(files, contents)
    && Distinct(t.anomalies)
    && forall a :: a in t.anomalies <==> Flagged(DigitRows(t.perf), a)
  }

  /** The tables built from the discovered files; an error when there are none. */
  function LoadFiles(files: seq<FilePath>, contents: map<FilePath, Snapshot>): (r: Result<Tables, LoadError>)
    ensures r.Err? <==> |files| == 0
    ensures r.Ok? ==> r.value == BuildTables(files, contents)
  {
    if |files| == 0 then Err(NoInputData) else Ok(BuildTables(files, contents))
  }

  /** The tables built from the discovered files. */
  function BuildTables(files: seq<FilePath>, contents: map<FilePath, Snapshot>): Tables {
    var perf := PerfRows(files, contents);
    Tables(SpecRows(files, contents), perf, files, AnomalyTable(perf))
  }

  /** One spec row per readable file, one summary row per run, one digit row
      per CPU sample, and each collapsed group flagged once. */
  lemma TablesOfFiles(files: seq<FilePath>, contents: map<FilePath, Snapshot>)
    ensures Loaded(BuildTables(files, contents), files, contents)
  {
    PerfRowsCounts(files, contents);
  }

  /** Files that are found but none of which can be read do not stop the
      report: it goes on with empty tables. */
  lemma LoadAllNothingReadable(argv: seq<string>, fs: map<string, seq<string>>, contents: map<FilePath, Snapshot>)
    requires |DiscoverJsonFiles(FindInputDirs(argv), fs)| > 0
    requires forall f :: f in DiscoverJsonFiles(FindInputDirs(argv), fs) ==> f !in contents
    ensures LoadAll(argv, fs, contents).Ok?
    ensures LoadAll(argv, fs, contents).value.specs == []
    ensures LoadAll(argv, fs, contents).value.perf == []
    ensures LoadAll(argv, fs, contents).value.anomalies == []
  {
    var files := DiscoverJsonFiles(FindInputDirs(argv), fs);
    NothingReadable(files, contents);
  }

  lemma {:induction false} NothingReadable(files: seq<FilePath>, contents: map<FilePath, Snapshot>)
    requires forall f :: f in files ==> f !in contents
    ensures SpecRows(files, contents) == [] && PerfRows(files, contents) == []
  {
    if |files| > 0 {
      assert files[0] !in contents;
      NothingReadable(files[1..], contents);
    }
  }
}

=== FILE: rows.dfy ===
/** The rows `load_all` builds from one snapshot: the machine's spec row,
    and per model run one summary row and one row per CPU sample. NaN is
    `None` throughout. */
module Rows {
  import opened Wrappers
  import opened Json
  import opened Seqs
  import opened Snapshots
  import SizeBucket
  import Percentile

  /** Bytes in a gibibyte, `1024**3`. */
  const GiB: real := 1073741824.0

  datatype SpecRow = SpecRow(
    machineId: string,
    machineName: string,
    architecture: string,
    os: string,
    osVersion: string,
    cpuModel: string,
    gpuModel: string,
    ramGb: real,
    startedAt: string,
    modelsTested: nat)

  /** The `specs_rows` entry of a snapshot read from a file with stem `stem`. */
  function BuildSpecRow(stem: string, t: Snapshot): (row: SpecRow)
    ensures row.machineId == t.machineId.GetOr(stem)
    ensures row.machineName == MachineName(t.systemInfo)
    ensures row.ramGb * GiB == t.systemInfo.ramBytes.GetOr(0) as real
    ensures row.modelsTested == |t.perModel|
  {
    var si := t.systemInfo;
    SpecRow(
      t.machineId.GetOr(stem),
      MachineName(si),
      si.architecture.GetOr(""),
      si.os.GetOr(""),
      si.osVersion.GetOr(""),
      si.cpuModel.GetOr(""),
      si.gpuModel.GetOr(""),
      si.ramBytes.GetOr(0) as real / GiB,
      t.startedAt.GetOr(""),
      |t.perModel|)
  }

  // ------------------------------------------------------------ averages

  function Sum(s: seq<real>): real {
    if |s| == 0 then 0.0 else s[0] + Sum(s[1..])
  }

  /** A sum of values all above `m` is above `|s|` times `m`. */
  lemma {:induction false} SumAbove(s: seq<real>, m: real)
    requires |s| > 0
    requires forall k :: 0 <= k < |s| ==> s[k] > m
    ensures Sum(s) > (|s| as real) * m
  {
    if |s| > 1 {
      SumAbove(s[1..], m);
      assert (|s| as real) * m == m + ((|s| - 1) as real) * m;
    }
  }

  /** A sum of values all below `m` is below `|s|` times `m`. */
  lemma {:induction false} SumBelow(s: seq<real>, m: real)
    requires |s| > 0
    requires forall k :: 0 <= k < |s| ==> s[k] < m
    ensures Sum(s) < (|s| as real) * m
  {
    if |s| > 1 {
      SumBelow(s[1..], m);
      assert (|s| as real) * m == m + ((|s| - 1) as real) * m;
    }
  }

  /** The arithmetic mean of a non-empty list: times the count it is the sum. */
  function Mean(vals: seq<real>): (m: real)
    requires |vals| > 0
  {
    Sum(vals) / (|vals| as real)
  }

  lemma MeanTimesCount(vals: seq<real>)
    requires |vals| > 0
    ensures (|vals| as real) * Mean(vals) == Sum(vals)
  {
  }

  /** `np.nanmean(a) if a else nan`: the mean of the present values, None
      when there is none. It lies between the smallest and the largest of
      them. */
  function MeanOpt(a: seq<Option<real>>): (r: Option<real>)
    ensures r.None? <==> forall i :: 0 <= i < |a| ==> a[i].None?
    ensures r.Some? ==> |Percentile.NumericValues(a)| > 0 && r.value == Mean(Percentile.NumericValues(a))
    ensures r.Some? ==> exists i :: 0 <= i < |a| && a[i].Some? && a[i].value <= r.value
    ensures r.Some? ==> exists i :: 0 <= i < |a| && a[i].Some? && r.value <= a[i].value
  {
    var vals := Percentile.NumericValues(a);
    Percentile.NumericValuesMembers(a);
    if |vals| == 0 then None
    else
      MeanWitnesses(a);
      Some(Mean(vals))
  }

  /** Some value is at most the mean. */
  lemma MeanAboveSome(vals: seq<real>)
    requires |vals| > 0
    ensures exists k :: 0 <= k < |vals| && vals[k] <= Mean(vals)
  {
    var m := Mean(vals);
    if forall k :: 0 <= k < |vals| ==> vals[k] > m {
      MeanTimesCount(vals);
      SumAbove(vals, m);
    }
  }

  /** Some value is at least the mean. */
  lemma MeanBelowSome(vals: seq<real>)
    requires |vals| > 0
    ensures exists k :: 0 <= k < |vals| && Mean(vals) <= vals[k]
  {
    var m := Mean(vals);
    if forall k :: 0 <= k < |vals| ==> vals[k] < m {
      MeanTimesCount(vals);
      SumBelow(vals, m);
    }
  }

  lemma MeanWitnesses(a: seq<Option<real>>)
    requires |Percentile.NumericValues(a)| > 0
    ensures exists i :: 0 <= i < |a| && a[i].Some? && a[i].value <= Mean(Percentile.NumericValues(a))
    ensures exists i :: 0 <= i < |a| && a[i].Some? && Mean(Percentile.NumericValues(a)) <= a[i].value
  {
    var vals := Percentile.NumericValues(a);
    var m := Mean(vals);
    MeanAboveSome(vals);
    MeanBelowSome(vals);
    var lo :| 0 <= lo < |vals| && vals[lo] <= m;
    var hi :| 0 <= hi < |vals| && m <= vals[hi];
    Percentile.NumericValuesMembers(a);
    assert Some(vals[lo]) in a;
    assert Some(vals[hi]) in a;
  }

  /** The speedup `cpu_ms / gpu_ms`: defined only when both averages exist
      and the GPU one is non-zero; then it times the GPU average is the CPU
      average. */
  function Speedup(cpuMs: Option<real>, gpuMs: Option<real>): (r: Option<real>)
    ensures r.Some? <==> cpuMs.Some? && gpuMs.Some? && gpuMs.value != 0.0
    ensures r.Some? ==> r.value * gpuMs.value == cpuMs.value
  {
    if cpuMs.Some? && gpuMs.Some? && gpuMs.value != 0.0 then Some(cpuMs.value / gpuMs.value)
    else None
  }

  /** Samples per second, `1000.0 / ms`: defined only for a present, non-zero
      average; then it times the average is one second. */
  function Throughput(ms: Option<real>): (r: Option<real>)
    ensures r.Some? <==> ms.Some? && ms.value != 0.0
    ensures r.Some? ==> r.value * ms.value == 1000.0
  {
    if ms.Some? && ms.value != 0.0 then Some(1000.0 / ms.value) else None
  }

  // --------------------------------------------------------- summary rows

  /** `[_coerce_float(r.get('elapsed_ms')) for r in recs]`. */
  function Latencies(recs: seq<Record>): (r: seq<Option<real>>)
    ensures |r| == |recs|
    ensures forall i :: 0 <= i < |recs| ==> r[i] == CoerceFloat(Field(recs[i], "elapsed_ms"))
  {
    seq(|recs|, i requires 0 <= i < |recs| => CoerceFloat(Field(recs[i], "elapsed_ms")))
  }

  datatype SummaryRow = SummaryRow(
    machineId: string,
    machineName: string,
    modelFile: string,
    modelSize: string,
    webgpuInitOk: bool,
    webgpuInitTimeMs: Option<real>,
    cpuTop1Accuracy: Option<real>,
    gpuTop1Accuracy: Option<real>,
    cpuVsGpuAgreeCount: Option<real>,
    avgDriftMae: Option<real>,
    maxDriftMaxAbs: Option<real>,
    cpuElapsedAvgMs: Option<real>,
    gpuElapsedAvgMs: Option<real>,
    speedupGpuOverCpu: Option<real>,
    cpuSamplesPerSec: Option<real>,
    gpuSamplesPerSec: Option<real>,
    latP50Cpu: Option<real>,
    latP90Cpu: Option<real>,
    latP99Cpu: Option<real>,
    latP50Gpu: Option<real>,
    latP90Gpu: Option<real>,
    latP99Gpu: Option<real>)

  /** A summary row carries no GPU figure unless WebGPU came up. */
  predicate NoGpuFigures(row: SummaryRow) {
    && row.gpuElapsedAvgMs.None? && row.speedupGpuOverCpu.None? && row.gpuSamplesPerSec.None?
    && row.latP50Gpu.None? && row.latP90Gpu.None? && row.latP99Gpu.None?
  }

  /** The latency percentiles of one device are all present or all absent,
      and P50 <= P90 <= P99. */
  predicate OrderedPercentiles(p50: Option<real>, p90: Option<real>, p99: Option<real>) {
    && p50.Some? == p90.Some? && p90.Some? == p99.Some?
    && (p50.Some? ==> p50.value <= p90.value <= p99.value)
  }

  /** The percentiles of one latency column. */
  lemma PercentilesOrdered(lat: seq<Option<real>>)
    ensures OrderedPercentiles(Percentile.Pct(lat, 50.0), Percentile.Pct(lat, 90.0), Percentile.Pct(lat, 99.0))
  {
    Percentile.PctMonotone(lat, 50.0, 90.0);
    Percentile.PctMonotone(lat, 90.0, 99.0);
  }

  /** P50, P90 and P99 of one latency column, in order. */
  function Percentiles(lat: seq<Option<real>>): (p: (Option<real>, Option<real>, Option<real>))
    ensures p.0 == Percentile.Pct(lat, 50.0) && p.1 == Percentile.Pct(lat, 90.0) && p.2 == Percentile.Pct(lat, 99.0)
    ensures OrderedPercentiles(p.0, p.1, p.2)
    ensures p.0.Some? <==> MeanOpt(lat).Some?
  {
    PercentilesOrdered(lat);
    (Percentile.Pct(lat, 50.0), Percentile.Pct(lat, 90.0), Percentile.Pct(lat, 99.0))
  }

  /** The per-model summary row of one model run. */
  function BuildSummaryRow(machineId: string, machineName: string, run: ModelRun): (row: SummaryRow)
    ensures row.machineId == machineId && row.machineName == machineName && row.modelFile == run.modelFile
    ensures row.modelSize == SizeBucket.ModelSizeBucket(run.modelFile)
    ensures row.webgpuInitOk == Truthy(run.webgpuInitOk)
    ensures row.webgpuInitTimeMs == CoerceFloat(run.webgpuInitTimeMs)
    ensures row.cpuTop1Accuracy == CoerceFloat(Field(run.adhd10, "top1_accuracy_cpu"))
    ensures row.gpuTop1Accuracy == CoerceFloat(Field(run.adhd10, "top1_accuracy_gpu"))
    ensures row.cpuVsGpuAgreeCount == CoerceFloat(Field(run.adhd10, "cpu_vs_gpu_agree_count"))
    ensures row.avgDriftMae == CoerceFloat(Field(run.adhd10, "avg_drift_mae"))
    ensures row.maxDriftMaxAbs == CoerceFloat(Field(run.adhd10, "max_drift_max_abs"))
    ensures row.cpuElapsedAvgMs == MeanOpt(Latencies(run.cpu))
    ensures row.webgpuInitOk ==> row.gpuElapsedAvgMs == MeanOpt(Latencies(run.gpu))
    ensures !row.webgpuInitOk ==> NoGpuFigures(row)
    ensures row.speedupGpuOverCpu == Speedup(row.cpuElapsedAvgMs, row.gpuElapsedAvgMs)
    ensures row.cpuSamplesPerSec == Throughput(row.cpuElapsedAvgMs)
    ensures row.gpuSamplesPerSec == Throughput(row.gpuElapsedAvgMs)
    ensures row.latP50Cpu == Percentile.Pct(Latencies(run.cpu), 50.0)
    ensures row.latP90Cpu == Percentile.Pct(Latencies(run.cpu), 90.0)
    ensures row.latP99Cpu == Percentile.Pct(Latencies(run.cpu), 99.0)
    ensures row.webgpuInitOk ==> row.latP50Gpu == Percentile.Pct(Latencies(run.gpu), 50.0)
    ensures row.webgpuInitOk ==> row.latP90Gpu == Percentile.Pct(Latencies(run.gpu), 90.0)
    ensures row.webgpuInitOk ==> row.latP99Gpu == Percentile.Pct(Latencies(run.gpu), 99.0)
    ensures row.speedupGpuOverCpu.Some? <==>
      row.cpuElapsedAvgMs.Some? && row.gpuElapsedAvgMs.Some? && row.gpuElapsedAvgMs.value != 0.0
    ensures row.cpuSamplesPerSec.Some? <==> row.cpuElapsedAvgMs.Some? && row.cpuElapsedAvgMs.value != 0.0
    ensures row.gpuSamplesPerSec.Some? <==> row.gpuElapsedAvgMs.Some? && row.gpuElapsedAvgMs.value != 0.0
    ensures OrderedPercentiles(row.latP50Cpu, row.latP90Cpu, row.latP99Cpu)
    ensures row.latP50Cpu.Some? <==> row.cpuElapsedAvgMs.Some?
    ensures OrderedPercentiles(row.latP50Gpu, row.latP90Gpu, row.latP99Gpu)
    ensures row.latP50Gpu.Some? <==> row.gpuElapsedAvgMs.Some?
  {
    var ok := Truthy(run.webgpuInitOk);
    var cpuLat := Latencies(run.cpu);
    var gpuLat := if ok then Latencies(run.gpu) else [];
    var cpuMs := MeanOpt(cpuLat);
    var gpuMs := MeanOpt(gpuLat);
    var cp := Percentiles(cpuLat);
    var gp := if ok then Percentiles(gpuLat) else (None, None, None);
    SummaryRow(
      machineId, machineName, run.modelFile, SizeBucket.ModelSizeBucket(run.modelFile),
      ok, CoerceFloat(run.webgpuInitTimeMs),
      CoerceFloat(Field(run.adhd10, "top1_accuracy_cpu")),
      CoerceFloat(Field(run.adhd10, "top1_accuracy_gpu")),
      CoerceFloat(Field(run.adhd10, "cpu_vs_gpu_agree_count")),
      CoerceFloat(Field(run.adhd10, "avg_drift_mae")),
      CoerceFloat(Field(run.adhd10, "max_drift_max_abs")),
      cpuMs, gpuMs, Speedup(cpuMs, gpuMs), Throughput(cpuMs), Throughput(gpuMs),
      cp.0, cp.1, cp.2, gp.0, gp.1, gp.2)
  }

  // ----------------------------------------------------------- digit rows

  datatype DigitRow = DigitRow(
    machineId: string,
    machineName: string,
    modelFile: string,
    modelSize: string,
    digit: Json,
    idx: Json,
    cpuPred: Json,
    gpuPred: Json,
    cpuTop1Score: Option<real>,
    gpuTop1Score: Option<real>,
    cpuElapsedMs: Option<real>,
    gpuElapsedMs: Option<real>,
    driftMae: Option<real>,
    driftMaxAbs: Option<real>)

  /** The GPU record that sits beside CPU sample `i`: `gpu[i]` when WebGPU came
      up and the GPU list is long enough, the empty record otherwise. */
  function GpuRecordAt(run: ModelRun, i: nat): (r: Record)
    ensures Truthy(run.webgpuInitOk) && i < |run.gpu| ==> r == run.gpu[i]
    ensures !(Truthy(run.webgpuInitOk) && i < |run.gpu|) ==> r == map[]
  {
    if Truthy(run.webgpuInitOk) && i < |run.gpu| then run.gpu[i] else map[]
  }

  /** The drift record of sample `i`, or the empty record past the list's end. */
  function DriftRecordAt(run: ModelRun, i: nat): (r: Record)
    ensures i < |run.drift| ==> r == run.drift[i]
    ensures i >= |run.drift| ==> r == map[]
  {
    if i < |run.drift| then run.drift[i] else map[]
  }

  /** The row of CPU sample `i`: CPU fields from `cpu[i]`, GPU fields only
      when WebGPU came up and `i < |gpu|`, drift fields only when
      `i < |drift|`; every missing field is absent. */
  function BuildDigitRow(machineId: string, machineName: string, run: ModelRun, i: nat): (row: DigitRow)
    requires i < |run.cpu|
    ensures row.machineId == machineId && row.machineName == machineName && row.modelFile == run.modelFile
    ensures row.modelSize == SizeBucket.ModelSizeBucket(run.modelFile)
    ensures row.digit == Field(run.cpu[i], "digit") && row.idx == Field(run.cpu[i], "idx")
    ensures row.cpuPred == Field(run.cpu[i], "pred")
    ensures row.cpuTop1Score == CoerceFloat(Field(run.cpu[i], "top1_score"))
    ensures row.cpuElapsedMs == CoerceFloat(Field(run.cpu[i], "elapsed_ms"))
    ensures Truthy(run.webgpuInitOk) && i < |run.gpu| ==>
      && row.gpuPred == Field(run.gpu[i], "pred")
      && row.gpuTop1Score == CoerceFloat(Field(run.gpu[i], "top1_score"))
      && row.gpuElapsedMs == CoerceFloat(Field(run.gpu[i], "elapsed_ms"))
    ensures !(Truthy(run.webgpuInitOk) && i < |run.gpu|) ==>
      row.gpuPred == JNull && row.gpuTop1Score.None? && row.gpuElapsedMs.None?
    ensures i < |run.drift| ==>
      && row.driftMae == CoerceFloat(Field(run.drift[i], "mae"))
      && row.driftMaxAbs == CoerceFloat(Field(run.drift[i], "max_abs"))
    ensures i >= |run.drift| ==> row.driftMae.None? && row.driftMaxAbs.None?
  {
    var c := run.cpu[i];
    var g := GpuRecordAt(run, i);
    var d := DriftRecordAt(run, i);
    DigitRow(
      machineId, machineName, run.modelFile, SizeBucket.ModelSizeBucket(run.modelFile),
      Field(c, "digit"), Field(c, "idx"), Field(c, "pred"), Field(g, "pred"),
      CoerceFloat(Field(c, "top1_score")), CoerceFloat(Field(g, "top1_score")),
      CoerceFloat(Field(c, "elapsed_ms")), CoerceFloat(Field(g, "elapsed_ms")),
      CoerceFloat(Field(d, "mae")), CoerceFloat(Field(d, "max_abs")))
  }

  // ---------------------------------------------------------- perf rows

  /** An entry of `perf_rows`, told apart by `is_digit`. */
  datatype PerfRow = Summary(summary: SummaryRow) | Digit(digitRow: DigitRow)

  predicate IsSummary(r: PerfRow) {
    r.Summary?
  }

  predicate IsDigit(r: PerfRow) {
    r.Digit?
  }

  /** The rows of one model run: its summary row, then one digit row per CPU
      sample, however long the GPU and drift lists are. */
  function RunRows(machineId: string, machineName: string, run: ModelRun): (r: seq<PerfRow>)
    ensures |r| == 1 + |run.cpu|
    ensures r[0] == Summary(BuildSummaryRow(machineId, machineName, run))
    ensures forall i :: 0 <= i < |run.cpu| ==> r[i + 1] == Digit(BuildDigitRow(machineId, machineName, run, i))
  {
    [Summary(BuildSummaryRow(machineId, machineName, run))]
      + seq(|run.cpu|, i requires 0 <= i < |run.cpu| => Digit(BuildDigitRow(machineId, machineName, run, i)))
  }

  /** One summary row and `|cpu|` digit rows per model run. */
  lemma RunRowsCounts(machineId: string, machineName: string, run: ModelRun)
    ensures CountWhere(RunRows(machineId, machineName, run), IsSummary) == 1
    ensures CountWhere(RunRows(machineId, machineName, run), IsDigit) == |run.cpu|
  {
    var r := RunRows(machineId, machineName, run);
    assert r == [r[0]] + r[1..];
    CountWhereAppend([r[0]], r[1..], IsSummary);
    CountWhereAppend([r[0]], r[1..], IsDigit);
    assert forall k :: 0 <= k < |r[1..]| ==> r[1..][k] == r[k + 1];
    CountWhereNone(r[1..], IsSummary);
    CountWhereAll(r[1..], IsDigit);
  }

  /** The number of CPU samples over a list of model runs. */
  function TotalSamples(runs: seq<ModelRun>): nat {
    if |runs| == 0 then 0 else |runs[0].cpu| + TotalSamples(runs[1..])
  }

  /** The rows of each model run, in the order of the runs. */
  function RowsPerRun(machineId: string, machineName: string, runs: seq<ModelRun>): (r: seq<seq<PerfRow>>)
    ensures |r| == |runs|
    ensures forall k :: 0 <= k < |runs| ==> r[k] == RunRows(machineId, machineName, runs[k])
  {
    seq(|runs|, k requires 0 <= k < |runs| => RunRows(machineId, machineName, runs[k]))
  }

  /** The `perf_rows` a snapshot contributes: the rows of its model runs,
      one run after another. */
  function RunsRows(machineId: string, machineName: string, runs: seq<ModelRun>): (r: seq<PerfRow>)
    ensures r == Concat(RowsPerRun(machineId, machineName, runs))
    ensures |r| == |runs| + TotalSamples(runs)
  {
    if |runs| == 0 then []
    else
      var all := RowsPerRun(machineId, machineName, runs);
      assert all[1..] == RowsPerRun(machineId, machineName, runs[1..]);
      RunRows(machineId, machineName, runs[0]) + RunsRows(machineId, machineName, runs[1..])
  }

  /** Exactly one summary row per model run, and one digit row per CPU sample. */
  lemma {:induction false} RunsRowsCounts(machineId: string, machineName: string, runs: seq<ModelRun>)
    ensures CountWhere(RunsRows(machineId, machineName, runs), IsSummary) == |runs|
    ensures CountWhere(RunsRows(machineId, machineName, runs), IsDigit) == TotalSamples(runs)
  {
    if |runs| > 0 {
      var a := RunRows(machineId, machineName, runs[0]);
      var b := RunsRows(machineId, machineName, runs[1..]);
      RunRowsCounts(machineId, machineName, runs[0]);
      RunsRowsCounts(machineId, machineName, runs[1..]);
      CountWhereAppend(a, b, IsSummary);
      CountWhereAppend(a, b, IsDigit);
    }
  }
}

=== FILE: seqs.dfy ===
/** Generic sequence vocabulary shared by the model: counting, filtering,
    order-preserving subsequences, insertion sort and first-occurrence
    deduplication. */
module Seqs {
  import opened Wrappers

  /** Number of elements of `s` that satisfy `p`. */
  function CountWhere<T>(s: seq<T>, p: T -> bool): (n: nat)
    ensures n <= |s|
  {
    if |s| == 0 then 0 else (if p(s[0]) then 1 else 0) + CountWhere(s[1..], p)
  }

  lemma {:induction false} CountWhereAppend<T>(a: seq<T>, b: seq<T>, p: T -> bool)
    ensures CountWhere(a + b, p) == CountWhere(a, p) + CountWhere(b, p)
    decreases |a|
  {
    if |a| > 0 {
      assert (a + b)[1..] == a[1..] + b;
      CountWhereAppend(a[1..], b, p);
    } else {
      assert a + b == b;
    }
  }

  /** Every element satisfies `p` exactly when the count is the length. */
  lemma {:induction false} CountWhereAll<T>(s: seq<T>, p: T -> bool)
    ensures CountWhere(s, p) == |s| <==> forall i :: 0 <= i < |s| ==> p(s[i])
  {
    if |s| > 0 {
      CountWhereAll(s[1..], p);
      if CountWhere(s, p) == |s| {
        assert p(s[0]);
        assert forall i :: 1 <= i < |s| ==> s[i] == s[1..][i - 1];
      } else if forall i :: 0 <= i < |s| ==> p(s[i]) {
        assert forall i :: 0 <= i < |s| - 1 ==> s[1..][i] == s[i + 1];
      }
    }
  }

  /** No element satisfies `p` exactly when the count is zero. */
  lemma {:induction false} CountWhereNone<T>(s: seq<T>, p: T -> bool)
    ensures CountWhere(s, p) == 0 <==> forall i :: 0 <= i < |s| ==> !p(s[i])
  {
    if |s| > 0 {
      CountWhereNone(s[1..], p);
      if CountWhere(s, p) == 0 {
        assert forall i :: 1 <= i < |s| ==> s[i] == s[1..][i - 1];
      } else if forall i :: 0 <= i < |s| ==> !p(s[i]) {
        assert forall i :: 0 <= i < |s| - 1 ==> s[1..][i] == s[i + 1];
      }
    }
  }

  /** `a` can be obtained from `b` by deleting elements: `a` is an
      order-preserving subsequence of `b`. */
  predicate IsSubsequence<T(==)>(a: seq<T>, b: seq<T>)
    decreases |b|
  {
    if |a| == 0 then true
    else if |b| == 0 then false
    else if a[0] == b[0] then IsSubsequence(a[1..], b[1..])
    else IsSubsequence(a, b[1..])
  }

  /** The elements of `s` that satisfy `p`, in their original order. */
  function Filter<T(==)>(s: seq<T>, p: T -> bool): (r: seq<T>)
    ensures |r| == CountWhere(s, p)
    ensures forall i :: 0 <= i < |r| ==> p(r[i])
    ensures forall i :: 0 <= i < |r| ==> r[i] in s
    ensures forall i :: 0 <= i < |s| && p(s[i]) ==> s[i] in r
    ensures IsSubsequence(r, s)
  {
    if |s| == 0 then []
    else if p(s[0]) then [s[0]] + Filter(s[1..], p)
    else Filter(s[1..], p)
  }

  /** Filtering twice with the same predicate is filtering once. */
  lemma {:induction false} FilterIdempotent<T>(s: seq<T>, p: T -> bool)
    ensures Filter(Filter(s, p), p) == Filter(s, p)
  {
    if |s| > 0 {
      FilterIdempotent(s[1..], p);
      if p(s[0]) {
        var t := Filter(s[1..], p);
        assert ([s[0]] + t)[0] == s[0];
        assert ([s[0]] + t)[1..] == t;
      }
    }
  }

  /** Filtering by a predicate every element satisfies keeps the sequence. */
  lemma {:induction false} FilterKeepsAll<T>(s: seq<T>, p: T -> bool)
    requires forall i :: 0 <= i < |s| ==> p(s[i])
    ensures Filter(s, p) == s
  {
    if |s| > 0 {
      assert p(s[0]);
      FilterKeepsAll(s[1..], p);
      assert [s[0]] + s[1..] == s;
    }
  }

  /** `f` applied to every element of `s`, in order. */
  function MapSeq<T, U>(s: seq<T>, f: T -> U): (r: seq<U>)
    ensures |r| == |s|
    ensures forall k :: 0 <= k < |s| ==> r[k] == f(s[k])
  {
    if |s| == 0 then [] else [f(s[0])] + MapSeq(s[1..], f)
  }

  /** The sequences of `ss` one after another. */
  function Concat<T>(ss: seq<seq<T>>): seq<T> {
    if |ss| == 0 then [] else ss[0] + Concat(ss[1..])
  }

  /** The position of the first element of `s` that satisfies `p`, if any. */
  function FirstWhere<T>(s: seq<T>, p: T -> bool): (r: Option<nat>)
    ensures r.Some? ==> r.value < |s| && p(s[r.value])
    ensures forall i :: 0 <= i < |s| && (r.None? || i < r.value) ==> !p(s[i])
  {
    if |s| == 0 then None
    else if p(s[0]) then Some(0)
    else match FirstWhere(s[1..], p)
      case None => None
      case Some(k) =>
        assert forall i :: 1 <= i < |s| ==> s[i] == s[1..][i - 1];
        Some(k + 1)
  }

  predicate Distinct<T(==)>(s: seq<T>) {
    forall i, j :: 0 <= i < j < |s| ==> s[i] != s[j]
  }

  // ---------------------------------------------------------------- sorting

  /** `le` relates any two values one way or the other. */
  ghost predicate Total<T(!new)>(le: (T, T) -> bool) {
    forall a, b :: le(a, b) || le(b, a)
  }

  /** Neighbouring elements are in `le` order. */
  predicate SortedBy<T>(s: seq<T>, le: (T, T) -> bool) {
    forall i :: 0 < i < |s| ==> le(s[i - 1], s[i])
  }

  /** Inserts `x` in front of the first element it is `le`-below. */
  function InsertBy<T(==)>(x: T, s: seq<T>, le: (T, T) -> bool): (r: seq<T>)
    ensures |r| == |s| + 1
    ensures multiset(r) == multiset(s) + multiset{x}
  {
    if |s| == 0 then [x]
    else if le(x, s[0]) then [x] + s
    else
      assert s == [s[0]] + s[1..];
      [s[0]] + InsertBy(x, s[1..], le)
  }

  /** Insertion sort: a permutation of `s` (stable for equal keys). */
  function SortBy<T(==)>(s: seq<T>, le: (T, T) -> bool): (r: seq<T>)
    ensures |r| == |s|
    ensures multiset(r) == multiset(s)
  {
    if |s| == 0 then []
    else
      assert s == [s[0]] + s[1..];
      InsertBy(s[0], SortBy(s[1..], le), le)
  }

  /** Sorting keeps exactly the elements it was given. */
  lemma SortByMembers<T>(s: seq<T>, le: (T, T) -> bool)
    ensures forall x :: x in SortBy(s, le) <==> x in s
  {
    var r := SortBy(s, le);
    forall x ensures x in r <==> x in s {
      assert x in r <==> x in multiset(r);
      assert x in s <==> x in multiset(s);
    }
  }

  lemma {:induction false} InsertBySorted<T>(x: T, s: seq<T>, le: (T, T) -> bool)
    requires SortedBy(s, le)
    requires forall i :: 0 <= i < |s| ==> le(x, s[i]) || le(s[i], x)
    ensures SortedBy(InsertBy(x, s, le), le)
    ensures |s| > 0 ==> InsertBy(x, s, le)[0] == x || InsertBy(x, s, le)[0] == s[0]
  {
    if |s| > 0 && !le(x, s[0]) {
      InsertBySorted(x, s[1..], le);
    }
  }

  lemma {:induction false} SortBySorted<T(!new)>(s: seq<T>, le: (T, T) -> bool)
    requires Total(le)
    ensures SortedBy(SortBy(s, le), le)
  {
    if |s| > 0 {
      SortBySorted(s[1..], le);
      InsertBySorted(s[0], SortBy(s[1..], le), le);
    }
  }

  lemma {:induction false} InsertByCountWhere<T>(x: T, s: seq<T>, le: (T, T) -> bool, p: T -> bool)
    ensures CountWhere(InsertBy(x, s, le), p) == CountWhere(s, p) + (if p(x) then 1 else 0)
  {
    if |s| > 0 {
      if le(x, s[0]) {
        assert ([x] + s)[1..] == s;
      } else {
        InsertByCountWhere(x, s[1..], le, p);
        var t := InsertBy(x, s[1..], le);
        assert ([s[0]] + t)[1..] == t;
      }
    }
  }

  /** Sorting keeps the number of elements with any property. */
  lemma {:induction false} SortByCountWhere<T>(s: seq<T>, le: (T, T) -> bool, p: T -> bool)
    ensures CountWhere(SortBy(s, le), p) == CountWhere(s, p)
  {
    if |s| > 0 {
      SortByCountWhere(s[1..], le, p);
      InsertByCountWhere(s[0], SortBy(s[1..], le), le, p);
    }
  }

  lemma {:induction false} InsertByDistinct<T>(x: T, s: seq<T>, le: (T, T) -> bool)
    requires Distinct(s) && x !in s
    ensures Distinct(InsertBy(x, s, le))
  {
    if |s| > 0 && !le(x, s[0]) {
      InsertByDistinct(x, s[1..], le);
      var t := InsertBy(x, s[1..], le);
      assert s[0] !in multiset(t) by {
        assert multiset(t) == multiset(s[1..]) + multiset{x};
        assert s[0] !in s[1..];
      }
      assert s[0] !in t;
    }
  }

  /** Sorting a sequence of distinct values keeps them distinct. */
  lemma {:induction false} SortByDistinct<T>(s: seq<T>, le: (T, T) -> bool)
    requires Distinct(s)
    ensures Distinct(SortBy(s, le))
  {
    if |s| > 0 {
      SortByDistinct(s[1..], le);
      var t := SortBy(s[1..], le);
      assert s[0] !in s[1..];
      assert s[0] !in multiset(t);
      InsertByDistinct(s[0], t, le);
    }
  }

  // ----------------------------------------------------------- deduplication

  /** `s[i]` is the first element of `s` with its key. */
  predicate FirstWithKey<T, K(==)>(s: seq<T>, i: int, key: T -> K)
    requires 0 <= i < |s|
  {
    forall j :: 0 <= j < i ==> key(s[j]) != key(s[i])
  }

  /** Keeps the first element of each key not already in `seen`, in order. */
  function DedupFrom<T(==), K(==)>(s: seq<T>, key: T -> K, seen: set<K>): (r: seq<T>)
    ensures |r| <= |s|
    ensures forall k :: 0 <= k < |r| ==> key(r[k]) !in seen
    ensures forall k, l :: 0 <= k < l < |r| ==> key(r[k]) != key(r[l])
  {
    if |s| == 0 then []
    else if key(s[0]) in seen then DedupFrom(s[1..], key, seen)
    else [s[0]] + DedupFrom(s[1..], key, seen + {key(s[0])})
  }

  /** Some element of `r` has key `x`. */
  predicate HasKey<T, K(==)>(r: seq<T>, key: T -> K, x: K) {
    exists k :: 0 <= k < |r| && key(r[k]) == x
  }

  /** Every key of `s` outside `seen` is kept. */
  lemma {:induction false} DedupFromComplete<T, K>(s: seq<T>, key: T -> K, seen: set<K>)
    ensures forall i :: 0 <= i < |s| && key(s[i]) !in seen ==> HasKey(DedupFrom(s, key, seen), key, key(s[i]))
  {
    if |s| > 0 {
      var r := DedupFrom(s, key, seen);
      forall i | 0 <= i < |s| && key(s[i]) !in seen
        ensures HasKey(r, key, key(s[i]))
      {
        if key(s[0]) in seen {
          assert r == DedupFrom(s[1..], key, seen);
          DedupFromComplete(s[1..], key, seen);
          assert s[i] == s[1..][i - 1];
        } else if key(s[i]) == key(s[0]) {
          assert key(r[0]) == key(s[i]);
        } else {
          var r' := DedupFrom(s[1..], key, seen + {key(s[0])});
          DedupFromComplete(s[1..], key, seen + {key(s[0])});
          assert s[i] == s[1..][i - 1];
          assert HasKey(r', key, key(s[1..][i - 1]));
          var k' :| 0 <= k' < |r'| && key(r'[k']) == key(s[1..][i - 1]);
          assert r[k' + 1] == r'[k'];
        }
      }
    }
  }

  /** Every kept element is the first of `s` with its key. */
  lemma {:induction false} DedupFromFirst<T, K>(s: seq<T>, key: T -> K, seen: set<K>)
    ensures forall k :: 0 <= k < |DedupFrom(s, key, seen)| ==>
              exists i :: 0 <= i < |s| && s[i] == DedupFrom(s, key, seen)[k] && FirstWithKey(s, i, key)
  {
    if |s| > 0 {
      var r := DedupFrom(s, key, seen);
      forall k | 0 <= k < |r|
        ensures exists i :: 0 <= i < |s| && s[i] == r[k] && FirstWithKey(s, i, key)
      {
        if key(s[0]) in seen {
          assert r == DedupFrom(s[1..], key, seen);
          DedupFromFirst(s[1..], key, seen);
          var i' :| 0 <= i' < |s| - 1 && s[1..][i'] == r[k] && FirstWithKey(s[1..], i', key);
          assert s[i' + 1] == r[k];
          assert key(r[k]) != key(s[0]);
          assert FirstWithKey(s, i' + 1, key);
        } else if k == 0 {
          assert s[0] == r[0] && FirstWithKey(s, 0, key);
        } else {
          var r' := DedupFrom(s[1..], key, seen + {key(s[0])});
          DedupFromFirst(s[1..], key, seen + {key(s[0])});
          assert r[k] == r'[k - 1];
          var i' :| 0 <= i' < |s| - 1 && s[1..][i'] == r'[k - 1] && FirstWithKey(s[1..], i', key);
          assert s[i' + 1] == r[k];
          assert key(r'[k - 1]) != key(s[0]);
          assert FirstWithKey(s, i' + 1, key);
        }
      }
      assert forall k :: 0 <= k < |DedupFrom(s, key, seen)| ==>
              exists i :: 0 <= i < |s| && s[i] == DedupFrom(s, key, seen)[k] && FirstWithKey(s, i, key);
    } else {
      assert |DedupFrom(s, key, seen)| == 0;
    }
  }

  /** Deduplication only deletes: the order of the kept elements is preserved. */
  lemma {:induction false} DedupFromSubsequence<T, K>(s: seq<T>, key: T -> K, seen: set<K>)
    ensures IsSubsequence(DedupFrom(s, key, seen), s)
  {
    if |s| > 0 {
      var r := DedupFrom(s, key, seen);
      if key(s[0]) in seen {
        DedupFromSubsequence(s[1..], key, seen);
        if |r| > 0 {
          assert key(r[0]) !in seen;
          assert r[0] != s[0];
        }
      } else {
        DedupFromSubsequence(s[1..], key, seen + {key(s[0])});
        assert r[1..] == DedupFrom(s[1..], key, seen + {key(s[0])});
      }
    }
  }

  /** Keeps the first element of each key, in order (Python's seen-set loop). */
  function DedupBy<T(==), K(==)>(s: seq<T>, key: T -> K): (r: seq<T>)
    ensures forall k, l :: 0 <= k < l < |r| ==> key(r[k]) != key(r[l])
    ensures forall i :: 0 <= i < |s| ==> HasKey(r, key, key(s[i]))
    ensures forall k :: 0 <= k < |r| ==>
              exists i :: 0 <= i < |s| && s[i] == r[k] && FirstWithKey(s, i, key)
    ensures IsSubsequence(r, s)
    ensures forall k :: 0 <= k < |r| ==> r[k] in s
  {
    DedupFromComplete(s, key, {});
    DedupFromFirst(s, key, {});
    DedupFromSubsequence(s, key, {});
    FirstsAreMembers(s, DedupFrom(s, key, {}), key);
    DedupFrom(s, key, {})
  }

  /** Elements found at some position of `s` are members of `s`. */
  lemma FirstsAreMembers<T, K>(s: seq<T>, r: seq<T>, key: T -> K)
    requires forall k :: 0 <= k < |r| ==> exists i :: 0 <= i < |s| && s[i] == r[k] && FirstWithKey(s, i, key)
    ensures forall k :: 0 <= k < |r| ==> r[k] in s
  {
    forall k | 0 <= k < |r| ensures r[k] in s {
      var i :| 0 <= i < |s| && s[i] == r[k] && FirstWithKey(s, i, key);
    }
  }
}

=== FILE: size_bucket.dfy ===
/** `_model_size_bucket`: the model size class (S, M, L, XL or UNK) read off a
    model file name by two case-insensitive regular expressions. */
module SizeBucket {
  import opened Wrappers

  /** `c` matches the lower-case ASCII letter `letter` under `re.IGNORECASE`:
      either case, and for `s` also U+017F LATIN SMALL LETTER LONG S, which
      Python's regular expressions fold to `s`. */
  predicate Matches(c: char, letter: char)
    requires 'a' <= letter <= 'z'
  {
    c == letter || c as int == letter as int - 32 || (letter == 's' && c == '\U{017F}')
  }

  /** The characters that can start the fallback match. */
  predicate IsSizeLetter(c: char) {
    Matches(c, 's') || Matches(c, 'm') || Matches(c, 'l')
  }

  predicate IsAsciiDigit(c: char) {
    '0' <= c <= '9'
  }

  /** The match of `(S|M|L|XL)` starting at position `i`, upper-cased. The
      alternatives are tried in order, so `XL` is only reached from an `x`. */
  function TokenAt(name: string, i: nat): Option<string>
    requires i < |name|
  {
    if Matches(name[i], 's') then Some("S")
    else if Matches(name[i], 'm') then Some("M")
    else if Matches(name[i], 'l') then Some("L")
    else if Matches(name[i], 'x') && i + 1 < |name| && Matches(name[i + 1], 'l') then Some("XL")
    else None
  }

  /** `re.search(r'(S|M|L|XL)', name[i:], re.IGNORECASE)`: the leftmost match. */
  function FirstToken(name: string, i: nat): (r: Option<string>)
    requires i <= |name|
    ensures r.None? <==> forall j :: i <= j < |name| ==> TokenAt(name, j).None?
    ensures r.Some? ==> exists j :: i <= j < |name| && TokenAt(name, j) == r
                                    && forall k :: i <= k < j ==> TokenAt(name, k).None?
    decreases |name| - i
  {
    if i == |name| then None
    else if TokenAt(name, i).Some? then TokenAt(name, i)
    else FirstToken(name, i + 1)
  }

  /** The length of the run of ASCII digits at the end of `s`. */
  function TrailingDigits(s: string): (n: nat)
    ensures n <= |s|
    ensures forall k :: |s| - n <= k < |s| ==> IsAsciiDigit(s[k])
    ensures n < |s| ==> !IsAsciiDigit(s[|s| - n - 1])
  {
    if |s| > 0 && IsAsciiDigit(s[|s| - 1]) then TrailingDigits(s[..|s| - 1]) + 1 else 0
  }

  /** `s` ends with `.json`, compared case-insensitively. */
  predicate EndsWithJson(s: string) {
    |s| >= 5 && s[|s| - 5] == '.' && Matches(s[|s| - 4], 'j') && Matches(s[|s| - 3], 's')
    && Matches(s[|s| - 2], 'o') && Matches(s[|s| - 1], 'n')
  }

  /** `re.search(r'_(S|M|L|XL)\d*\.json$', name, re.IGNORECASE)`: the token when
      the name ends, or ends just before a final newline (Python's `$`), with an
      underscore, a size token, any digits and `.json`. */
  function SuffixToken(name: string): Option<string> {
    var body := if |name| > 0 && name[|name| - 1] == '\n' then name[..|name| - 1] else name;
    if !EndsWithJson(body) then None
    else
      var stem := body[..|body| - 5];
      var core := stem[..|stem| - TrailingDigits(stem)];
      var n := |core|;
      if n >= 3 && core[n - 3] == '_' && Matches(core[n - 2], 'x') && Matches(core[n - 1], 'l') then Some("XL")
      else if n >= 2 && core[n - 2] == '_' && Matches(core[n - 1], 's') then Some("S")
      else if n >= 2 && core[n - 2] == '_' && Matches(core[n - 1], 'm') then Some("M")
      else if n >= 2 && core[n - 2] == '_' && Matches(core[n - 1], 'l') then Some("L")
      else None
  }

  /** `_model_size_bucket(name)`. */
  function ModelSizeBucket(name: string): (r: string)
    ensures r in {"S", "M", "L", "XL", "UNK"}
    ensures SuffixToken(name).Some? ==> r == SuffixToken(name).value
    ensures SuffixToken(name).None? ==> r == FirstToken(name, 0).GetOr("UNK")
  {
    match SuffixToken(name)
    case Some(t) => t
    case None => FirstToken(name, 0).GetOr("UNK")
  }

  /** The name contains a size letter (s, m or l, in either case). */
  predicate HasSizeLetter(name: string) {
    exists i :: 0 <= i < |name| && IsSizeLetter(name[i])
  }

  /** A name falls in UNK exactly when it contains no s, m or l at all: any
      suffix token holds one, and an `x` alone never starts a match. */
  lemma UnknownIffNoSizeLetter(name: string)
    ensures ModelSizeBucket(name) == "UNK" <==> !HasSizeLetter(name)
  {
    var sfx := SuffixToken(name);
    if sfx.Some? {
      var body := if |name| > 0 && name[|name| - 1] == '\n' then name[..|name| - 1] else name;
      var stem := body[..|body| - 5];
      var core := stem[..|stem| - TrailingDigits(stem)];
      var n := |core|;
      assert IsSizeLetter(core[n - 1]);
      assert core[n - 1] == name[n - 1];
    } else if HasSizeLetter(name) {
      var i :| 0 <= i < |name| && IsSizeLetter(name[i]);
      assert TokenAt(name, i).Some?;
    } else {
      assert forall j :: 0 <= j < |name| ==> TokenAt(name, j).None? by {
        forall j | 0 <= j < |name| ensures TokenAt(name, j).None? {
          assert !IsSizeLetter(name[j]);
          if j + 1 < |name| {
            assert !IsSizeLetter(name[j + 1]);
          }
        }
      }
    }
  }

  /** `mnist_S1.json`: the suffix `_S1.json` gives S. */
  lemma SuffixExampleS()
    ensures ModelSizeBucket("mnist_S1.json") == "S"
  {
    var name := "mnist_S1.json";
    assert EndsWithJson(name);
    assert name[..|name| - 5] == "mnist_S1";
    assert TrailingDigits("mnist_S1") == 1 by {
      assert "mnist_S1"[..7] == "mnist_S";
      assert TrailingDigits("mnist_S") == 0;
    }
    assert "mnist_S1"[..7] == "mnist_S";
  }

  /** `mnist_XL2.json`: the suffix `_XL2.json` gives XL. */
  lemma SuffixExampleXL()
    ensures ModelSizeBucket("mnist_XL2.json") == "XL"
  {
    var name := "mnist_XL2.json";
    assert EndsWithJson(name);
    assert name[..|name| - 5] == "mnist_XL2";
    assert TrailingDigits("mnist_XL2") == 1 by {
      assert "mnist_XL2"[..8] == "mnist_XL";
      assert TrailingDigits("mnist_XL") == 0;
    }
    assert "mnist_XL2"[..8] == "mnist_XL";
  }

  /** The `.json` extension and the size letter match in any case. */
  lemma SuffixExampleM()
    ensures ModelSizeBucket("mnist_m3.JSON") == "M"
  {
    var name := "mnist_m3.JSON";
    assert EndsWithJson(name);
    assert name[..|name| - 5] == "mnist_m3";
    assert TrailingDigits("mnist_m3") == 1 by {
      assert "mnist_m3"[..7] == "mnist_m";
      assert TrailingDigits("mnist_m") == 0;
    }
    assert "mnist_m3"[..7] == "mnist_m";
  }

  /** Python's `$` also matches just before a final newline. */
  lemma SuffixExampleNewline()
    ensures ModelSizeBucket("dense_L7.json\n") == "L"
  {
    var name := "dense_L7.json\n";
    assert name[..|name| - 1] == "dense_L7.json";
    assert EndsWithJson("dense_L7.json");
    assert "dense_L7.json"[..8] == "dense_L7";
    assert TrailingDigits("dense_L7") == 1 by {
      assert "dense_L7"[..7] == "dense_L";
      assert TrailingDigits("dense_L") == 0;
    }
    assert "dense_L7"[..7] == "dense_L";
  }

  /** Without a size suffix the first size letter anywhere decides, so the
      bare `mnist.json` falls in M, not UNK. */
  lemma FallbackExampleBare()
    ensures ModelSizeBucket("mnist.json") == "M"
  {
    var name := "mnist.json";
    assert EndsWithJson(name);
    assert name[..|name| - 5] == "mnist";
    assert TrailingDigits("mnist") == 0;
    assert SuffixToken(name).None?;
    assert TokenAt(name, 0) == Some("M");
  }

  /** An `x` followed by `l` at the start matches XL. */
  lemma FallbackExampleXL()
    ensures ModelSizeBucket("xl.json") == "XL"
  {
    var name := "xl.json";
    assert EndsWithJson(name);
    assert name[..|name| - 5] == "xl";
    assert TrailingDigits("xl") == 0;
    assert SuffixToken(name).None?;
    assert TokenAt(name, 0) == Some("XL");
  }

  /** A name that is not `.json` still gets a bucket from its letters. */
  lemma FallbackExampleBin()
    ensures ModelSizeBucket("x_S.bin") == "S"
    ensures ModelSizeBucket("net.bin") == "UNK"
  {
    var name := "x_S.bin";
    assert !EndsWithJson(name);
    assert TokenAt(name, 0).None? && TokenAt(name, 1).None?;
    assert TokenAt(name, 2) == Some("S");
    assert FirstToken(name, 2) == Some("S");
    assert FirstToken(name, 0) == Some("S");
    assert !HasSizeLetter("net.bin");
    UnknownIffNoSizeLetter("net.bin");
  }
}

=== FILE: snapshots.dfy ===
/** A telemetry snapshot as the report reads it after `json.load`. The
    structure (which keys hold objects, lists and strings) is given by the
    types; the values the report coerces itself stay JSON values. */
module Snapshots {
  import opened Wrappers
  import opened Json
  import opened Text

  /** A JSON object: one CPU, GPU or drift record, or the `adhd10` summary.
      A `null` drift entry is read through `or {}` and is the empty record. */
  type Record = map<string, Json>

  /** `r.get(key)`: the value, or `null` when the key is absent. */
  function Field(r: Record, key: string): (v: Json)
    ensures v == Get(JObj(r), key).GetOr(JNull)
    ensures key !in r ==> v == JNull
  {
    if key in r then r[key] else JNull
  }

  /** `system_info`; an absent string field is None. */
  datatype SysInfo = SysInfo(
    deviceModel: Option<string>,
    cpuModel: Option<string>,
    architecture: Option<string>,
    os: Option<string>,
    osVersion: Option<string>,
    gpuModel: Option<string>,
    ramBytes: Option<int>)

  /** One entry of `per_model`. An absent `model_file` is the empty name, an
      absent or empty record list is the empty sequence, and an absent
      `adhd10` is the empty record. */
  datatype ModelRun = ModelRun(
    modelFile: string,
    webgpuInitOk: Json,
    webgpuInitTimeMs: Json,
    cpu: seq<Record>,
    gpu: seq<Record>,
    drift: seq<Record>,
    adhd10: Record)

  datatype Snapshot = Snapshot(
    machineId: Option<string>,
    startedAt: Option<string>,
    systemInfo: SysInfo,
    perModel: seq<ModelRun>)

  /** The `machine_name` column: a non-empty `device_model`, or else the CPU
      model up to its first " CPU" (`'unknown'` when there is no CPU model). */
  function MachineName(si: SysInfo): (r: string)
    ensures si.deviceModel.Some? && |si.deviceModel.value| > 0 ==> r == si.deviceModel.value
    ensures !(si.deviceModel.Some? && |si.deviceModel.value| > 0) ==>
      var cpu := si.cpuModel.GetOr("unknown");
      && r <= cpu
      && (forall j :: 0 <= j < |r| ==> !OccursAt(cpu, " CPU", j))
      && (|r| < |cpu| ==> OccursAt(cpu, " CPU", |r|))
  {
    if si.deviceModel.Some? && |si.deviceModel.value| > 0 then si.deviceModel.value
    else BeforeFirst(si.cpuModel.GetOr("unknown"), " CPU")
  }

  /** The text before " CPU" names the machine. */
  lemma MachineNameFromCpu()
    ensures MachineName(SysInfo(None, Some("Intel i7 CPU @ 3GHz"), None, None, None, None, None)) == "Intel i7"
  {
    var cpu := "Intel i7 CPU @ 3GHz";
    forall j | 0 <= j < 8 ensures !OccursAt(cpu, " CPU", j) {
      if j == 5 {
        MismatchAt(cpu, " CPU", j, 1);
      } else {
        MismatchAt(cpu, " CPU", j, 0);
      }
    }
    assert cpu[8..12] == " CPU";
    BeforeFirstAt(cpu, " CPU", 8);
  }

  /** An empty device model does not count; no CPU model reads `unknown`. */
  lemma MachineNameUnknown()
    ensures MachineName(SysInfo(Some(""), None, None, None, None, None, None)) == "unknown"
  {
    forall j | 0 <= j <= 3 ensures !OccursAt("unknown", " CPU", j) {
      assert "unknown"[j..j + 4][0] == "unknown"[j];
    }
  }

  /** A device model takes precedence over the CPU. */
  lemma MachineNameDevice()
    ensures MachineName(SysInfo(Some("Pixel 8"), Some("ARM CPU"), None, None, None, None, None)) == "Pixel 8"
  {
  }
}

=== FILE: sysbench.dfy ===
/** The result filter of the numeric micro-benchmarks: which benchmark
    results, by element type, a user's filter string keeps. */
module SysBench {
  import opened Seqs
  import opened Text

  /** A benchmark result. The filter reads only the element type; the
      measurements, which it passes through untouched, are kept as an
      opaque payload. */
  datatype BenchResult = BenchResult(typeName: string, payload: seq<real>)

  /** The type names "ints" stands for. */
  const IntTypes: set<string> := {"int", "int8", "int16", "int32", "int64", "uint", "uint8", "uint16", "uint32", "uint64"}

  /** The type names "floats" stands for. */
  const FloatTypes: set<string> := {"float32", "float64"}

  /** What a filter selects: everything, or the results whose lower-cased
      type is in a set (an empty set again meaning everything). */
  datatype Selection = All | Keep(types: set<string>)

  /** The filter string as the code compares it: trimmed, then lower-cased. */
  function Normal(filter: string): string {
    ToLower(TrimSpace(filter))
  }

  /** The non-blank trimmed tokens of a comma list. */
  function Tokens(f: string): set<string> {
    var ts := TrimAll(Split(f, ','));
    set t | t in ts && t != ""
  }

  /** Every piece trimmed. */
  function TrimAll(parts: seq<string>): (ts: seq<string>)
    ensures |ts| == |parts|
    ensures forall k :: 0 <= k < |parts| ==> ts[k] == TrimSpace(parts[k])
  {
    seq(|parts|, k requires 0 <= k < |parts| => TrimSpace(parts[k]))
  }

  /** A lower-case word is its own normal form. */
  lemma NormalOfWord(f: string)
    requires forall i :: 0 <= i < |f| ==> 'a' <= f[i] <= 'z'
    ensures Normal(f) == f
  {
    TrimOfWord(f);
    LowerOfWord(f);
  }

  lemma TrimOfWord(f: string)
    requires forall i :: 0 <= i < |f| ==> 'a' <= f[i] <= 'z'
    ensures TrimSpace(f) == f
  {
    assert |f| > 0 ==> !IsSpace(f[0]) && !IsSpace(f[|f| - 1]);
    TrimSpaceOfTrimmed(f);
  }

  lemma LowerOfWord(f: string)
    requires forall i :: 0 <= i < |f| ==> 'a' <= f[i] <= 'z'
    ensures ToLower(f) == f
  {
    assert forall i :: 0 <= i < |f| ==> LowerChar(f[i]) == f[i];
  }

  /** The `keep` set of `applyBenchFilter`, or `All` for its early return. */
  function SelectionOf(filter: string): (s: Selection)
    ensures s.All? <==> Normal(filter) == "" || Normal(filter) == "all"
    ensures Normal(filter) == "ints" ==> s == Keep(IntTypes)
    ensures Normal(filter) == "floats" ==> s == Keep(FloatTypes)
    ensures Normal(filter) !in {"", "all", "ints", "floats"} ==> s == Keep(Tokens(Normal(filter)))
  {
    var f := Normal(filter);
    if f == "" || f == "all" then All
    else if f == "ints" then Keep(IntTypes)
    else if f == "floats" then Keep(FloatTypes)
    else Keep(Tokens(f))
  }

  /** The result passes the selection. */
  function Passes(s: Selection): BenchResult -> bool {
    (r: BenchResult) => s.All? || s.types == {} || ToLower(r.typeName) in s.types
  }

  /** `applyBenchFilter(rs, filter)`: the results the filter selects, in their
      original order; all of them for "", "all", or a list of blank tokens. */
  function ApplyBenchFilter(rs: seq<BenchResult>, filter: string): (out: seq<BenchResult>)
    ensures IsSubsequence(out, rs)
    ensures SelectionOf(filter).All? ==> out == rs
    ensures forall i :: 0 <= i < |out| ==> Passes(SelectionOf(filter))(out[i])
    ensures forall i :: 0 <= i < |rs| && Passes(SelectionOf(filter))(rs[i]) ==> rs[i] in out
    ensures !SelectionOf(filter).All? ==> |out| == CountWhere(rs, Passes(SelectionOf(filter)))
  {
    var s := SelectionOf(filter);
    if s.All? then
      SubsequenceRefl(rs);
      rs
    else Filter(rs, Passes(s))
  }

  lemma {:induction false} SubsequenceRefl<T>(s: seq<T>)
    ensures IsSubsequence(s, s)
  {
    if |s| > 0 {
      SubsequenceRefl(s[1..]);
    }
  }

  /** A non-empty type set keeps exactly the results whose lower-cased type
      is in it. */
  lemma KeepsExactly(rs: seq<BenchResult>, filter: string, types: set<string>, x: BenchResult)
    requires SelectionOf(filter) == Keep(types) && types != {} && x in rs
    ensures x in ApplyBenchFilter(rs, filter) <==> ToLower(x.typeName) in types
  {
    var out := ApplyBenchFilter(rs, filter);
    if x in out {
      var i :| 0 <= i < |out| && out[i] == x;
      assert Passes(Keep(types))(out[i]);
    }
    var j :| 0 <= j < |rs| && rs[j] == x;
    if ToLower(x.typeName) in types {
      assert Passes(Keep(types))(rs[j]);
    }
  }

  /** "floats" keeps exactly the float32 and float64 results. */
  lemma FloatsKeepFloats(rs: seq<BenchResult>, x: BenchResult)
    requires x in rs
    ensures x in ApplyBenchFilter(rs, "floats") <==> ToLower(x.typeName) in FloatTypes
  {
    NormalOfWord("floats");
    assert SelectionOf("floats") == Keep(FloatTypes);
    assert "float32" in FloatTypes;
    KeepsExactly(rs, "floats", FloatTypes, x);
  }

  /** "ints" keeps exactly the ten integer type names. */
  lemma IntsKeepInts(rs: seq<BenchResult>, x: BenchResult)
    requires x in rs
    ensures x in ApplyBenchFilter(rs, "ints") <==> ToLower(x.typeName) in IntTypes
  {
    NormalOfWord("ints");
    assert SelectionOf("ints") == Keep(IntTypes);
    assert "int" in IntTypes;
    KeepsExactly(rs, "ints", IntTypes, x);
  }

  /** A comma list whose tokens are all blank keeps every result. */
  lemma BlankTokensKeepAll(rs: seq<BenchResult>, filter: string)
    requires SelectionOf(filter) == Keep({})
    ensures ApplyBenchFilter(rs, filter) == rs
  {
    FilterKeepsAll(rs, Passes(Keep({})));
  }

  /** Filtering a filtered list again with the same filter changes nothing. */
  lemma ApplyBenchFilterIdempotent(rs: seq<BenchResult>, filter: string)
    ensures ApplyBenchFilter(ApplyBenchFilter(rs, filter), filter) == ApplyBenchFilter(rs, filter)
  {
    var s := SelectionOf(filter);
    if !s.All? {
      FilterIdempotent(rs, Passes(s));
    }
  }
}

=== FILE: sysprobe.dfy ===
/** The text clean-up helpers of the system probe: architecture names, the
    first useful line of a command's output, single-line compaction, and
    the parsing of numbers and `key: value` lines the probes read back. The
    commands and files themselves are not part of this model; their output
    is given as a string. */
module SysProbe {
  import opened Wrappers
  import opened Seqs
  import opened Text
  import opened Decimal

  /** `normalizeArch(goarch)`: Go's "amd64" is reported as "x86_64";
      every other name, "arm64" included, is kept. */
  function NormalizeArch(goarch: string): (r: string)
    ensures goarch == "amd64" ==> r == "x86_64"
    ensures goarch != "amd64" ==> r == goarch
  {
    if goarch == "amd64" then "x86_64"
    else if goarch == "arm64" then "arm64"
    else goarch
  }

  /** Normalising a normalised name changes nothing. */
  lemma NormalizeArchIdempotent(goarch: string)
    ensures NormalizeArch(NormalizeArch(goarch)) == NormalizeArch(goarch)
  {
    assert "x86_64" != "amd64";
  }

  predicate NonBlank(v: string) {
    TrimSpace(v) != ""
  }

  /** `firstNonEmpty(vals...)`: the first value that is not blank, trimmed;
      "" when every value is blank. */
  function FirstNonEmpty(vals: seq<string>): (r: string)
    ensures r == "" <==> forall i :: 0 <= i < |vals| ==> !NonBlank(vals[i])
    ensures r != "" ==> exists i :: 0 <= i < |vals| && r == TrimSpace(vals[i])
                          && forall j :: 0 <= j < i ==> !NonBlank(vals[j])
  {
    match FirstWhere(vals, NonBlank)
    case Some(i) => TrimSpace(vals[i])
    case None => ""
  }

  // ------------------------------------------------------ first line

  /** The lines of `s` with a carriage return counted as a line break. */
  function Lines(s: string): (ls: seq<string>)
    ensures |ls| >= 1
    ensures forall k :: 0 <= k < |ls| ==> '\n' !in ls[k] && '\r' !in ls[k]
    ensures Join(ls, "\n") == ReplaceChar(s, '\r', '\n')
  {
    var t := ReplaceChar(s, '\r', '\n');
    var ls := Split(t, '\n');
    forall k | 0 <= k < |ls| ensures '\r' !in ls[k] {
      JoinHasPart(ls, "\n", k);
    }
    ls
  }

  /** Every character of a part occurs in the joined string. */
  lemma {:induction false} JoinHasPart(ws: seq<string>, sep: string, k: nat)
    requires k < |ws|
    ensures forall c :: c in ws[k] ==> c in Join(ws, sep)
  {
    if k > 0 {
      JoinHasPart(ws[1..], sep, k - 1);
      assert ws[1..][k - 1] == ws[k];
      if |ws| > 1 {
        assert Join(ws, sep) == ws[0] + sep + Join(ws[1..], sep);
      }
    }
  }

  /** A line `firstLineClean` accepts: not blank, and mentioning neither
      "name" nor "manufacturer" in any letter case. */
  predicate Informative(line: string) {
    var t := TrimSpace(line);
    var l := ToLower(t);
    t != "" && !Contains(l, "name") && !Contains(l, "manufacturer")
  }

  /** Line `i` is the first informative one. */
  predicate FirstInformative(ls: seq<string>, i: int) {
    0 <= i < |ls| && Informative(ls[i]) && forall j :: 0 <= j < i ==> !Informative(ls[j])
  }

  predicate NoneInformative(ls: seq<string>) {
    forall i :: 0 <= i < |ls| ==> !Informative(ls[i])
  }

  /** `firstLineClean(s)`: the first informative line, trimmed; when there is
      none, the whole output (carriage returns turned into line breaks)
      trimmed. */
  function FirstLineClean(s: string): (r: string)
    ensures forall c :: c in r ==> c in ReplaceChar(s, '\r', '\n')
    ensures || (exists i :: FirstInformative(Lines(s), i) && r == TrimSpace(Lines(s)[i]))
            || (NoneInformative(Lines(s)) && r == TrimSpace(ReplaceChar(s, '\r', '\n')))
  {
    var ls := Lines(s);
    match FirstWhere(ls, Informative)
    case Some(i) =>
      assert FirstInformative(ls, i);
      TrimIsPart(ls[i]);
      JoinHasPart(ls, "\n", i);
      TrimSpace(ls[i])
    case None =>
      var t := ReplaceChar(s, '\r', '\n');
      TrimIsPart(t);
      TrimSpace(t)
  }

  /** A carriage return is a line break: none survives. */
  lemma FirstLineCleanNoCarriageReturn(s: string)
    ensures '\r' !in FirstLineClean(s)
  {
    var t := ReplaceChar(s, '\r', '\n');
    assert '\r' !in t;
  }

  // ----------------------------------------------------- one-line form

  /** A string in one-line form: its only white space is single spaces
      between words. */
  predicate Compacted(s: string) {
    && (forall i :: 0 <= i < |s| && IsSpace(s[i]) ==> s[i] == ' ')
    && (forall i :: 0 < i < |s| ==> !(IsSpace(s[i - 1]) && IsSpace(s[i])))
    && (|s| > 0 ==> !IsSpace(s[0]) && !IsSpace(s[|s| - 1]))
  }

  /** Words joined by single spaces are in one-line form. */
  lemma {:induction false} JoinCompacted(ws: seq<string>)
    requires forall k :: 0 <= k < |ws| ==> |ws[k]| > 0 && NoSpace(ws[k])
    ensures Compacted(Join(ws, " "))
  {
    if |ws| > 1 {
      var w := ws[0];
      var rest := Join(ws[1..], " ");
      JoinCompacted(ws[1..]);
      JoinStartsWithWord(ws[1..]);
      var s := w + " " + rest;
      assert Join(ws, " ") == s;
      assert forall i :: 0 <= i < |w| ==> s[i] == w[i];
      assert s[|w|] == ' ';
      assert forall i :: |w| < i < |s| ==> s[i] == rest[i - |w| - 1];
    }
  }

  /** Line breaks as spaces. */
  function BreaksToSpaces(s: string): string {
    ReplaceChar(ReplaceChar(s, '\r', ' '), '\n', ' ')
  }

  /** `compactOneLine(s)`: carriage returns and line feeds become spaces,
      runs of white space collapse to one space, and the ends are trimmed. */
  function CompactOneLine(s: string): (r: string)
    ensures Compacted(r)
    ensures '\r' !in r && '\n' !in r
    ensures Fields(r) == Fields(s)
  {
    CompactOneLineFacts(s);
    Join(Fields(BreaksToSpaces(s)), " ")
  }

  /** The words of the line-broken text, joined by single spaces, are in
      one-line form and are the words of the text. */
  lemma CompactOneLineFacts(s: string)
    ensures var r := Join(Fields(BreaksToSpaces(s)), " ");
      Compacted(r) && '\r' !in r && '\n' !in r && Fields(r) == Fields(s)
  {
    var t := BreaksToSpaces(s);
    BreaksSameWords(s);
    SameWordsFields(s, t);
    FieldsAreWords(t);
    JoinedWords(Fields(t));
  }

  /** Line breaks and spaces are both white space, so the words stay put. */
  lemma BreaksSameWords(s: string)
    ensures SameWords(s, BreaksToSpaces(s))
  {
  }

  /** Words joined by single spaces: one-line form, no line break, and the
      same words back. */
  lemma JoinedWords(ws: seq<string>)
    requires forall k :: 0 <= k < |ws| ==> IsWord(ws[k])
    ensures var r := Join(ws, " ");
      Compacted(r) && '\r' !in r && '\n' !in r && Fields(r) == ws
  {
    JoinCompacted(ws);
    FieldsOfJoin(ws);
    CompactedNoBreaks(Join(ws, " "));
  }

  /** The only white space of a compacted string is the plain space. */
  lemma CompactedNoBreaks(r: string)
    requires Compacted(r)
    ensures '\r' !in r && '\n' !in r
  {
    forall i | 0 <= i < |r| ensures r[i] != '\r' && r[i] != '\n' {
      if r[i] == '\r' || r[i] == '\n' {
        assert IsSpace(r[i]);
      }
    }
  }

  /** Compacting a compacted line changes nothing. */
  lemma CompactOneLineIdempotent(s: string)
    ensures CompactOneLine(CompactOneLine(s)) == CompactOneLine(s)
  {
    var r := CompactOneLine(s);
    NoBreaksUnchanged(r);
    var t := BreaksToSpaces(s);
    SameWordsFields(s, t);
    assert r == Join(Fields(t), " ");
    assert Fields(r) == Fields(t);
  }

  /** Replacing line breaks by spaces leaves a compacted string alone. */
  lemma NoBreaksUnchanged(r: string)
    requires Compacted(r)
    ensures BreaksToSpaces(r) == r
  {
    CompactedNoBreaks(r);
    assert ReplaceChar(r, '\r', ' ') == r;
  }

  // --------------------------------------------------------- numbers

  /** `parseUint(s)`: the trimmed text as an unsigned 64-bit decimal; 0 when
      it is empty, holds anything but digits, or overflows. */
  function ParseUint(s: string): (r: nat)
    ensures r <= MaxUint64
    ensures var t := TrimSpace(s);
      |t| > 0 && AllDigits(t) && ValueOf(t) <= MaxUint64 ==> r == ValueOf(t)
    ensures var t := TrimSpace(s);
      |t| == 0 || !AllDigits(t) || ValueOf(t) > MaxUint64 ==> r == 0
  {
    var t := TrimSpace(s);
    if t == "" then 0
    else match ParseUint64(t)
      case None => 0
      case Some(u) => u
  }

  /** A printed unsigned 64-bit number parses back to itself. */
  lemma ParseUintFormatNat(n: nat)
    requires n <= MaxUint64
    ensures ParseUint(FormatNat(n)) == n
  {
    var s := FormatNat(n);
    assert !IsSpace(s[0]) && !IsSpace(s[|s| - 1]);
    TrimSpaceOfTrimmed(s);
    ParseUint64FormatNat(n);
  }

  // ------------------------------------------------------- key lookup

  /** The line mentions `key`, both taken in lower case. */
  function Mentions(key: string): string -> bool {
    line => Contains(ToLower(line), ToLower(key))
  }

  /** Position `i` holds the first colon of the line. */
  predicate FirstColon(line: string, i: int) {
    0 <= i < |line| && line[i] == ':' && ':' !in line[..i]
  }

  /** The value part of a `key: value` line: the trimmed text after the
      first colon, or the whole line trimmed when there is no colon. */
  function ValuePart(line: string): (r: string)
    ensures ':' in line ==> exists i :: FirstColon(line, i) && r == TrimSpace(line[i + 1..])
    ensures ':' !in line ==> r == TrimSpace(line)
    ensures forall c :: c in r ==> c in line
  {
    match IndexOf(line, ':')
    case Some(i) =>
      assert FirstColon(line, i);
      var rest := line[i + 1..];
      TrimIsPart(rest);
      assert line == line[..i + 1] + rest;
      TrimSpace(rest)
    case None =>
      TrimIsPart(line);
      TrimSpace(line)
  }

  /** Line `i` is the first to mention `key`. */
  predicate FirstMention(ls: seq<string>, key: string, i: int) {
    0 <= i < |ls| && Mentions(key)(ls[i]) && forall j :: 0 <= j < i ==> !Mentions(key)(ls[j])
  }

  predicate NoMention(ls: seq<string>, key: string) {
    forall i :: 0 <= i < |ls| ==> !Mentions(key)(ls[i])
  }

  /** `readFirstLine(path, key)` given the file's contents (`None` when it
      cannot be read): the value part of the first line mentioning the key,
      or "" when the file is unreadable or no line mentions it. */
  function ReadFirstLine(contents: Option<string>, key: string): (r: string)
    ensures contents.None? ==> r == ""
    ensures contents.Some? && !NoMention(Split(contents.value, '\n'), key) ==>
      exists i :: FirstMention(Split(contents.value, '\n'), key, i) && r == ValuePart(Split(contents.value, '\n')[i])
    ensures contents.Some? && NoMention(Split(contents.value, '\n'), key) ==> r == ""
    ensures '\n' !in r
  {
    match contents
    case None => ""
    case Some(text) =>
      var ls := Split(text, '\n');
      match FirstWhere(ls, Mentions(key))
      case None =>
        assert NoMention(ls, key);
        ""
      case Some(i) =>
        assert FirstMention(ls, key, i);
        ValuePart(ls[i])
  }
}

=== FILE: telemetrics.dfy ===
/** The client-side scoring of one model run over the ten fixed MNIST
    samples (`computeADHD10` and its helpers): correctness and off-by-one
    buckets per device, CPU/GPU agreement, and drift roll-ups. Go's `int`
    is 64 bits and wraps; `float64` is an exact real here. */
module Telemetrics {
  import opened Wrappers
  import opened Decimal

  const TwoTo64: int := 0x1_0000_0000_0000_0000

  /** Go's wrapping subtraction of two 64-bit `int`s: the true difference,
      shifted by 2^64 when it leaves the range. */
  function Sub64(a: Int64, b: Int64): (r: Int64)
    ensures MinInt64 <= a - b <= MaxInt64 ==> r == a - b
    ensures r == a - b || r == a - b - TwoTo64 || r == a - b + TwoTo64
  {
    var d := a - b;
    if d > MaxInt64 then d - TwoTo64 else if d < MinInt64 then d + TwoTo64 else d
  }

  /** `absInt(x)`: `-x` for a negative `x`, which wraps for the most
      negative `int` and leaves it negative. */
  function AbsInt(x: Int64): (r: Int64)
    ensures x != MinInt64 ==> r >= 0 && (r == x || r == -x)
    ensures x == MinInt64 ==> r == MinInt64
  {
    if x < 0 then (if x == MinInt64 then x else -x) else x
  }

  datatype Bucket = Correct | OffBy1 | Wrong {
    /** The label written to the JSON: "correct", "off_by_1" or "wrong". */
    function Name(): string {
      match this
      case Correct => "correct"
      case OffBy1 => "off_by_1"
      case Wrong => "wrong"
    }
  }

  /** `labelBucket(pred, digit)`: correct on a match, off by one when
      `absInt(pred-label)` (in wrapping arithmetic) is 1, wrong otherwise. */
  function LabelBucket(pred: Int64, digit: Int64): (b: Bucket)
    ensures b == Correct <==> pred == digit
    ensures b == OffBy1 <==> pred != digit && AbsInt(Sub64(pred, digit)) == 1
  {
    if pred == digit then Correct
    else if AbsInt(Sub64(pred, digit)) == 1 then OffBy1
    else Wrong
  }

  /** Whenever `pred - digit` does not overflow, the buckets mean what they
      say: off by one exactly when the two differ by one. */
  lemma LabelBucketIntended(pred: Int64, digit: Int64)
    requires MinInt64 <= pred - digit <= MaxInt64
    ensures LabelBucket(pred, digit) == OffBy1 <==> pred - digit == 1 || digit - pred == 1
    ensures LabelBucket(pred, digit) == Wrong <==> pred - digit > 1 || digit - pred > 1
  {
  }

  /** The subtraction wraps for labels at opposite ends of the `int` range,
      which then count as off by one. */
  lemma LabelBucketWraps()
    ensures LabelBucket(MinInt64, MaxInt64) == OffBy1
  {
    assert Sub64(MinInt64, MaxInt64) == 1;
  }

  /** `ternary(cond, a, b)`. */
  function Ternary<T>(cond: bool, a: T, b: T): (r: T)
    ensures cond ==> r == a
    ensures !cond ==> r == b
  {
    if cond then a else b
  }

  /** `safeDiv(a, b)`: zero for a zero divisor, else the quotient, which
      times the divisor gives back `a`. */
  function SafeDiv(a: real, b: real): (r: real)
    ensures b == 0.0 ==> r == 0.0
    ensures b != 0.0 ==> r * b == a
  {
    if b == 0.0 then 0.0 else a / b
  }

  /** `top1(out)`: the largest score, 0 for an empty vector. */
  function Top1(out: seq<real>): (r: real)
    ensures |out| == 0 ==> r == 0.0
    ensures |out| > 0 ==> r in out
    ensures forall i :: 0 <= i < |out| ==> out[i] <= r
  {
    if |out| == 0 then 0.0
    else if |out| == 1 then out[0]
    else
      var prev := Top1(out[..|out| - 1]);
      assert forall i :: 0 <= i < |out| - 1 ==> out[i] == out[..|out| - 1][i];
      if out[|out| - 1] > prev then out[|out| - 1] else prev
  }

  // ------------------------------------------------------------ records

  datatype SampleTiming = SampleTiming(digit: Int64, idx: Int64, elapsedMs: real, pred: Int64, top1Score: real)

  datatype DriftMetrics = DriftMetrics(digit: Int64, idx: Int64, maxAbs: real, mae: real)

  datatype ModelRun = ModelRun(
    modelFile: string,
    webgpuInitOk: bool,
    webgpuInitTimeMs: real,
    cpu: seq<SampleTiming>,
    gpu: seq<SampleTiming>,
    drift: seq<DriftMetrics>)

  datatype AdhdBuckets = AdhdBuckets(
    cpuCorrect: nat, cpuWrong: nat, gpuCorrect: nat, gpuWrong: nat,
    cpuOffBy1: nat, gpuOffBy1: nat, agree: nat, disagree: nat)

  datatype Agreement = Agree | Disagree {
    function Name(): string {
      if this == Agree then "agree" else "disagree"
    }
  }

  datatype AdhdSample = AdhdSample(
    digit: Int64, idx: Int64, cpuPred: Int64, gpuPred: Int64,
    cpuBucket: Bucket, gpuBucket: Bucket, agreement: Agreement)

  datatype AdhdScore = AdhdScore(
    top1AccuracyCpu: real,
    top1AccuracyGpu: real,
    cpuVsGpuAgreeCount: nat,
    avgDriftMae: real,
    maxDriftMaxAbs: real,
    buckets: AdhdBuckets,
    perSample: seq<AdhdSample>)

  /** `ADHDScore{}`. */
  const ZeroScore := AdhdScore(0.0, 0.0, 0, 0.0, 0.0, AdhdBuckets(0, 0, 0, 0, 0, 0, 0, 0), [])

  // ------------------------------------------------ reference counts

  predicate IsCorrect(s: SampleTiming) {
    s.pred == s.digit
  }

  predicate IsOffByOne(s: SampleTiming) {
    AbsInt(Sub64(s.pred, s.digit)) == 1
  }

  /** The samples predicted correctly. */
  function CorrectCount(xs: seq<SampleTiming>): (n: nat)
    ensures n <= |xs|
  {
    if |xs| == 0 then 0
    else CorrectCount(xs[..|xs| - 1]) + One(IsCorrect(xs[|xs| - 1]))
  }

  /** The samples whose prediction is off by one. */
  function OffByOneCount(xs: seq<SampleTiming>): nat {
    if |xs| == 0 then 0
    else OffByOneCount(xs[..|xs| - 1]) + One(IsOffByOne(xs[|xs| - 1]))
  }

  /** An off-by-one sample is never a correct one, so the off-by-one count
      is at most the number of wrong samples. */
  lemma {:induction false} OffByOneAtMostWrong(xs: seq<SampleTiming>)
    ensures OffByOneCount(xs) <= |xs| - CorrectCount(xs)
  {
    if |xs| > 0 {
      OffByOneAtMostWrong(xs[..|xs| - 1]);
      var s := xs[|xs| - 1];
      if IsCorrect(s) {
        assert Sub64(s.pred, s.digit) == 0;
      }
    }
  }

  /** The positions below `|cs|` where the CPU and GPU predictions agree. */
  function AgreeCount(cs: seq<SampleTiming>, gs: seq<SampleTiming>): (n: nat)
    requires |gs| >= |cs|
    ensures n <= |cs|
  {
    if |cs| == 0 then 0
    else AgreeCount(cs[..|cs| - 1], gs) + One(cs[|cs| - 1].pred == gs[|cs| - 1].pred)
  }

  function MaeSum(ds: seq<DriftMetrics>): real {
    if |ds| == 0 then 0.0 else MaeSum(ds[..|ds| - 1]) + ds[|ds| - 1].mae
  }

  /** The running maximum of the `MaxAbs` values, starting from 0. */
  function MaxAbsMax(ds: seq<DriftMetrics>): real {
    if |ds| == 0 then 0.0
    else
      var prev := MaxAbsMax(ds[..|ds| - 1]);
      if ds[|ds| - 1].maxAbs > prev then ds[|ds| - 1].maxAbs else prev
  }

  /** The running maximum is the largest `MaxAbs` value, or 0 when every
      value is negative or there is none. */
  lemma {:induction false} MaxAbsMaxIsMax(ds: seq<DriftMetrics>)
    ensures MaxAbsMax(ds) >= 0.0
    ensures forall i :: 0 <= i < |ds| ==> ds[i].maxAbs <= MaxAbsMax(ds)
    ensures MaxAbsMax(ds) == 0.0 || exists i :: 0 <= i < |ds| && ds[i].maxAbs == MaxAbsMax(ds)
  {
    if |ds| > 0 {
      var pre := ds[..|ds| - 1];
      MaxAbsMaxIsMax(pre);
      assert forall i :: 0 <= i < |ds| - 1 ==> ds[i] == pre[i];
      if MaxAbsMax(ds) != 0.0 && MaxAbsMax(ds) == MaxAbsMax(pre) {
        var i :| 0 <= i < |pre| && pre[i].maxAbs == MaxAbsMax(pre);
        assert ds[i].maxAbs == MaxAbsMax(ds);
      }
    }
  }

  /** The per-sample labels of CPU sample `c` and GPU sample `g`. */
  function SampleLabels(c: SampleTiming, g: SampleTiming): (s: AdhdSample)
    ensures s.cpuBucket == LabelBucket(c.pred, c.digit) && s.gpuBucket == LabelBucket(g.pred, g.digit)
    ensures s.agreement == Agree <==> c.pred == g.pred
    ensures s.digit == c.digit && s.idx == c.idx && s.cpuPred == c.pred && s.gpuPred == g.pred
  {
    AdhdSample(c.digit, c.idx, c.pred, g.pred,
      LabelBucket(c.pred, c.digit), LabelBucket(g.pred, g.digit),
      Ternary(c.pred == g.pred, Agree, Disagree))
  }

  /** All three record lists are non-empty, so a score is computed. */
  predicate Scored(m: ModelRun) {
    |m.cpu| > 0 && |m.gpu| > 0 && |m.drift| > 0
  }

  const NoBuckets := AdhdBuckets(0, 0, 0, 0, 0, 0, 0, 0)

  /** The counters after one more CPU sample `c` and GPU sample `g`. */
  function Bump(b: AdhdBuckets, c: SampleTiming, g: SampleTiming): AdhdBuckets {
    AdhdBuckets(
      b.cpuCorrect + One(IsCorrect(c)), b.cpuWrong + One(!IsCorrect(c)),
      b.gpuCorrect + One(IsCorrect(g)), b.gpuWrong + One(!IsCorrect(g)),
      b.cpuOffBy1 + One(IsOffByOne(c)), b.gpuOffBy1 + One(IsOffByOne(g)),
      b.agree + One(c.pred == g.pred), b.disagree + One(c.pred != g.pred))
  }

  function One(p: bool): nat {
    if p then 1 else 0
  }

  /** The counters after the first `n` sample pairs. */
  function Tally(cs: seq<SampleTiming>, gs: seq<SampleTiming>, n: nat): AdhdBuckets
    requires n <= |cs| && n <= |gs|
  {
    if n == 0 then NoBuckets else Bump(Tally(cs, gs, n - 1), cs[n - 1], gs[n - 1])
  }

  /** What the counters mean: each is the number of samples among the first
      `n` in its category, and the categories split the samples. */
  lemma {:induction false} TallyCounts(cs: seq<SampleTiming>, gs: seq<SampleTiming>, n: nat)
    requires n <= |cs| && n <= |gs|
    ensures var b := Tally(cs, gs, n);
      && b.cpuCorrect == CorrectCount(cs[..n]) && b.cpuCorrect + b.cpuWrong == n
      && b.gpuCorrect == CorrectCount(gs[..n]) && b.gpuCorrect + b.gpuWrong == n
      && b.cpuOffBy1 == OffByOneCount(cs[..n]) && b.gpuOffBy1 == OffByOneCount(gs[..n])
      && b.agree == AgreeCount(cs[..n], gs) && b.agree + b.disagree == n
  {
    TallyCpu(cs, gs, n);
    TallyGpu(cs, gs, n);
    TallyAgree(cs, gs, n);
  }

  /** The CPU counters of `Tally`. */
  lemma {:induction false} TallyCpu(cs: seq<SampleTiming>, gs: seq<SampleTiming>, n: nat)
    requires n <= |cs| && n <= |gs|
    ensures var b := Tally(cs, gs, n);
      && b.cpuCorrect == CorrectCount(cs[..n]) && b.cpuCorrect + b.cpuWrong == n
      && b.cpuOffBy1 == OffByOneCount(cs[..n])
  {
    if n > 0 {
      TallyCpu(cs, gs, n - 1);
      assert cs[..n][..n - 1] == cs[..n - 1];
    }
  }

  /** The GPU counters of `Tally`. */
  lemma {:induction false} TallyGpu(cs: seq<SampleTiming>, gs: seq<SampleTiming>, n: nat)
    requires n <= |cs| && n <= |gs|
    ensures var b := Tally(cs, gs, n);
      && b.gpuCorrect == CorrectCount(gs[..n]) && b.gpuCorrect + b.gpuWrong == n
      && b.gpuOffBy1 == OffByOneCount(gs[..n])
  {
    if n > 0 {
      TallyGpu(cs, gs, n - 1);
      assert gs[..n][..n - 1] == gs[..n - 1];
    }
  }

  /** The agreement counters of `Tally`. */
  lemma {:induction false} TallyAgree(cs: seq<SampleTiming>, gs: seq<SampleTiming>, n: nat)
    requires n <= |cs| && n <= |gs|
    ensures var b := Tally(cs, gs, n);
      b.agree == AgreeCount(cs[..n], gs) && b.agree + b.disagree == n
  {
    if n > 0 {
      TallyAgree(cs, gs, n - 1);
      assert cs[..n][..n - 1] == cs[..n - 1];
    }
  }

  /** The per-sample labels of the first `n` sample pairs. */
  function PerSample(cs: seq<SampleTiming>, gs: seq<SampleTiming>, n: nat): (r: seq<AdhdSample>)
    requires n <= |cs| && n <= |gs|
    ensures |r| == n
    ensures forall i :: 0 <= i < n ==> r[i] == SampleLabels(cs[i], gs[i])
  {
    seq(n, i requires 0 <= i < n => SampleLabels(cs[i], gs[i]))
  }

  /** The score of a run, stated over whole sequences: the zero score when a
      list is empty; otherwise, over the CPU samples and the GPU and drift
      records at the same positions, the counters, the accuracies, the mean
      MAE, the largest max-abs drift and the per-sample labels. */
  function ScoreOf(m: ModelRun): (s: AdhdScore)
    requires Scored(m) ==> |m.gpu| >= |m.cpu| && |m.drift| >= |m.cpu|
    ensures !Scored(m) ==> s == ZeroScore
    ensures Scored(m) ==> var n := |m.cpu|;
      && s.top1AccuracyCpu == SafeDiv(CorrectCount(m.cpu) as real, n as real)
      && s.top1AccuracyGpu == SafeDiv(CorrectCount(m.gpu[..n]) as real, n as real)
      && s.avgDriftMae == SafeDiv(MaeSum(m.drift[..n]), n as real)
      && s.cpuVsGpuAgreeCount == AgreeCount(m.cpu, m.gpu)
      && s.maxDriftMaxAbs == MaxAbsMax(m.drift[..n])
      && |s.perSample| == n
      && forall i :: 0 <= i < n ==> s.perSample[i] == SampleLabels(m.cpu[i], m.gpu[i])
  {
    if !Scored(m) then ZeroScore
    else
      var n := |m.cpu|;
      var b := Tally(m.cpu, m.gpu, n);
      TallyCounts(m.cpu, m.gpu, n);
      assert m.cpu[..n] == m.cpu;
      CorrectTallies(m.cpu, m.gpu);
      AdhdScore(
        SafeDiv(b.cpuCorrect as real, n as real), SafeDiv(b.gpuCorrect as real, n as real),
        b.agree, SafeDiv(MaeSum(m.drift[..n]), n as real), MaxAbsMax(m.drift[..n]),
        b, PerSample(m.cpu, m.gpu, n))
  }

  /** The correct counters after all the CPU samples. */
  lemma CorrectTallies(cs: seq<SampleTiming>, gs: seq<SampleTiming>)
    requires |gs| >= |cs|
    ensures Tally(cs, gs, |cs|).cpuCorrect == CorrectCount(cs)
    ensures Tally(cs, gs, |cs|).gpuCorrect == CorrectCount(gs[..|cs|])
  {
    TallyCounts(cs, gs, |cs|);
    assert cs[..|cs|] == cs;
  }

  /** `computeADHD10(m)`: the zero score when a list is empty, otherwise
      the score the pass over the samples accumulates; either way
      `ScoreOf(m)`. Go panics when the GPU or drift list is shorter than the
      CPU list. */
  method ComputeAdhd10(m: ModelRun) returns (s: AdhdScore)
    requires Scored(m) ==> |m.gpu| >= |m.cpu| && |m.drift| >= |m.cpu|
    ensures s == ScoreOf(m)
    ensures !Scored(m) ==> s == ZeroScore
  {
    if !Scored(m) {
      return ZeroScore;
    }
    var n := |m.cpu|;
    var b, sumMae, maxMaxAbs, per := Accumulate(m.cpu, m.gpu, m.drift);
    var top1Cpu, top1Gpu := SafeDiv(b.cpuCorrect as real, n as real), SafeDiv(b.gpuCorrect as real, n as real);
    s := AdhdScore(top1Cpu, top1Gpu, b.agree, SafeDiv(sumMae, n as real), maxMaxAbs, b, per);
  }

  /** The loop of `computeADHD10`: one pass over the CPU samples that
      accumulates the counters, the MAE sum, the largest max-abs drift and
      the per-sample labels. */
  method Accumulate(cs: seq<SampleTiming>, gs: seq<SampleTiming>, ds: seq<DriftMetrics>)
    returns (b: AdhdBuckets, sumMae: real, maxMaxAbs: real, per: seq<AdhdSample>)
    requires |gs| >= |cs| && |ds| >= |cs|
    ensures b == Tally(cs, gs, |cs|)
    ensures sumMae == MaeSum(ds[..|cs|]) && maxMaxAbs == MaxAbsMax(ds[..|cs|])
    ensures per == PerSample(cs, gs, |cs|)
  {
    var n := |cs|;
    sumMae, maxMaxAbs := 0.0, 0.0;
    b := NoBuckets;
    per := [];
    var i := 0;
    while i < n
      invariant 0 <= i <= n
      invariant b == Tally(cs, gs, i)
      invariant sumMae == MaeSum(ds[..i]) && maxMaxAbs == MaxAbsMax(ds[..i])
      invariant |per| == i
      invariant forall k :: 0 <= k < i ==> per[k] == SampleLabels(cs[k], gs[k])
    {
      var c := cs[i];
      var g := gs[i];
      var d := ds[i];
      DriftStep(ds, i);
      b := Bump(b, c, g);
      sumMae := sumMae + d.mae;
      if d.maxAbs > maxMaxAbs {
        maxMaxAbs := d.maxAbs;
      }
      per := per + [SampleLabels(c, g)];
      i := i + 1;
    }
    assert per == PerSample(cs, gs, n);
  }

  /** One more drift record extends the MAE sum and the running maximum. */
  lemma DriftStep(ds: seq<DriftMetrics>, i: nat)
    requires i < |ds|
    ensures MaeSum(ds[..i + 1]) == MaeSum(ds[..i]) + ds[i].mae
    ensures MaxAbsMax(ds[..i + 1]) == if ds[i].maxAbs > MaxAbsMax(ds[..i]) then ds[i].maxAbs else MaxAbsMax(ds[..i])
  {
    assert ds[..i + 1][..i] == ds[..i];
  }

  /** What the counters of a score mean: each is the number of samples in
      its category, off-by-one implies wrong, and both the correct/wrong and
      the agree/disagree pairs split the samples. */
  lemma ScoreCounts(m: ModelRun)
    requires Scored(m) && |m.gpu| >= |m.cpu| && |m.drift| >= |m.cpu|
    ensures var n := |m.cpu|; var b := ScoreOf(m).buckets;
      && b.cpuCorrect == CorrectCount(m.cpu) && b.cpuCorrect + b.cpuWrong == n
      && b.gpuCorrect == CorrectCount(m.gpu[..n]) && b.gpuCorrect + b.gpuWrong == n
      && b.cpuOffBy1 == OffByOneCount(m.cpu) && b.gpuOffBy1 == OffByOneCount(m.gpu[..n])
      && b.cpuOffBy1 <= b.cpuWrong && b.gpuOffBy1 <= b.gpuWrong
      && b.agree == AgreeCount(m.cpu, m.gpu) && b.agree + b.disagree == n
    ensures ScoreOf(m).cpuVsGpuAgreeCount == ScoreOf(m).buckets.agree
  {
    var n := |m.cpu|;
    TallyCounts(m.cpu, m.gpu, n);
    assert m.cpu[..n] == m.cpu;
    OffByOneAtMostWrong(m.cpu);
    OffByOneAtMostWrong(m.gpu[..n]);
  }

  /** The accuracies of a score are fractions in [0, 1], and its largest
      drift is at least 0 and at least the max-abs drift of every sample. */
  lemma ScoreBounds(m: ModelRun)
    requires Scored(m) && |m.gpu| >= |m.cpu| && |m.drift| >= |m.cpu|
    ensures 0.0 <= ScoreOf(m).top1AccuracyCpu <= 1.0 && 0.0 <= ScoreOf(m).top1AccuracyGpu <= 1.0
    ensures ScoreOf(m).maxDriftMaxAbs >= 0.0
    ensures forall i :: 0 <= i < |m.cpu| ==> m.drift[i].maxAbs <= ScoreOf(m).maxDriftMaxAbs
  {
    var n := |m.cpu|;
    var b := Tally(m.cpu, m.gpu, n);
    TallyCounts(m.cpu, m.gpu, n);
    AccuracyBounds(b.cpuCorrect, n);
    AccuracyBounds(b.gpuCorrect, n);
    var ds := m.drift[..n];
    MaxAbsMaxIsMax(ds);
    assert forall k :: 0 <= k < n ==> m.drift[k] == ds[k];
  }

  /** The score has one label entry per CPU sample, pairing it with the GPU
      sample at the same position. */
  lemma ScorePerSample(m: ModelRun)
    requires Scored(m) && |m.gpu| >= |m.cpu| && |m.drift| >= |m.cpu|
    ensures |ScoreOf(m).perSample| == |m.cpu|
    ensures forall i :: 0 <= i < |m.cpu| ==>
      && ScoreOf(m).perSample[i].cpuBucket == LabelBucket(m.cpu[i].pred, m.cpu[i].digit)
      && ScoreOf(m).perSample[i].gpuBucket == LabelBucket(m.gpu[i].pred, m.gpu[i].digit)
      && (ScoreOf(m).perSample[i].agreement == Agree <==> m.cpu[i].pred == m.gpu[i].pred)
  {
  }

  /** A count of at most `n` out of `n > 0` is a fraction in [0, 1]. */
  lemma AccuracyBounds(k: nat, n: nat)
    requires 0 < n && k <= n
    ensures 0.0 <= SafeDiv(k as real, n as real) <= 1.0
  {
    assert (k as real) / (n as real) <= (n as real) / (n as real);
  }

  /** The position of the first 1.0 in a label row. */
  function FirstOne(row: seq<real>): (r: Option<nat>)
    ensures r.Some? ==> r.value < |row| && row[r.value] == 1.0 && forall k :: 0 <= k < r.value ==> row[k] != 1.0
    ensures r.None? ==> forall k :: 0 <= k < |row| ==> row[k] != 1.0
  {
    if |row| == 0 then None
    else if row[0] == 1.0 then Some(0)
    else match FirstOne(row[1..])
      case None => None
      case Some(k) => Some(k + 1)
  }

  /** The digit row `i` is labelled with: the first 1.0 of its first row. */
  function DigitOf(labels: seq<seq<seq<real>>>, i: nat): Option<nat>
    requires i < |labels| && |labels[i]| > 0
  {
    FirstOne(labels[i][0])
  }

  /** Every label has a first row, as Go's `lbl[0]` needs. */
  predicate Labelled(labels: seq<seq<seq<real>>>) {
    forall i :: 0 <= i < |labels| ==> |labels[i]| > 0
  }

  /** `r` maps each digit that labels some sample to the first such sample. */
  predicate FirstIndices(labels: seq<seq<seq<real>>>, r: map<int, int>)
    requires Labelled(labels)
  {
    && (forall d :: d in r ==>
          && 0 <= d && 0 <= r[d] < |labels|
          && DigitOf(labels, r[d]) == Some(d)
          && forall j :: 0 <= j < r[d] ==> DigitOf(labels, j) != Some(d))
    && (forall i :: 0 <= i < |labels| && DigitOf(labels, i).Some? ==> DigitOf(labels, i).value in r)
  }

  /** `firstIndexPerDigit(labels)`: for each digit, the first sample labelled
      with it. */
  function FirstIndexPerDigit(labels: seq<seq<seq<real>>>): (r: map<int, int>)
    requires Labelled(labels)
    ensures FirstIndices(labels, r)
  {
    if |labels| == 0 then map[]
    else
      var n := |labels| - 1;
      var prev := FirstIndexPerDigit(labels[..n]);
      FirstIndexStep(labels, prev);
      match DigitOf(labels, n)
      case None => prev
      case Some(d) => if d in prev then prev else prev[d := n]
  }

  /** The first indices of all but the last sample, updated with the last. */
  lemma FirstIndexStep(labels: seq<seq<seq<real>>>, prev: map<int, int>)
    requires Labelled(labels) && |labels| > 0
    requires Labelled(labels[..|labels| - 1]) && FirstIndices(labels[..|labels| - 1], prev)
    ensures var n := |labels| - 1;
      FirstIndices(labels, match DigitOf(labels, n)
                           case None => prev
                           case Some(d) => if d in prev then prev else prev[d := n])
  {
    var n := |labels| - 1;
    var pre := labels[..n];
    forall j | 0 <= j < n ensures DigitOf(pre, j) == DigitOf(labels, j) {
      assert pre[j] == labels[j];
    }
  }
}

=== FILE: text.dfy ===
/** The Go `strings` functions the probes and filters rely on, over Dafny
    strings (sequences of Unicode scalar values). Case mapping is ASCII only. */
module Text {
  import opened Wrappers

  /** Go's `unicode.IsSpace`: the Unicode White_Space characters. */
  predicate IsSpace(c: char) {
    || c == '\t' || c == '\n' || c == '\U{000B}' || c == '\U{000C}' || c == '\r' || c == ' '
    || c == '\U{0085}' || c == '\U{00A0}' || c == '\U{1680}'
    || ('\U{2000}' <= c <= '\U{200A}')
    || c == '\U{2028}' || c == '\U{2029}' || c == '\U{202F}' || c == '\U{205F}' || c == '\U{3000}'
  }

  predicate NoSpace(s: string) {
    forall i :: 0 <= i < |s| ==> !IsSpace(s[i])
  }

  /** Nothing but white space. */
  predicate Blank(s: string) {
    forall i :: 0 <= i < |s| ==> IsSpace(s[i])
  }

  // ------------------------------------------------------------ trimming

  /** The number of white-space characters `s` starts with. */
  function LeadingSpaces(s: string): (n: nat)
    ensures n <= |s|
  {
    if |s| > 0 && IsSpace(s[0]) then 1 + LeadingSpaces(s[1..]) else 0
  }

  /** The leading run is white space and ends at a non-space or at the end. */
  lemma {:induction false} LeadingSpacesBlank(s: string)
    ensures Blank(s[..LeadingSpaces(s)])
    ensures LeadingSpaces(s) < |s| ==> !IsSpace(s[LeadingSpaces(s)])
  {
    if |s| > 0 && IsSpace(s[0]) {
      LeadingSpacesBlank(s[1..]);
      BlankCons(s, LeadingSpaces(s));
      if LeadingSpaces(s) < |s| {
        assert s[LeadingSpaces(s)] == s[1..][LeadingSpaces(s[1..])];
      }
    }
  }

  /** Go's `strings.TrimLeft(s, white space)`. */
  function TrimLeft(s: string): (r: string)
    ensures |r| <= |s| && r == s[|s| - |r|..]
    ensures Blank(s[..|s| - |r|])
    ensures |r| > 0 ==> !IsSpace(r[0])
  {
    LeadingSpacesBlank(s);
    s[LeadingSpaces(s)..]
  }

  /** A leading space is dropped and the rest trimmed. */
  lemma TrimLeftStep(s: string)
    requires |s| > 0 && IsSpace(s[0])
    ensures TrimLeft(s) == TrimLeft(s[1..])
  {
    assert s[1..][LeadingSpaces(s) - 1..] == s[LeadingSpaces(s)..];
  }

  function TrimRight(s: string): (r: string)
    ensures |r| <= |s| && r == s[..|r|]
    ensures Blank(s[|r|..])
    ensures |r| > 0 ==> !IsSpace(r[|r| - 1])
  {
    if |s| > 0 && IsSpace(s[|s| - 1]) then
      var r := TrimRight(s[..|s| - 1]);
      BlankSnoc(s, |r|);
      r
    else s
  }

  /** A blank run after a leading space is a longer blank run. */
  lemma BlankCons(s: string, n: int)
    requires 0 < n <= |s| && IsSpace(s[0]) && Blank(s[1..][..n - 1])
    ensures Blank(s[..n])
  {
    forall k | 1 <= k < n ensures IsSpace(s[k]) {
      assert s[k] == s[1..][..n - 1][k - 1];
    }
  }

  /** A blank run before a trailing space is a longer blank run. */
  lemma BlankSnoc(s: string, n: int)
    requires 0 <= n < |s| && IsSpace(s[|s| - 1]) && Blank(s[..|s| - 1][n..])
    ensures Blank(s[n..])
  {
    forall k | n <= k < |s| - 1 ensures IsSpace(s[k]) {
      assert s[k] == s[..|s| - 1][n..][k - n];
    }
  }

  /** `r` is `s` with its leading and trailing white space, and only that, removed. */
  predicate IsTrimOf(r: string, s: string) {
    && (exists i, j :: 0 <= i <= j <= |s| && r == s[i..j] && Blank(s[..i]) && Blank(s[j..]))
    && (|r| > 0 ==> !IsSpace(r[0]) && !IsSpace(r[|r| - 1]))
  }

  /** Go's `strings.TrimSpace`. */
  function TrimSpace(s: string): (r: string)
    ensures IsTrimOf(r, s)
    ensures |r| == 0 <==> Blank(s)
  {
    TrimBoth(s);
    TrimRight(TrimLeft(s))
  }

  /** Trimming on the left and then on the right removes exactly the white
      space at both ends. */
  lemma TrimBoth(s: string)
    ensures IsTrimOf(TrimRight(TrimLeft(s)), s)
    ensures |TrimRight(TrimLeft(s))| == 0 <==> Blank(s)
  {
    TrimBothCore(s, TrimLeft(s), TrimRight(TrimLeft(s)));
  }

  lemma TrimBothCore(s: string, l: string, r: string)
    requires |l| <= |s| && l == s[|s| - |l|..] && Blank(s[..|s| - |l|]) && (|l| > 0 ==> !IsSpace(l[0]))
    requires |r| <= |l| && r == l[..|r|] && Blank(l[|r|..]) && (|r| > 0 ==> !IsSpace(r[|r| - 1]))
    ensures IsTrimOf(r, s)
    ensures |r| == 0 <==> Blank(s)
  {
    var i := |s| - |l|;
    TrimRightOfSuffix(s, l, r, i);
    if |r| > 0 {
      assert r[0] == l[0];
    }
    TrimBothWitness(s, r, i, i + |r|);
    TrimEmptyIff(s, r, i, i + |r|);
  }

  /** The right trim of a suffix of `s` is a slice of `s` followed by white space. */
  lemma TrimRightOfSuffix(s: string, l: string, r: string, i: int)
    requires 0 <= i <= |s| && l == s[i..] && |r| <= |l| && r == l[..|r|] && Blank(l[|r|..])
    ensures i + |r| <= |s| && r == s[i..i + |r|] && Blank(s[i + |r|..])
  {
    assert s[i + |r|..] == l[|r|..];
  }

  lemma TrimBothWitness(s: string, r: string, i: int, j: int)
    requires 0 <= i <= j <= |s| && r == s[i..j] && Blank(s[..i]) && Blank(s[j..])
    requires |r| > 0 ==> !IsSpace(r[0]) && !IsSpace(r[|r| - 1])
    ensures IsTrimOf(r, s)
  {
  }

  /** The trim is empty exactly when the whole string is white space. */
  lemma TrimEmptyIff(s: string, r: string, i: int, j: int)
    requires 0 <= i <= j <= |s| && r == s[i..j] && Blank(s[..i]) && Blank(s[j..])
    requires |r| > 0 ==> !IsSpace(r[0])
    ensures |r| == 0 <==> Blank(s)
  {
    if |r| > 0 {
      assert s[i] == r[0];
    } else {
      forall k | 0 <= k < |s| ensures IsSpace(s[k]) {
        if k < i {
          assert s[k] == s[..i][k];
        } else {
          assert s[k] == s[j..][k - j];
        }
      }
    }
  }

  /** A string without leading or trailing white space is its own trim. */
  lemma TrimSpaceOfTrimmed(s: string)
    requires |s| > 0 ==> !IsSpace(s[0]) && !IsSpace(s[|s| - 1])
    ensures TrimSpace(s) == s
  {
  }

  /** Trimming keeps only characters of the input. */
  lemma TrimIsPart(s: string)
    ensures forall c :: c in TrimSpace(s) ==> c in s
  {
    SliceIsPart(s, TrimLeft(s), TrimRight(TrimLeft(s)));
  }

  lemma SliceIsPart(s: string, l: string, r: string)
    requires |l| <= |s| && l == s[|s| - |l|..]
    requires |r| <= |l| && r == l[..|r|]
    ensures forall c :: c in r ==> c in s
  {
    assert l == r + l[|r|..];
    assert s == s[..|s| - |l|] + l;
  }

  // --------------------------------------------------------- case mapping

  function LowerChar(c: char): char {
    if 'A' <= c <= 'Z' then (c as int + 32) as char else c
  }

  /** `strings.ToLower`, restricted to ASCII letters. */
  function ToLower(s: string): (r: string)
    ensures |r| == |s|
    ensures forall i :: 0 <= i < |s| ==> r[i] == LowerChar(s[i])
  {
    seq(|s|, i requires 0 <= i < |s| => LowerChar(s[i]))
  }

  // ------------------------------------------------------------- search

  /** `sub` occurs in `s` at position `i`. */
  predicate OccursAt(s: string, sub: string, i: int) {
    0 <= i && i + |sub| <= |s| && s[i..i + |sub|] == sub
  }

  /** Go's `strings.Contains`. */
  function Contains(s: string, sub: string): (b: bool)
    ensures b <==> exists i :: OccursAt(s, sub, i)
    decreases |s|
  {
    if |sub| > |s| then
      assert forall i :: !OccursAt(s, sub, i);
      false
    else if OccursAt(s, sub, 0) then
      true
    else
      var b := Contains(s[1..], sub);
      forall i | 0 < i ensures OccursAt(s, sub, i) <==> OccursAt(s[1..], sub, i - 1) {
        OccursShift(s, sub, i);
      }
      assert forall i :: OccursAt(s[1..], sub, i) ==> OccursAt(s, sub, i + 1);
      b
  }

  /** An occurrence after the first position is one in the tail. */
  lemma OccursShift(s: string, sub: string, i: int)
    requires 0 < i && |s| > 0
    ensures OccursAt(s, sub, i) <==> OccursAt(s[1..], sub, i - 1)
  {
    if i + |sub| <= |s| {
      assert s[i..i + |sub|] == s[1..][i - 1..i - 1 + |sub|];
    }
  }

  /** One differing character rules out an occurrence. */
  lemma MismatchAt(s: string, sub: string, j: int, m: int)
    requires 0 <= j && 0 <= m < |sub| && j + m < |s| && s[j + m] != sub[m]
    ensures !OccursAt(s, sub, j)
  {
    if j + |sub| <= |s| {
      assert s[j..j + |sub|][m] == s[j + m];
    }
  }

  /** Go's `strings.IndexByte` for one character: its first position. */
  function IndexOf(s: string, c: char): (r: Option<nat>)
    ensures r.None? <==> c !in s
    ensures r.Some? ==> r.value < |s| && s[r.value] == c && c !in s[..r.value]
  {
    if |s| == 0 then None
    else if s[0] == c then Some(0)
    else match IndexOf(s[1..], c)
      case None => None
      case Some(i) =>
        assert s[..i + 1] == [s[0]] + s[1..][..i];
        Some(i + 1)
  }

  /** Go's `strings.LastIndexByte` for one character: its last position. */
  function LastIndexOf(s: string, c: char): (r: Option<nat>)
    ensures r.None? <==> c !in s
    ensures r.Some? ==> r.value < |s| && s[r.value] == c && c !in s[r.value + 1..]
  {
    if |s| == 0 then None
    else if s[|s| - 1] == c then Some(|s| - 1)
    else
      assert s == s[..|s| - 1] + [s[|s| - 1]];
      match LastIndexOf(s[..|s| - 1], c)
      case None => None
      case Some(i) =>
        assert s[i + 1..] == s[..|s| - 1][i + 1..] + [s[|s| - 1]];
        Some(i)
  }

  // ------------------------------------------------------ split and join

  /** The total length of the strings of `ws`. */
  function TotalLength(ws: seq<string>): nat {
    if |ws| == 0 then 0 else |ws[0]| + TotalLength(ws[1..])
  }

  /** Go's `strings.Join`: the strings in order, with `sep` between
      neighbours and nowhere else. */
  function Join(ws: seq<string>, sep: string): (r: string)
    ensures |ws| == 0 ==> r == ""
    ensures |ws| > 0 ==> ws[0] <= r
    ensures |ws| > 0 ==> |r| == TotalLength(ws) + (|ws| - 1) * |sep|
  {
    if |ws| == 0 then ""
    else if |ws| == 1 then ws[0]
    else
      var rest := Join(ws[1..], sep);
      assert (|ws| - 1) * |sep| == |sep| + (|ws| - 2) * |sep|;
      ws[0] + sep + rest
  }

  /** Go's `strings.Split` on a one-character separator: the pieces between
      separators, at least one, which joined back give the input. */
  function Split(s: string, c: char): (r: seq<string>)
    ensures |r| >= 1
    ensures forall k :: 0 <= k < |r| ==> c !in r[k]
    ensures Join(r, [c]) == s
    decreases |s|
  {
    match IndexOf(s, c)
    case None => [s]
    case Some(i) =>
      var rest := Split(s[i + 1..], c);
      assert s == s[..i] + [c] + s[i + 1..];
      assert ([s[..i]] + rest)[1..] == rest;
      [s[..i]] + rest
  }

  /** Replaces every `a` by `b`, like `strings.ReplaceAll` with one-character operands. */
  function ReplaceChar(s: string, a: char, b: char): (r: string)
    ensures |r| == |s|
    ensures forall i :: 0 <= i < |s| ==> r[i] == (if s[i] == a then b else s[i])
  {
    seq(|s|, i requires 0 <= i < |s| => if s[i] == a then b else s[i])
  }

  // -------------------------------------------------------------- fields

  /** The longest prefix of `s` without white space. */
  function Word(s: string): (w: string)
    ensures |w| <= |s| && w == s[..|w|]
    ensures NoSpace(w)
    ensures |w| < |s| ==> IsSpace(s[|w|])
    ensures |s| > 0 && !IsSpace(s[0]) ==> |w| > 0
  {
    if |s| == 0 || IsSpace(s[0]) then []
    else
      var w := Word(s[1..]);
      assert [s[0]] + w == s[..|w| + 1];
      [s[0]] + w
  }

  /** The word collected so far, as a list of at most one field. */
  function Flush(cur: string): (r: seq<string>)
    ensures |cur| == 0 ==> r == []
    ensures |cur| > 0 ==> r == [cur]
  {
    if |cur| == 0 then [] else [cur]
  }

  /** The fields a left-to-right scan collects: each character that is not
      white space extends the current word `cur`, white space or the end of
      the text closes it, and an empty word is not kept. */
  function ScanFields(s: string, cur: string): seq<string>
    decreases |s|
  {
    if |s| == 0 then Flush(cur)
    else if IsSpace(s[0]) then Flush(cur) + ScanFields(s[1..], "")
    else ScanFields(s[1..], cur + [s[0]])
  }

  /** Go's `strings.Fields`: the maximal runs of non-white-space characters,
      in order, the ones a character-by-character scan collects; none
      exactly when the text is blank. */
  function Fields(s: string): (r: seq<string>)
    ensures r == ScanFields(s, "")
    ensures |r| == 0 <==> Blank(s)
    decreases |s|
  {
    var t := TrimLeft(s);
    ScanSkipsBlank(s[..|s| - |t|], t);
    assert s[..|s| - |t|] + t == s;
    if |t| == 0 then
      assert s[..|s|] == s;
      ScanBlank(s);
      []
    else
      var w := Word(t);
      assert t == w + t[|w|..];
      ScanAfterWord(w, t[|w|..]);
      assert !Blank(s) by { assert !IsSpace(s[|s| - |t|]); }
      [w] + Fields(t[|w|..])
  }

  /** A blank text has no fields. */
  lemma {:induction false} ScanBlank(s: string)
    requires Blank(s)
    ensures ScanFields(s, "") == []
    decreases |s|
  {
    if |s| > 0 {
      ScanBlank(s[1..]);
    }
  }

  /** White space before a text does not change its fields. */
  lemma {:induction false} ScanSkipsBlank(p: string, t: string)
    requires Blank(p)
    ensures ScanFields(p + t, "") == ScanFields(t, "")
    decreases |p|
  {
    if |p| > 0 {
      assert (p + t)[0] == p[0];
      assert (p + t)[1..] == p[1..] + t;
      ScanSkipsBlank(p[1..], t);
    } else {
      assert p + t == t;
    }
  }

  /** Scanning a run without white space appends it to the current word. */
  lemma {:induction false} ScanRun(w: string, x: string, cur: string)
    requires NoSpace(w)
    ensures ScanFields(w + x, cur) == ScanFields(x, cur + w)
    decreases |w|
  {
    if |w| > 0 {
      assert (w + x)[0] == w[0];
      assert (w + x)[1..] == w[1..] + x;
      ScanRun(w[1..], x, cur + [w[0]]);
      assert cur + [w[0]] + w[1..] == cur + w;
    } else {
      assert w + x == x;
      assert cur + w == cur;
    }
  }

  /** A word ended by white space or by the end of the text is the first field. */
  lemma ScanAfterWord(w: string, x: string)
    requires IsWord(w)
    requires |x| == 0 || IsSpace(x[0])
    ensures ScanFields(w + x, "") == [w] + ScanFields(x, "")
  {
    ScanRun(w, x, "");
    assert "" + w == w;
    if |x| == 0 {
      assert ScanFields(x, "") == [];
    } else {
      assert ScanFields(x, "") == ScanFields(x[1..], "");
    }
  }

  /** A non-empty run without white space. */
  predicate IsWord(x: string) {
    |x| > 0 && NoSpace(x)
  }

  /** Every field is a non-empty run without white space. */
  lemma {:induction false} FieldsAreWords(s: string)
    ensures forall k :: 0 <= k < |Fields(s)| ==> IsWord(Fields(s)[k])
    decreases |s|
  {
    var t := TrimLeft(s);
    if |t| == 0 {
      assert Fields(s) == [];
    } else {
      var w := Word(t);
      FieldsAreWords(t[|w|..]);
      ConsWords(w, Fields(t[|w|..]));
    }
  }

  lemma ConsWords(w: string, rest: seq<string>)
    requires IsWord(w)
    requires forall k :: 0 <= k < |rest| ==> IsWord(rest[k])
    ensures forall k :: 0 <= k < |[w] + rest| ==> IsWord(([w] + rest)[k])
  {
    var f := [w] + rest;
    forall k | 0 <= k < |f| ensures IsWord(f[k]) {
      if k == 0 {
        assert f[k] == w;
      } else {
        assert f[k] == rest[k - 1];
      }
    }
  }

  lemma TrimLeftOfNonSpace(s: string)
    requires |s| > 0 && !IsSpace(s[0])
    ensures TrimLeft(s) == s
  {
  }

  lemma {:induction false} WordOfAppend(w: string, x: string)
    requires NoSpace(w)
    requires |x| == 0 || IsSpace(x[0])
    ensures Word(w + x) == w
  {
    if |w| > 0 {
      assert (w + x)[1..] == w[1..] + x;
      WordOfAppend(w[1..], x);
    } else {
      assert w + x == x;
    }
  }

  /** Splitting words joined by single spaces gives the words back. */
  lemma {:induction false} FieldsOfJoin(ws: seq<string>)
    requires forall k :: 0 <= k < |ws| ==> IsWord(ws[k])
    ensures Fields(Join(ws, " ")) == ws
  {
    if |ws| == 1 {
      FieldsOfWord(ws[0]);
    } else if |ws| > 1 {
      FieldsOfJoin(ws[1..]);
      FieldsOfJoinStep(ws);
    }
  }

  /** A word is its only field. */
  lemma FieldsOfWord(w: string)
    requires IsWord(w)
    ensures Fields(w) == [w]
  {
    FieldsCons(w, []);
    assert w + [] == w;
    assert Fields([]) == [];
  }

  lemma FieldsOfJoinStep(ws: seq<string>)
    requires |ws| > 1 && IsWord(ws[0])
    requires Fields(Join(ws[1..], " ")) == ws[1..]
    ensures Fields(Join(ws, " ")) == ws
  {
    FieldsWordSpace(ws[0], Join(ws[1..], " "), ws[1..]);
    assert ws == [ws[0]] + ws[1..];
  }

  /** A word, a space and a text with fields `tail` has fields `[w] + tail`. */
  lemma FieldsWordSpace(w: string, rest: string, tail: seq<string>)
    requires IsWord(w) && Fields(rest) == tail
    ensures Fields(w + " " + rest) == [w] + tail
  {
    assert w + " " + rest == w + (" " + rest);
    FieldsCons(w, " " + rest);
    FieldsSkipSpace(rest);
  }

  /** A word followed by nothing or by white space is the first field. */
  lemma FieldsCons(w: string, x: string)
    requires IsWord(w)
    requires |x| == 0 || IsSpace(x[0])
    ensures Fields(w + x) == [w] + Fields(x)
  {
    var s := w + x;
    assert s[0] == w[0];
    TrimLeftOfNonSpace(s);
    WordOfAppend(w, x);
    assert s[|w|..] == x;
  }

  /** A leading space does not change the fields. */
  lemma FieldsSkipSpace(x: string)
    ensures Fields(" " + x) == Fields(x)
  {
    assert (" " + x)[1..] == x;
    TrimLeftStep(" " + x);
  }

  lemma {:induction false} JoinStartsWithWord(ws: seq<string>)
    requires |ws| > 0
    requires forall k :: 0 <= k < |ws| ==> |ws[k]| > 0 && NoSpace(ws[k])
    ensures |Join(ws, " ")| > 0 && !IsSpace(Join(ws, " ")[0])
  {
    if |ws| > 1 {
      assert Join(ws, " ")[0] == ws[0][0];
    }
  }

  /** `s` and `t` have white space at the same places and agree elsewhere. */
  predicate SameWords(s: string, t: string) {
    && |s| == |t|
    && forall i :: 0 <= i < |s| ==> IsSpace(s[i]) == IsSpace(t[i]) && (!IsSpace(s[i]) ==> s[i] == t[i])
  }

  lemma {:induction false} SameWordsTrimLeft(s: string, t: string)
    requires SameWords(s, t)
    ensures SameWords(TrimLeft(s), TrimLeft(t))
    decreases |s|
  {
    if |s| > 0 && IsSpace(s[0]) {
      assert SameWords(s[1..], t[1..]);
      SameWordsTrimLeft(s[1..], t[1..]);
      TrimLeftStep(s);
      TrimLeftStep(t);
    }
  }

  lemma {:induction false} SameWordsWord(s: string, t: string)
    requires SameWords(s, t)
    ensures Word(s) == Word(t)
    decreases |s|
  {
    if |s| > 0 && !IsSpace(s[0]) {
      assert SameWords(s[1..], t[1..]);
      SameWordsWord(s[1..], t[1..]);
    }
  }

  /** Fields only look at the words, not at which white space separates them. */
  lemma {:induction false} SameWordsFields(s: string, t: string)
    requires SameWords(s, t)
    ensures Fields(s) == Fields(t)
    decreases |s|
  {
    SameWordsTrimLeft(s, t);
    var a := TrimLeft(s);
    var b := TrimLeft(t);
    if |a| > 0 {
      SameWordsWord(a, b);
      var w := Word(a);
      assert SameWords(a[|w|..], b[|w|..]);
      SameWordsFields(a[|w|..], b[|w|..]);
    }
  }

  // ------------------------------------------------------------ ordering

  /** Python's string comparison `a <= b`: code point by code point, a proper
      prefix first. */
  predicate LexLe(a: string, b: string)
    decreases |a|
  {
    |a| == 0 || (|b| > 0 && (a[0] < b[0] || (a[0] == b[0] && LexLe(a[1..], b[1..]))))
  }

  /** Any two strings are ordered one way or the other. */
  lemma {:induction false} LexLeTotal(a: string, b: string)
    ensures LexLe(a, b) || LexLe(b, a)
    decreases |a|
  {
    if |a| > 0 && |b| > 0 && a[0] == b[0] {
      LexLeTotal(a[1..], b[1..]);
    }
  }

  /** Only equal strings are ordered both ways. */
  lemma {:induction false} LexLeAntisymmetric(a: string, b: string)
    requires LexLe(a, b) && LexLe(b, a)
    ensures a == b
    decreases |a|
  {
    if |a| > 0 {
      LexLeAntisymmetric(a[1..], b[1..]);
      assert a == [a[0]] + a[1..] && b == [b[0]] + b[1..];
    }
  }

  // ---------------------------------------------------- substring search

  /** The first position where `sub` occurs in `s`, searching from `from`. */
  function FindFrom(s: string, sub: string, from: nat): (r: Option<nat>)
    ensures r.Some? ==> from <= r.value && OccursAt(s, sub, r.value)
    ensures forall j :: from <= j && (r.None? || j < r.value) ==> !OccursAt(s, sub, j)
    decreases |s| + 1 - from
  {
    if from + |sub| > |s| then None
    else if OccursAt(s, sub, from) then Some(from)
    else FindFrom(s, sub, from + 1)
  }

  /** Python's `s.split(sep)[0]`: the text before the first `sep`, or all of
      `s` when `sep` does not occur. Python rejects an empty separator. */
  function BeforeFirst(s: string, sep: string): (r: string)
    requires |sep| > 0
    ensures r <= s
    ensures |r| < |s| ==> OccursAt(s, sep, |r|)
    ensures forall j :: 0 <= j < |r| ==> !OccursAt(s, sep, j)
    ensures |r| == |s| ==> forall j :: !OccursAt(s, sep, j)
  {
    match FindFrom(s, sep, 0)
    case None => s
    case Some(i) => s[..i]
  }

  /** The text before the first occurrence at `k` is the first `k` characters. */
  lemma BeforeFirstAt(s: string, sep: string, k: nat)
    requires |sep| > 0 && OccursAt(s, sep, k)
    requires forall j :: 0 <= j < k ==> !OccursAt(s, sep, j)
    ensures BeforeFirst(s, sep) == s[..k]
  {
    var r := BeforeFirst(s, sep);
    assert |r| < |s|;
    assert !(|r| < k);
    assert !(|r| > k);
  }
}

=== FILE: websrv.dfy ===
/** The port number the web server's address names, used to list the LAN
    addresses it can be reached at. The server itself is not part of this
    model. */
module WebSrv {
  import opened Wrappers
  import opened Text
  import opened Decimal

  /** The port used when the address names none. */
  const DefaultPort := 8080

  /** `parsePort(addr)`: the integer after the last ':' when `strconv.Atoi`
      accepts it, and 8080 when there is no ':' or the text after it is not
      an integer (empty included). */
  function ParsePort(addr: string): (p: int)
    ensures ':' !in addr ==> p == DefaultPort
    ensures MinInt64 <= p <= MaxInt64
  {
    match LastIndexOf(addr, ':')
    case None => DefaultPort
    case Some(colon) =>
      PortOf(addr[colon + 1..])
  }

  /** Position `i` holds the last ':' of `addr`. */
  predicate LastColon(addr: string, i: int) {
    0 <= i < |addr| && addr[i] == ':' && ':' !in addr[i + 1..]
  }

  /** With its last ':' at `i`, the address names the port the text after
      position `i` gives. */
  lemma ParsePortAtLastColon(addr: string, i: int)
    requires LastColon(addr, i)
    ensures ParsePort(addr) == PortOf(addr[i + 1..])
  {
    var j := LastIndexOf(addr, ':').value;
    assert forall k :: j < k < |addr| ==> addr[k] == addr[j + 1..][k - j - 1];
    assert forall k :: i < k < |addr| ==> addr[k] == addr[i + 1..][k - i - 1];
  }

  /** The port the text after the colon names: its integer value, or the
      default when Atoi refuses it. */
  function PortOf(suffix: string): (p: int)
    ensures MinInt64 <= p <= MaxInt64
    ensures Atoi(suffix).None? ==> p == DefaultPort
    ensures Atoi(suffix).Some? ==> p == Atoi(suffix).value
  {
    match Atoi(suffix)
    case Some(v) => v
    case None => DefaultPort
  }

  /** Only the text after the last ':' matters: whatever comes before it,
      host and earlier colons included, does not change the port. */
  lemma ParsePortSuffixOnly(host: string, suffix: string)
    requires ':' !in suffix
    ensures ParsePort(host + ":" + suffix) == ParsePort(":" + suffix)
  {
    var a := host + ":" + suffix;
    var b := ":" + suffix;
    assert a[|host| + 1..] == suffix;
    assert b[1..] == suffix;
    ParsePortAtLastColon(a, |host|);
    ParsePortAtLastColon(b, 0);
  }

  /** An address `host:n` with a printed 64-bit integer gives back `n`. */
  lemma ParsePortFormatInt(host: string, n: Int64)
    ensures ParsePort(host + ":" + FormatInt(n)) == n
  {
    var s := FormatInt(n);
    assert ':' !in s by {
      if n < 0 {
        var m: nat := -(n as int);
        assert s == "-" + FormatNat(m);
        assert forall k :: 1 <= k < |s| ==> IsDigit(s[k]);
      } else {
        assert forall k :: 0 <= k < |s| ==> IsDigit(s[k]);
      }
    }
    var a := host + ":" + s;
    assert a[|host| + 1..] == s;
    ParsePortAtLastColon(a, |host|);
    AtoiFormatInt(n);
  }

  /** An address ending in a colon, or in anything Atoi refuses, falls back to
      the default port. */
  lemma ParsePortNotNumeric(host: string, suffix: string)
    requires ':' !in suffix && Atoi(suffix).None?
    ensures ParsePort(host + ":" + suffix) == DefaultPort
  {
    var a := host + ":" + suffix;
    assert a[|host| + 1..] == suffix;
    ParsePortAtLastColon(a, |host|);
  }

  /** The listening address the server is started on. */
  lemma ParsePortExample()
    ensures ParsePort("0.0.0.0:8080") == 8080
  {
    DefaultPortText();
    ParsePortFormatInt("0.0.0.0", 8080);
  }

  /** 8080 prints as "8080". */
  lemma DefaultPortText()
    ensures FormatInt(8080) == "8080"
  {
    assert FormatNat(8) == "8";
    assert FormatNat(80) == "80";
    assert FormatNat(808) == "808";
  }
}

=== FILE: wrappers.dfy ===
/** Option and Result, the two failure-carrying datatypes the model uses in
    place of Python's NaN/None sentinels and raised exceptions. */
module Wrappers {

  datatype Option<+T> = None | Some(value: T) {

    /** The value, or `default` when absent (Python's `x if x is not None else d`). */
    function GetOr(default: T): T {
      match this
      case Some(v) => v
      case None => default
    }
  }

  datatype Result<+R, +E> = Ok(value: R) | Err(error: E)
}
